=== FILE: README.md ===
# Healthcare client: session, routing and screen logic

A Dafny model of the logic of a React client for a small clinic. The client has three kinds of user: administrators, doctors and patients. The model covers:

- the authentication context: restoring the session at start-up, signing in and signing out;
- the route table and the role guard in front of every page, and the role-dependent sidebar;
- the login screen and its role-based redirect;
- the shared helpers: status colours, the email and phone validators, and the date formatting shape; also the constants (roles, statuses, blood groups, specializations);
- the data logic of every screen:
  - the patient and doctor dashboards;
  - the patient's medical history with its filters and health summary;
  - the doctor's appointment list and record form, and the doctor's patient records;
  - the patient's booking screen;
  - the administrator's user, patient, doctor and appointment management forms.

JavaScript values become Dafny datatypes:

- `null` or `undefined` becomes `Option`. A medical record's diagnosis is the one exception: it is a string, and a missing diagnosis is the empty string (see "Left out").
- A "truthy" string is `Some` and non-empty.
- A form object is a `map<string, Value>`, so `{ ...form, [name]: value }` can add any key, as in the source.
- A date-time is a `Stamp`: the text the backend sent, the instant `new Date(text)` denotes, and its local calendar date.

What the browser and the backend supply is passed in as parameters:

- the current time, today's midnight, a week ahead and six months ago;
- each backend list, as an `Option` whose `None` means the request threw;
- whether a save succeeded.

Modules follow the source files. Shared logic sits in a few modules of its own:

- `Wrappers`, `Text`, `Seqs`: options, string operations, filtering, sorting, counting;
- `Entities`: the backend records;
- `Forms`: the object-form operations;
- `AccountForm`: the nested account part of the patient and doctor forms;
- `Age`: `calculateAge`.

## Model

| member | source | states |
|---|---|---|
| Constants.ParseRoleName | src/utils/constants.js:3-7 | reading back a role's printed name gives the same role, so the three role names are distinct |
| Constants.UserRolesAreTheRoles | src/utils/constants.js:3-7 | `USER_ROLES` maps each key to itself, and its keys are exactly the strings that parse as roles |
| Constants.ParseStatusName | src/utils/constants.js:9-13 | reading back a status's printed name gives the same status |
| Constants.AppointmentStatusIsTheStatuses | src/utils/constants.js:9-13 | `APPOINTMENT_STATUS` maps each key to itself, its keys are the parseable statuses, and every status is offered in the select options |
| Constants.BloodGroupsWellFormed | src/utils/constants.js:15 | eight distinct blood groups, 'A+' among them |
| Constants.SpecializationsWellFormed | src/utils/constants.js:17-28 | ten distinct specializations |
| Helpers.StatusColor | src/utils/helpers.js:19-26 | the colour is one of the four colours of the switch |
| Helpers.StatusColorIdentifiesStatus | src/utils/helpers.js:19-26 | each status has its own colour; grey is given exactly to non-statuses; equal colours of a status mean the same status |
| Helpers.Formatted | src/utils/helpers.js:1-17 | a falsy date string renders as '', any other as the locale rendering |
| Helpers.ValidateEmailMatchesPattern | src/utils/helpers.js:28-31 | the direct reading of `validateEmail` accepts exactly the strings `^[^\s@]+@[^\s@]+\.[^\s@]+$` matches |
| Helpers.ValidEmailHasOneAt | src/utils/helpers.js:28-31 | an accepted email has exactly one '@' and no whitespace |
| Helpers.ValidatePhoneMatchesPattern | src/utils/helpers.js:33-36 | the direct reading of `validatePhone` accepts exactly the strings `^\+?[\d\s-()]{10,}$` matches, with both readings of the optional '+' |
| Helpers.ValidatePhoneRejects | src/utils/helpers.js:33-36 | fewer than ten characters, or any ASCII letter, is rejected |
| Session.Boot | src/context/AuthContext.jsx:15-16 | the provider starts with no user, loading, over whatever storage holds |
| Session.Init | src/context/AuthContext.jsx:18-25 | start-up restores the stored user when present and ends loading either way |
| Session.ServiceLogin | src/services/authService.js:4-11 | the service throws exactly when the backend call fails and otherwise returns the response unchanged |
| Session.Login | src/context/AuthContext.jsx:27-40 | success exactly when the backend answers with success; then the response becomes both the user and the stored value; a refusal passes the backend's message on; a thrown error gives the fixed retry message; any failure leaves the state alone |
| Session.Logout | src/context/AuthContext.jsx:42-46 | the user and the storage slot are both cleared, whatever the backend does |
| Session.LogoutIgnoresBackend | src/context/AuthContext.jsx:42-46 | the local outcome of a logout does not depend on the backend call |
| Session.StartupSynced | src/context/AuthContext.jsx:15-25 | after start-up the shown user is the stored one and loading is over |
| Session.RunKeepsSynced | src/context/AuthContext.jsx:18-46 | any sequence of sign-ins, sign-outs and reloads keeps the shown user equal to the stored one |
| Session.LoginThenReloadRestores | src/context/AuthContext.jsx:18-40 | after a successful login, a reload restores exactly the identity the backend returned |
| Routing.MismatchTarget | src/components/auth/ProtectedRoute.jsx:17-29 | a role mismatch sends a known role to its own dashboard and any other role to '/login' |
| Routing.Guard | src/components/auth/ProtectedRoute.jsx:6-31 | spinner while loading, '/login' without a user; the page renders exactly when the user is present and the role list is empty or names the role; otherwise the mismatch target |
| Routing.DeclaredPaths | src/App.js:25-87 | the table declares exactly the thirteen paths |
| Routing.RouteTable | src/App.js:25-87 | '/login' is open and '/' forwards to it; '/admin/' pages take ADMIN only; '/doctor/' and '/patient/' pages take their own role or ADMIN |
| Routing.AdminAdmittedEverywhere | src/App.js:29-87 | every guarded route has a non-empty role list containing ADMIN, so an administrator is admitted everywhere |
| Routing.DashboardAdmitsRole | src/components/auth/ProtectedRoute.jsx:17-29 | the dashboard each role is redirected to admits that role |
| Routing.NoRedirectLoop | src/components/auth/ProtectedRoute.jsx:6-31 | every navigation settles after at most one redirect, on a page the session may see |
| Routing.UnknownRoleSeesOnlyLogin | src/components/auth/ProtectedRoute.jsx:17-29 | a signed-in user whose role is none of the three ends on '/login' from every declared path |
| Routing.PatientToAdminUsers | src/App.js:34-38 | a patient opening '/admin/users' lands on the patient dashboard |
| Sidebar.MenuItems | src/components/common/Sidebar.jsx:12-37 | the menu is empty exactly when there is no user or the role is unknown; otherwise it starts with the role's dashboard |
| Sidebar.ActiveCount | src/components/common/Sidebar.jsx:10 | the number of highlighted links is at most the menu's length and zero exactly when no link's path is the location |
| Sidebar.DistinctPathsOneActive | src/components/common/Sidebar.jsx:10 | with distinct paths at most one link is highlighted |
| Sidebar.MenuHighlightsAtMostOne | src/components/common/Sidebar.jsx:10-37 | every menu has distinct paths, so at most one link is ever active |
| Sidebar.MenuLinksAdmitRole | src/components/common/Sidebar.jsx:12-37 | every link of a role's menu goes to a guarded route that admits that role |
| Sidebar.MenuCoversRolePages | src/components/common/Sidebar.jsx:12-37 | every route guarded by a role's section list has a link in that role's menu |
| LoginScreen.Initial | src/components/auth/Login.jsx:7-12 | both credentials blank, no error, not loading |
| LoginScreen.HandleChange | src/components/auth/Login.jsx:16-21 | the named credential takes the typed value; nothing changes while a sign-in is in flight |
| LoginScreen.Destination | src/components/auth/Login.jsx:33-45 | a known role goes to its own dashboard; any other role goes to the administrator dashboard |
| LoginScreen.BeginSubmit | src/components/auth/Login.jsx:25-26 | the submit turns loading on and clears the error |
| LoginScreen.Submit | src/components/auth/Login.jsx:23-51 | the session steps as `login` does; on success the screen navigates by the stored role; on failure it shows the message or the fallback; loading is off afterwards |
| LoginScreen.SignInLandsOnOwnDashboard | src/components/auth/Login.jsx:33-42 | a successful sign-in with a known role navigates to that role's dashboard, whose guard renders it |
| LoginScreen.UnknownRoleBouncesToLogin | src/components/auth/Login.jsx:43-44 | a successful sign-in with an unknown role goes to the administrator dashboard, whose guard sends it to '/login' |
| LoginScreen.RejectedSignInShowsError | src/components/auth/Login.jsx:46-48 | a failed sign-in leaves the session alone, does not navigate, and shows a non-empty error |
| Age.CalculateAge | src/components/patient/PatientDashboard.jsx:66-76 | 'N/A' exactly for a missing or empty birth date |
| Age.AgeIsCompletedYears | src/components/patient/PatientDashboard.jsx:66-76 | the age is the number of years whose anniversary has been reached while the next has not |
| Age.CompletedYearsUnique | src/components/patient/PatientDashboard.jsx:66-76 | only one number of years fits that description |
| Forms.SetField | src/components/admin/AppointmentManagement.jsx:51-57 | `{ ...f, [name]: v }`: the named field gets the value, every other field keeps its own, and a new name is added |
| Forms.CheckedOrValue | src/components/admin/UserManagement.jsx:39-45 | a checkbox contributes its `checked` flag, any other input its value |
| Forms.NestedChange | src/components/admin/DoctorManagement.jsx:48-66 | a 'user.' name writes the rest of the name inside the nested account and keeps every other field; any other name sets that top-level field |
| Forms.NestedChangeOnlyNamedField | src/components/admin/PatientManagement.jsx:52-70 | a nested change touches only the named account field and leaves every top-level field alone |
| Forms.SaveRequestOf | src/components/admin/UserManagement.jsx:47-61 | an update of the edited id exactly when something is being edited, otherwise a create; the payload is the form |
| Forms.Reset | src/components/admin/UserManagement.jsx:98-110 | the defaults and nothing being edited; the modal is left as it was |
| Forms.OpenAdd | src/components/admin/UserManagement.jsx:112-115 | the defaults, nothing being edited, the modal shown |
| Forms.StartEdit | src/components/admin/UserManagement.jsx:63-76 | the entity's form, its id remembered, the modal shown |
| Forms.AfterSave | src/components/admin/UserManagement.jsx:47-61 | on success the modal closes and the form resets; on failure the screen is unchanged |
| Forms.SaveAfterOpen | src/components/admin/UserManagement.jsx:47-76 | an add creates the defaults, an edit updates that id with its form, a failed save can be retried with the same request, and after a successful save the next save creates |
| PatientDashboard.Initial | src/components/patient/PatientDashboard.jsx:12-18 | empty lists, no patient, loading |
| PatientDashboard.FindPatient | src/components/patient/PatientDashboard.jsx:29-30 | the patient found has the user's account id; none is found exactly when no patient has it |
| PatientDashboard.Upcoming | src/components/patient/PatientDashboard.jsx:43-46 | exactly the future scheduled appointments, each as often as in the input, soonest first |
| PatientDashboard.Recent | src/components/patient/PatientDashboard.jsx:48-51 | exactly the past or completed appointments, each as often as in the input, latest first |
| PatientDashboard.Load | src/components/patient/PatientDashboard.jsx:20-64 | nothing happens without a truthy user id; otherwise loading ends; the lists are filled only when a patient matches and both requests answer, and then they are the first five, five and three |
| PatientDashboard.AgeShown | src/components/patient/PatientDashboard.jsx:120 | the age card is 'N/A' exactly when there is no patient or no birth date, and otherwise the number of years whose anniversary has been reached while the next one has not |
| PatientDashboard.UpcomingRecentPartition | src/components/patient/PatientDashboard.jsx:43-51 | no appointment is both upcoming and recent; one is in neither exactly when it is in the future and neither scheduled nor completed |
| PatientDashboard.ShownListsCapped | src/components/patient/PatientDashboard.jsx:53-57 | the shown lists respect their caps and are prefixes of the full lists |
| PatientDashboard.ShownUpcomingAreSoonest | src/components/patient/PatientDashboard.jsx:43-54 | an upcoming appointment left out is no earlier than any shown one |
| PatientDashboard.NoMatchingPatientKeepsEmpty | src/components/patient/PatientDashboard.jsx:30-32 | with no matching patient the lists stay empty and loading ends |
| DoctorDashboard.Initial | src/components/doctor/DoctorDashboard.jsx:12-19 | empty lists, zero counters, no doctor, loading |
| DoctorDashboard.FindDoctor | src/components/doctor/DoctorDashboard.jsx:30-31 | the doctor found has the user's account id; none is found exactly when no doctor has it |
| DoctorDashboard.TodayFor | src/components/doctor/DoctorDashboard.jsx:43 | exactly today's appointments of this doctor |
| DoctorDashboard.UpcomingWindow | src/components/doctor/DoctorDashboard.jsx:46-53 | exactly the scheduled appointments after today's midnight and no later than a week from now |
| DoctorDashboard.CompletedCount | src/components/doctor/DoctorDashboard.jsx:56 | at most the number of appointments, and zero exactly when none is completed |
| DoctorDashboard.DistinctPatients | src/components/doctor/DoctorDashboard.jsx:59 | at most the number of appointments and positive when there is one |
| DoctorDashboard.Load | src/components/doctor/DoctorDashboard.jsx:21-73 | nothing happens without a truthy user id; otherwise loading ends; the cards are filled only when a doctor matches and both requests answer |
| DoctorDashboard.ExperienceShown | src/components/doctor/DoctorDashboard.jsx:117 | the experience card shows the doctor's experience, or zero |
| DoctorDashboard.ShownUpcomingInWindow | src/components/doctor/DoctorDashboard.jsx:48-63 | at most five upcoming appointments are shown, all in the window, the window's first ones in backend order |
| DoctorDashboard.CountersGrow | src/components/doctor/DoctorDashboard.jsx:55-59 | one more appointment adds a completed visit exactly when it is completed, and a patient exactly when its patient is new |
| DoctorDashboard.NoMatchingDoctorKeepsZero | src/components/doctor/DoctorDashboard.jsx:31-33 | with no matching doctor the cards stay at zero and loading ends |
| MedicalHistory.SortNewestFirst | src/components/patient/MyMedicalHistory.jsx:44-46 | the same records, latest visit first |
| MedicalHistory.Load | src/components/patient/MyMedicalHistory.jsx:23-53 | nothing happens without a truthy user id; otherwise loading ends; a matching patient is found whenever one exists; the history is that patient's records, latest first, and empty when no patient matches or the request fails |
| MedicalHistory.YearOption | src/components/patient/MyMedicalHistory.jsx:218-219 | the option for a year is the 1st of January of that year |
| MedicalHistory.SkippedStepIsFilter | src/components/patient/MyMedicalHistory.jsx:55-84 | a step skipped for an empty control is the same as filtering by its test |
| MedicalHistory.FiltersAreOneFilter | src/components/patient/MyMedicalHistory.jsx:55-84 | the chain of steps, as written and corrected, is one order-keeping filter by the conjunction of the tests |
| MedicalHistory.FiltersShow | src/components/patient/MyMedicalHistory.jsx:55-84 | with the corrected year step, a record is shown exactly when it matches the search, the doctor and the year |
| MedicalHistory.ClearedFiltersShowAll | src/components/patient/MyMedicalHistory.jsx:55-84 | with every control empty the whole history is shown |
| MedicalHistory.UniqueDoctorsListsEachOnce | src/components/patient/MyMedicalHistory.jsx:98-101 | the doctor drop-down lists each doctor of the history exactly once, in ascending order, and nothing else |
| MedicalHistory.UniqueYearsListsEachOnce | src/components/patient/MyMedicalHistory.jsx:91-96 | the year drop-down lists each visit year exactly once, latest first, and nothing else |
| MedicalHistory.YearOptionFindsOnlyJanuary | src/components/patient/MyMedicalHistory.jsx:72-80 | a history of one visit in March 2024 offers 2024, and selecting it as written shows nothing |
| MedicalHistory.YearOptionFindsItsVisits | src/components/patient/MyMedicalHistory.jsx:72-80 | with the corrected step, every offered year shows exactly the visits of that year, and at least one |
| MedicalHistory.CountedDiagnosesSpec | src/components/patient/MyMedicalHistory.jsx:113-118 | the tally's keys are distinct, each a real diagnosis that occurs, and every counted visit's diagnosis is a key |
| MedicalHistory.RankingKeepsEntries | src/components/patient/MyMedicalHistory.jsx:120-121 | sorting a tally keeps its entries and their distinctness and orders them by non-increasing count |
| MedicalHistory.RankedSpec | src/components/patient/MyMedicalHistory.jsx:113-121 | the ranking has one entry per counted diagnosis, with its true count, most frequent first |
| MedicalHistory.UniqueDoctorsCount | src/components/patient/MyMedicalHistory.jsx:98-106 | the doctor drop-down lists as many names as `new Set` of the doctor names holds |
| MedicalHistory.HealthSummary | src/components/patient/MyMedicalHistory.jsx:103-130 | total visits is the history's length; the doctor tile is the number of names the doctor drop-down offers; recent is zero exactly when every visit is older than six months; the conditions list is the top three of the ranking |
| MedicalHistory.SummaryGrows | src/components/patient/MyMedicalHistory.jsx:104-111 | each appended visit adds one visit, one doctor exactly when its doctor is new, and one recent visit exactly when it is at or after six months ago; with the empty history's zeros this fixes both counts |
| MedicalHistory.RecentGrows | src/components/patient/MyMedicalHistory.jsx:106-111 | an appended visit adds one to the recent visits exactly when it is at or after six months ago |
| MedicalHistory.DoctorsGrow | src/components/patient/MyMedicalHistory.jsx:105 | an appended visit adds one distinct doctor exactly when its doctor's name is not yet in the history |
| MedicalHistory.MostCommonIsTopThree | src/components/patient/MyMedicalHistory.jsx:120-122 | at most three entries, three when there are that many diagnoses, distinct and by non-increasing true count |
| MedicalHistory.MostCommonLeavesOutNoMoreFrequent | src/components/patient/MyMedicalHistory.jsx:120-122 | a diagnosis left out of the top three is no more frequent than any shown one |
| MedicalHistory.PrescriptionPreview | src/components/patient/MyMedicalHistory.jsx:293-299 | a preview exactly for a truthy prescription: the whole of it up to 100 characters, else its first 100 characters and '...' |
| PatientRecords.Initial | src/components/doctor/PatientRecords.jsx:13-22 | no doctor, no records, no patients, loading |
| PatientRecords.RelevantPatients | src/components/doctor/PatientRecords.jsx:50-54 | exactly the patients of the full list with at least one record |
| PatientRecords.Load | src/components/doctor/PatientRecords.jsx:24-62 | nothing happens without a truthy user id; otherwise loading ends; a matching doctor is found whenever one exists; the records are that doctor's, latest first; the patient list is the relevant patients, or empty when that request fails |
| PatientRecords.FiltersAreOneFilter | src/components/doctor/PatientRecords.jsx:64-81 | the two steps are one order-keeping filter by the conjunction of their tests |
| PatientRecords.FiltersShow | src/components/doctor/PatientRecords.jsx:64-81 | a record is shown exactly when it matches the search, case-insensitively on patient name or diagnosis, and the selected patient |
| PatientRecords.ClearedFiltersShowAll | src/components/doctor/PatientRecords.jsx:143-149 | 'Clear Filters' shows every record |
| PatientRecords.SelectingPatientShowsTheirRecords | src/components/doctor/PatientRecords.jsx:134-139 | choosing a patient in the drop-down shows exactly that patient's records |
| PatientRecords.RecordPatientsAreOffered | src/components/doctor/PatientRecords.jsx:50-54 | every known patient of a record is offered in the drop-down |
| PatientRecords.PatientStats | src/components/doctor/PatientRecords.jsx:88-99 | total records is the number of records; the patient and this-month counts are no larger; no patients exactly when no records; no records this month exactly when none falls in today's month |
| PatientRecords.StatsGrow | src/components/doctor/PatientRecords.jsx:88-99 | one more record adds one record, one patient exactly when it is a new patient, and one this-month record exactly when it is this month's |
| PatientRecords.DiagnosisShown | src/components/doctor/PatientRecords.jsx:211 | never blank: a non-empty diagnosis as it is, and 'N/A' exactly for an empty one |
| PatientRecords.TreatmentShown | src/components/doctor/PatientRecords.jsx:216-220 | 'N/A' without a treatment; the whole treatment up to 50 characters; else its first 50 and '...' |
| MyAppointments.Initial | src/components/doctor/MyAppointments.jsx:14-30 | no doctor, no appointments, loading |
| MyAppointments.SortNewestFirst | src/components/doctor/MyAppointments.jsx:53-55 | the same appointments, latest first |
| MyAppointments.Load | src/components/doctor/MyAppointments.jsx:32-62 | nothing happens without a truthy user id; otherwise loading ends; a matching doctor is found whenever one exists; the list is that doctor's appointments, latest first |
| MyAppointments.FiltersAreOneFilter | src/components/doctor/MyAppointments.jsx:64-79 | the two steps are one order-keeping filter by the conjunction of their tests |
| MyAppointments.FiltersShow | src/components/doctor/MyAppointments.jsx:64-79 | an appointment is shown exactly when it has the selected status and its rendered day is the selected date |
| MyAppointments.ClearedFiltersShowAll | src/components/doctor/MyAppointments.jsx:181-184 | 'Clear Filters' shows every appointment |
| MyAppointments.StatusCount | src/components/doctor/MyAppointments.jsx:197-206 | a counter card is at most the list's length, and zero exactly when no appointment has the status |
| MyAppointments.TodayCount | src/components/doctor/MyAppointments.jsx:215-217 | at most the list's length, and zero exactly when no appointment's rendered day is today's |
| MyAppointments.CountMatchesStatusFilter | src/components/doctor/MyAppointments.jsx:64-79 | a status card counts what the status filter shows for that status |
| MyAppointments.CountMatchesDateFilter | src/components/doctor/MyAppointments.jsx:213-217 | the Today card counts what the date filter shows for today's key |
| MyAppointments.StatusCountsDisjoint | src/components/doctor/MyAppointments.jsx:197-206 | two different status cards together count no more than all the appointments |
| MyAppointments.RowActionFor | src/components/doctor/MyAppointments.jsx:276-286 | 'Add Record' exactly for a scheduled appointment, the completed badge exactly for a completed one |
| MyAppointments.OpenRecordForm | src/components/doctor/MyAppointments.jsx:91-102 | the record modal opens on that appointment with every record field blank |
| MyAppointments.RecordChange | src/components/doctor/MyAppointments.jsx:104-110 | only the named record field changes |
| MyAppointments.RecordPayload | src/components/doctor/MyAppointments.jsx:117-122 | the form's fields over the appointment's patient, the doctor and the appointment id; a form field of the same name wins |
| MyAppointments.SubmitRecord | src/components/doctor/MyAppointments.jsx:112-136 | nothing without a selected appointment and a doctor; otherwise the record is created first and, only if that succeeds, the appointment is marked completed; the modal closes and the list is refetched only when both succeed; one alert either way |
| MyAppointments.TypeAll | src/components/doctor/MyAppointments.jsx:104-110 | typing into the record form's fields keeps the selected appointment, whether the modal shows, and the six fields |
| MyAppointments.AddRecordLinksAppointment | src/components/doctor/MyAppointments.jsx:91-136 | a record opened on an appointment, typed into and submitted carries the appointment's patient, the doctor and the appointment, and every typed field as it stands, then completes that appointment |
| MyAppointments.SubmitLinksRecord | src/components/doctor/MyAppointments.jsx:112-136 | submitting a six-field record form for an appointment sends the three links and the fields unchanged, then the status update |
| AppointmentManagement.Filtered | src/components/admin/AppointmentManagement.jsx:128-131 | all appointments for no status, else exactly those with the status |
| AppointmentManagement.FilteredKeepsOrder | src/components/admin/AppointmentManagement.jsx:128-131 | the list is an order-keeping filter by the status test |
| AppointmentManagement.LocalDateTime | src/components/admin/AppointmentManagement.jsx:81 | the first sixteen characters of the backend text, or all of a shorter one |
| AppointmentManagement.EditForm | src/components/admin/AppointmentManagement.jsx:78-86 | the appointment's patient, doctor, local date-time, status, and its texts or '' |
| AppointmentManagement.HandleEdit | src/components/admin/AppointmentManagement.jsx:76-88 | the edit form of that appointment, its id remembered, the modal shown |
| AppointmentManagement.OpenAdd | src/components/admin/AppointmentManagement.jsx:110-126 | the default form, nothing edited, the modal shown |
| AppointmentManagement.HandleChange | src/components/admin/AppointmentManagement.jsx:51-57 | only the named field changes |
| AppointmentManagement.Submit | src/components/admin/AppointmentManagement.jsx:59-74 | an update of the edited appointment or a create, carrying the form; a successful save closes and resets, a failed one keeps the screen |
| AppointmentManagement.PrescriptionFieldFollowsStatus | src/components/admin/AppointmentManagement.jsx:315-327 | the prescription field is hidden on a new appointment, shown on an edit exactly for a completed one, and follows the chosen status |
| AppointmentManagement.ChangesKeepFields | src/components/admin/AppointmentManagement.jsx:51-57 | changing a form field keeps the form's set of fields |
| AppointmentManagement.EditThenSaveUpdatesSameAppointment | src/components/admin/AppointmentManagement.jsx:59-88 | saving right after an edit updates that appointment with its own patient, doctor and status |
| BookAppointment.Initial | src/components/patient/BookAppointment.jsx:12-23 | no doctors, no patient, blank form, no messages, not loading |
| BookAppointment.Load | src/components/patient/BookAppointment.jsx:33-49 | a failed request sets the load error; the doctors are kept even when the patient lookup throws; the patient found has the user's account id, and none is found only when no patient has it |
| BookAppointment.FilterBySpecialization | src/components/patient/BookAppointment.jsx:51-59 | every doctor for no selection, else exactly the doctors of that specialization |
| BookAppointment.HandleChange | src/components/patient/BookAppointment.jsx:61-67 | only the named field changes |
| BookAppointment.Payload | src/components/patient/BookAppointment.jsx:81-84 | the form's fields with the patient's id laid over them |
| BookAppointment.Submit | src/components/patient/BookAppointment.jsx:69-101 | nothing while a booking is in flight; without a patient only the error is set and nothing is sent; otherwise the payload is sent and the outcome sets one message, blanking the form only on success |
| BookAppointment.SelectedDoctor | src/components/patient/BookAppointment.jsx:109-111 | the doctor whose decimal id is the form's `doctorId`; none exactly when no doctor's id reads that way |
| BookAppointment.Grid | src/components/patient/BookAppointment.jsx:241 | the first six filtered doctors, or all of fewer |
| BookAppointment.SelectDoctor | src/components/patient/BookAppointment.jsx:253 | 'Select Doctor' sets `doctorId` to that doctor's id as text and nothing else |
| BookAppointment.SelectingCardShowsThatDoctor | src/components/patient/BookAppointment.jsx:109-111 | with unique ids, selecting any card of the grid makes that doctor the selected one |
| BookAppointment.BookingThenBlank | src/components/patient/BookAppointment.jsx:69-101 | a successful booking leaves the blank initial form and only the success message; the request carried the patient's id |
| AccountForm.Blank | src/components/admin/DoctorManagement.jsx:14-23 | a blank, active account with the given role |
| AccountForm.Edit | src/components/admin/PatientManagement.jsx:92-101 | an account's own fields, the password blank, a missing phone as '', the role forced |
| UserManagement.EditForm | src/components/admin/UserManagement.jsx:63-76 | the account's own fields and role, the password blank, a missing phone as '' |
| UserManagement.HandleEdit | src/components/admin/UserManagement.jsx:63-76 | the account's edit form, its id remembered, the modal shown |
| UserManagement.OpenAdd | src/components/admin/UserManagement.jsx:98-115 | the default form, nothing edited, the modal shown |
| UserManagement.HandleChange | src/components/admin/UserManagement.jsx:39-45 | the named field takes `checked` or the value; the disabled username input changes nothing while editing |
| UserManagement.RequiredFields | src/components/admin/UserManagement.jsx:206-283 | the password and the username are required exactly when creating; email, names and role always |
| UserManagement.Submit | src/components/admin/UserManagement.jsx:47-61 | an update of the edited account or a create, carrying the form; a successful save closes and resets, a failed one keeps the screen |
| UserManagement.BlankPasswordOnlyForEdits | src/components/admin/UserManagement.jsx:276-283 | on an add form whose other required fields are filled, the form submits exactly when the password is filled; a fresh add form cannot be submitted; an edit with the blank password goes through |
| UserManagement.EditKeepsUsername | src/components/admin/UserManagement.jsx:207 | whatever is typed while editing, the update carries the account's own username |
| UserManagement.ApplyAll | src/components/admin/UserManagement.jsx:39-45 | a sequence of change events keeps what is edited and whether the modal shows |
| UserManagement.EditingKeepsUsername | src/components/admin/UserManagement.jsx:207 | no sequence of change events alters the username while editing |
| UserManagement.RowActions | src/components/admin/UserManagement.jsx:162-181 | 'Deactivate' exactly for an active account, between 'Edit' and 'Delete' |
| UserManagement.PhoneShown | src/components/admin/UserManagement.jsx:150 | the phone number, or 'N/A' |
| DoctorManagement.NumberOrBlank | src/components/admin/DoctorManagement.jsx:100-102 | a missing or zero number becomes '' |
| DoctorManagement.EditForm | src/components/admin/DoctorManagement.jsx:85-107 | the doctor's account with the DOCTOR role and its profile fields, texts or '', numbers or '' |
| DoctorManagement.HandleEdit | src/components/admin/DoctorManagement.jsx:85-107 | the doctor's edit form, its id remembered, the modal shown |
| DoctorManagement.OpenAdd | src/components/admin/DoctorManagement.jsx:120-146 | the default form, nothing edited, the modal shown |
| DoctorManagement.HandleChange | src/components/admin/DoctorManagement.jsx:48-66 | the nested change, storing `checked` for checkboxes at both levels |
| DoctorManagement.Submit | src/components/admin/DoctorManagement.jsx:68-83 | an update of the edited doctor or a create, carrying the form; a successful save closes and resets, a failed one keeps the screen |
| DoctorManagement.Badge | src/components/admin/DoctorManagement.jsx:186-187 | 'Available' exactly when the doctor is available and the account active, else 'Unavailable' |
| DoctorManagement.BadgeFollowsForm | src/components/admin/DoctorManagement.jsx:85-107 | the edit form's `available` box and loaded account flag give the doctor's badge; a new doctor starts available; unticking the `available` box makes it unavailable |
| DoctorManagement.ApplyAll | src/components/admin/DoctorManagement.jsx:48-66 | change events from the rendered inputs keep what is edited, whether the modal shows, and the nested account |
| DoctorManagement.RenderedInputsAreProfileFields | src/components/admin/DoctorManagement.jsx:219-293 | no input the modal renders is named 'user.' anything or plain `user` |
| DoctorManagement.RenderedInputsKeepAccount | src/components/admin/DoctorManagement.jsx:219-293 | typing into the rendered inputs never changes the form's account part |
| DoctorManagement.DefaultAccount | src/components/admin/DoctorManagement.jsx:120-141 | the reset form holds a blank doctor account |
| DoctorManagement.SavedAccountIs | src/components/admin/DoctorManagement.jsx:68-83 | a save after typing sends the account the form started with |
| DoctorManagement.SavedAccountIsUntyped | src/components/admin/DoctorManagement.jsx:214-303 | a created doctor is sent with a blank account and an updated one with its loaded account |
| DoctorManagement.FormsKeepAccount | src/components/admin/DoctorManagement.jsx:48-66 | every form keeps its nested account, and a change to a profile field leaves the account alone |
| PatientManagement.OrDefault | src/components/admin/PatientManagement.jsx:103-106 | a truthy text or the fallback |
| PatientManagement.BirthDateText | src/components/admin/PatientManagement.jsx:102 | the birth date as the backend sent it, or '' |
| PatientManagement.EditForm | src/components/admin/PatientManagement.jsx:89-111 | the patient's account with the PATIENT role, the birth date text, the drop-downs or their defaults, and the texts or '' |
| PatientManagement.HandleEdit | src/components/admin/PatientManagement.jsx:89-111 | the patient's edit form, its id remembered, the modal shown |
| PatientManagement.OpenAdd | src/components/admin/PatientManagement.jsx:136-162 | the default form, nothing edited, the modal shown |
| PatientManagement.HandleChange | src/components/admin/PatientManagement.jsx:52-70 | the nested change, storing `checked` for checkboxes only inside the account; the username input, disabled while editing (line 265), changes nothing then |
| PatientManagement.ApplyAll | src/components/admin/PatientManagement.jsx:52-70 | a sequence of change events keeps what is edited, whether the modal shows, and the nested account |
| PatientManagement.EditingKeepsUsername | src/components/admin/PatientManagement.jsx:258-266 | no sequence of change events alters the account's username while editing |
| PatientManagement.EditKeepsUsername | src/components/admin/PatientManagement.jsx:72-111 | an update after editing carries the patient's own username |
| PatientManagement.Submit | src/components/admin/PatientManagement.jsx:72-87 | an update of the edited patient or a create, carrying the form; a successful save closes and resets, a failed one keeps the screen |
| PatientManagement.AgeShown | src/components/admin/PatientManagement.jsx:164-174 | 'N/A' exactly for a missing or empty birth date; otherwise the completed years |
| PatientManagement.DropDownsNeverBlank | src/components/admin/PatientManagement.jsx:136-157 | the gender and blood group are never blank in a new or edited form, and the default blood group is an option |
| PatientManagement.PasswordOnlyWhenAdding | src/components/admin/PatientManagement.jsx:317 | the password is offered when adding and hidden when editing, so an edit sends it blank |
| PatientManagement.TopLevelCheckboxDiffers | src/components/admin/PatientManagement.jsx:64-68 | a top-level checkbox stores its value on this screen and its `checked` flag on the doctor screen |

## Left out

- Rendering, icons, CSS classes, console logging, `alert`, `window.confirm` and the loading spinner component are not modelled. Where an alert's text decides something, the model records which alert is shown.
- The fetch handlers of the management screens (`fetchUsers`, `fetchDoctors`, `fetchPatients`, `fetchData` in AppointmentManagement) only store what the backend returns. They are not modelled.
- The delete, deactivate and status-change handlers call a service and then refetch. They are not modelled.
- `handleViewRecord` and the record modal, and the patient screen's medical-history viewer, only select what to display. They are not modelled.
- `getMinDateTime` reads the clock to bound the date picker. It is not modelled.
- The browser's `type="email"` check is not modelled. `required` is modelled for the user form only.
- The network, the services, local storage and JSON are replaced by parameters. `JSON.parse` of a corrupt stored user throws in the source; the model's stored identity is always well formed.
- Time zones and date parsing are not modelled: a `Stamp` carries the instant and the local date that parsing yields.
  - `MedicalHistory.YearOption`, `MedicalHistory.YearOptionFindsOnlyJanuary` and `MedicalHistory.YearOptionFindsItsVisits` read the `yyyy-01-01` option as the 1st of January of the chosen year. That holds at or east of UTC. West of UTC the option becomes the 31st of December of the year before, so the step as written keeps only that December's visits instead of January's.
- The locale date rendering is a parameter `render`, and `MyAppointments.FiltersShow` is stated in its terms. The source compares that rendering with the date picker's `yyyy-mm-dd` value, so the date filter matches only under a locale that renders ISO dates.
- MyAppointments.TodayCount: takes today's key as a parameter, so it does not model how the source builds it. The Today card has the same mismatch as the date filter (MyAppointments.jsx:213-217). `getTodayDate()` is the UTC date as `yyyy-mm-dd` (lines 138-140), and the card compares it with the locale rendering. Under a locale that does not render ISO dates the card reads 0.
- `Text.Lower` lowers ASCII letters only. Other letters, such as 'É' and 'é', are not case-folded, so "case-insensitively" in the search rows means for ASCII letters.
- A medical record's diagnosis is a string, and a missing diagnosis is modelled as the empty string. The source also allows `null` or `undefined` (MyMedicalHistory.jsx:114 and 270, PatientRecords.jsx:211, PatientDashboard.jsx:223). On such a record the search calls `diagnosis.toLowerCase()` unguarded and throws (MyMedicalHistory.jsx:60, PatientRecords.jsx:70). That throw is not modelled.
- MedicalHistory.RankedSpec: treats every diagnosis as an ordinary key of the tally. The source tallies into a plain object (MyMedicalHistory.jsx:115-118). A diagnosis named after an `Object.prototype` member, such as "constructor" or "toString", starts from the inherited function, so its count becomes a string. A diagnosis named "__proto__" is never stored and drops out of the list. The ranking is as stated only for histories whose diagnoses are none of these names.
- The doctor modal renders no account input (DoctorManagement.jsx:214-303). The input labelled "Username" is bound to `department` (lines 221-224), and there is no specialization input. `DoctorManagement.RenderedInputs` lists the inputs as rendered. `DoctorManagement.SavedAccountIsUntyped` shows that a created doctor is sent with a blank account. Which account inputs were meant to be there is not modelled.
- String lengths are counted in code points, not UTF-16 units, for the 50- and 100-character previews.
- `Array.prototype.sort` is modelled as a sort by the same key, so the result's order is stated only up to ties.
- The order of the diagnosis tally's keys is first appearance. JavaScript orders integer-like keys first.
- Consultation fees and experience are integers; fractional fees are not modelled.
- The route guard renders a role outside the three when a route's role list is empty. That is what the code does; no route in the table has an empty list.
- Signing in is not debounced. The model only keeps the inputs inert while a sign-in is in flight, as the disabled controls do.
- `PatientDashboard.Load`: a thrown error anywhere ends loading with whatever was set before it. The model states this only for the patient lookup and the two list requests.

## Findings

| source | as written | input that shows it | evidently intended | confidence | as-written member | corrected member |
|---|---|---|---|---|---|---|
| src/components/patient/MyMedicalHistory.jsx:72-80 | the year drop-down's option value is `${year}-01-01`, and the filter keeps records whose year AND month equal that date's | a history with one visit on 2024-03-15: the drop-down offers 2024, and choosing it shows no records | the year drop-down filters by year only | not executed | MedicalHistory.YearOptionFindsOnlyJanuary | MedicalHistory.YearOptionFindsItsVisits |

=== FILE: account_form.dfy ===
/** The nested `user` part of the patient and doctor forms of the
    administrator screens: the blank account `resetForm` puts there and the
    account `handleEdit` copies in. Both screens force the role of their
    own kind of account. */
module AccountForm {

  import opened Entities
  import Text
  import Forms

  const Fields: set<string> := {"username", "email", "password", "firstName", "lastName", "phoneNumber", "role", "active"}

  /** A blank, active account with the given role. */
  function Blank(role: string): (f: Forms.Form)
    ensures f.Keys == Fields
    ensures f["role"] == Forms.Str(role) && f["active"] == Forms.Bool(true)
    ensures forall k :: k in f && k != "role" && k != "active" ==> f[k] == Forms.Str("")
  {
    map[
      "username" := Forms.Str(""), "email" := Forms.Str(""), "password" := Forms.Str(""),
      "firstName" := Forms.Str(""), "lastName" := Forms.Str(""), "phoneNumber" := Forms.Str(""),
      "role" := Forms.Str(role), "active" := Forms.Bool(true)]
  }

  /** An existing account: its fields, the password blank, a missing phone
      number as '', and the role forced to `role`. */
  function Edit(u: User, role: string): (f: Forms.Form)
    ensures f.Keys == Fields
    ensures f["password"] == Forms.Str("") && f["role"] == Forms.Str(role)
    ensures f["phoneNumber"] == Forms.Str(Text.OrEmpty(u.phoneNumber))
    ensures f["username"] == Forms.Str(u.username) && f["email"] == Forms.Str(u.email)
    ensures f["firstName"] == Forms.Str(u.firstName) && f["lastName"] == Forms.Str(u.lastName)
    ensures f["active"] == Forms.Bool(u.active)
  {
    map[
      "username" := Forms.Str(u.username), "email" := Forms.Str(u.email), "password" := Forms.Str(""),
      "firstName" := Forms.Str(u.firstName), "lastName" := Forms.Str(u.lastName),
      "phoneNumber" := Forms.Str(Text.OrEmpty(u.phoneNumber)),
      "role" := Forms.Str(role), "active" := Forms.Bool(u.active)]
  }
}

=== FILE: age.dfy ===
/** `calculateAge`, defined identically in `PatientDashboard.jsx` and
    `PatientManagement.jsx`: completed years between a birth date and today. */
module Age {

  import opened Wrappers
  import opened Entities

  datatype Age = NotAvailable | Years(years: int)

  /** (month, day) of `a` comes strictly before (month, day) of `b`. */
  predicate EarlierInYear(a: Date, b: Date) {
    a.month < b.month || (a.month == b.month && a.day < b.day)
  }

  /** `calculateAge(birthDate)` evaluated on `today`: 'N/A' for a missing or
      empty birth date; otherwise the difference of the years, one less when
      today's (month, day) is before the birthday's. */
  function CalculateAge(birthDate: Option<Stamp>, today: Date): (r: Age)
    ensures r.NotAvailable? <==> birthDate.None? || birthDate.value.text == ""
  {
    if birthDate.None? || birthDate.value.text == "" then NotAvailable
    else
      var birth := birthDate.value.date;
      var age := today.year - birth.year;
      var monthDiff := today.month - birth.month;
      if monthDiff < 0 || (monthDiff == 0 && today.day < birth.day) then Years(age - 1)
      else Years(age)
  }

  /** The `n`-th anniversary of `birth` (same month and day, `n` years later)
      is on or before `today`, comparing dates lexicographically. */
  predicate AnniversaryReached(birth: Date, n: int, today: Date) {
    birth.year + n < today.year
    || (birth.year + n == today.year && !EarlierInYear(today, birth))
  }

  /** An independent reading of the age: it is the one number of years whose
      anniversary has been reached while the next one has not. */
  lemma AgeIsCompletedYears(birthDate: Option<Stamp>, today: Date)
    requires birthDate.Some? && birthDate.value.text != ""
    ensures CalculateAge(birthDate, today).Years?
    ensures var n := CalculateAge(birthDate, today).years;
      AnniversaryReached(birthDate.value.date, n, today)
      && !AnniversaryReached(birthDate.value.date, n + 1, today)
  {
  }

  /** Exactly one number of years fits that reading, so it determines the age. */
  lemma CompletedYearsUnique(birth: Date, n: int, m: int, today: Date)
    requires AnniversaryReached(birth, n, today) && !AnniversaryReached(birth, n + 1, today)
    requires AnniversaryReached(birth, m, today) && !AnniversaryReached(birth, m + 1, today)
    ensures n == m
  {
  }
}

=== FILE: appointment_management.dfy ===
/** The administrator's appointment screen, `components/admin/AppointmentManagement.jsx`:
    the status filter over all appointments, the edit and reset forms, the
    change handler, the create-or-update submit, and when the prescription
    field is shown. */
module AppointmentManagement {

  import opened Wrappers
  import opened Entities
  import Seqs
  import Text
  import Forms
  import MyAppointments

  /** The seven fields of the appointment form. */
  const Fields: set<string> := {"patientId", "doctorId", "appointmentDateTime", "reason", "status", "notes", "prescription"}

  /** The form `resetForm` restores: every field blank except the status,
      which starts as scheduled. */
  const Defaults: Forms.Form := map[
    "patientId" := Forms.Str(""), "doctorId" := Forms.Str(""), "appointmentDateTime" := Forms.Str(""),
    "reason" := Forms.Str(""), "status" := Forms.Str("SCHEDULED"), "notes" := Forms.Str(""),
    "prescription" := Forms.Str("")]

  /** `getFilteredAppointments`: everything for an empty selection, else the
      appointments with exactly that status. */
  function Filtered(list: seq<Appointment>, status: string): (r: seq<Appointment>)
    ensures status == "" ==> r == list
    ensures status != "" ==> forall a :: a in r <==> a in list && a.status == status
    ensures |r| <= |list|
  {
    MyAppointments.StatusFilter(list, status)
  }

  /** The filter only removes appointments and keeps the order of the rest. */
  lemma FilteredKeepsOrder(list: seq<Appointment>, status: string)
    ensures Filtered(list, status) == Seqs.Filter(list, MyAppointments.StatusStep(status))
  {
    if status == "" {
      Seqs.FilterKeepsAll(list, MyAppointments.StatusStep(status));
    }
  }

  /** `slice(0, 16)`: the date-time cut to what a datetime-local input takes. */
  function LocalDateTime(text: string): (r: string)
    ensures |r| == if |text| < 16 then |text| else 16
    ensures r == text[..|r|]
  {
    if |text| < 16 then text else text[..16]
  }

  /** The form `handleEdit` loads for an appointment. */
  function EditForm(a: Appointment): (f: Forms.Form)
    ensures f.Keys == Fields
    ensures f["patientId"] == Forms.Num(a.patientId) && f["doctorId"] == Forms.Num(a.doctorId)
    ensures f["appointmentDateTime"] == Forms.Str(LocalDateTime(a.dateTime.text))
    ensures f["status"] == Forms.Str(a.status)
    ensures f["reason"] == Forms.Str(Text.OrEmpty(a.reason))
    ensures f["notes"] == Forms.Str(Text.OrEmpty(a.notes))
    ensures f["prescription"] == Forms.Str(Text.OrEmpty(a.prescription))
  {
    map[
      "patientId" := Forms.Num(a.patientId), "doctorId" := Forms.Num(a.doctorId),
      "appointmentDateTime" := Forms.Str(LocalDateTime(a.dateTime.text)),
      "reason" := Forms.Str(Text.OrEmpty(a.reason)), "status" := Forms.Str(a.status),
      "notes" := Forms.Str(Text.OrEmpty(a.notes)), "prescription" := Forms.Str(Text.OrEmpty(a.prescription))]
  }

  /** `handleEdit`. */
  function HandleEdit(s: Forms.Screen, a: Appointment): (r: Forms.Screen)
    ensures r.editing == Some(a.id) && r.showModal && r.form == EditForm(a)
  {
    Forms.StartEdit(s, a.id, EditForm(a))
  }

  /** `openAddModal`. */
  function OpenAdd(s: Forms.Screen): (r: Forms.Screen)
    ensures r.editing.None? && r.showModal && r.form == Defaults
  {
    Forms.OpenAdd(s, Defaults)
  }

  /** `handleInputChange`: the named field takes the typed value. */
  function HandleChange(s: Forms.Screen, name: string, value: string): (r: Forms.Screen)
    ensures r.editing == s.editing && r.showModal == s.showModal
    ensures name in r.form && r.form[name] == Forms.Str(value)
    ensures forall k :: k != name ==> (k in r.form <==> k in s.form)
    ensures forall k :: k in s.form && k != name ==> r.form[k] == s.form[k]
  {
    s.(form := Forms.SetField(s.form, name, Forms.Str(value)))
  }

  /** `handleSubmit` against the backend's answer: the request it sends and
      the screen after it. */
  function Submit(s: Forms.Screen, succeeded: bool): (r: (Forms.SaveRequest, Forms.Screen))
    ensures r.0.Update? <==> s.editing.Some?
    ensures r.0.Update? ==> r.0.id == s.editing.value
    ensures r.0.payload == s.form
    ensures succeeded ==> r.1 == Forms.Screen(Defaults, None, false)
    ensures !succeeded ==> r.1 == s
  {
    (Forms.SaveRequestOf(s), Forms.AfterSave(s, succeeded, Defaults))
  }

  /** The prescription field is shown only for a completed status. */
  predicate PrescriptionShown(form: Forms.Form) {
    "status" in form && form["status"] == Forms.Str("COMPLETED")
  }

  /** A new appointment starts without the prescription field; editing shows
      it exactly for a completed appointment; choosing the completed status
      brings it up and any other status hides it. */
  lemma PrescriptionFieldFollowsStatus(s: Forms.Screen, a: Appointment, status: string)
    ensures !PrescriptionShown(OpenAdd(s).form)
    ensures PrescriptionShown(HandleEdit(s, a).form) <==> a.status == "COMPLETED"
    ensures PrescriptionShown(HandleChange(s, "status", status).form) <==> status == "COMPLETED"
  {
  }

  /** The form keeps exactly its seven fields through the change handler,
      since every input is named after one of them. */
  lemma ChangesKeepFields(s: Forms.Screen, name: string, value: string)
    requires s.form.Keys == Fields && name in Fields
    ensures HandleChange(s, name, value).form.Keys == Fields
  {
  }

  /** Saving an edited appointment unchanged sends back its own links,
      status and time to the minute, to the same id. */
  lemma EditThenSaveUpdatesSameAppointment(s: Forms.Screen, a: Appointment, succeeded: bool)
    ensures var req := Submit(HandleEdit(s, a), succeeded).0;
      && req == Forms.Update(a.id, EditForm(a))
      && req.payload["patientId"] == Forms.Num(a.patientId)
      && req.payload["doctorId"] == Forms.Num(a.doctorId)
      && req.payload["status"] == Forms.Str(a.status)
  {
  }
}

=== FILE: book_appointment.dfy ===
/** The patient's booking screen, `components/patient/BookAppointment.jsx`:
    loading the available doctors and the signed-in patient, the
    specialization filter, the booking form and its submit, the doctor
    shown for the selection, and the grid of doctor cards. */
module BookAppointment {

  import opened Wrappers
  import opened Entities
  import Seqs
  import Text
  import Forms

  const BlankBooking: Forms.Form := map[
    "doctorId" := Forms.Str(""), "appointmentDateTime" := Forms.Str(""), "reason" := Forms.Str("")]

  const LoadError: string := "Error loading doctors. Please try again."
  const NoPatientError: string := "Patient information not found. Please contact support."
  const BookedMessage: string := "Appointment booked successfully!"
  const BookingError: string := "Failed to book appointment. Please try again."

  const GridCap: nat := 6

  datatype Screen = Screen(
    doctors: seq<Doctor>,
    patient: Option<Patient>,
    form: Forms.Form,
    loading: bool,
    success: string,
    error: string)

  /** The screen as it mounts: no doctors, no patient, a blank form. */
  function Initial(): (s: Screen)
    ensures s.doctors == [] && s.patient.None? && !s.loading && s.success == "" && s.error == ""
    ensures s.form.Keys == {"doctorId", "appointmentDateTime", "reason"}
    ensures forall k :: k in s.form ==> s.form[k] == Forms.Str("")
  {
    Screen([], None, BlankBooking, false, "", "")
  }

  /** `fetchData` against the two lists (`None` when the requests fail) and
      the signed-in user's id (`None` when there is no user, where reading
      it throws). The doctors are stored before the patient is looked up, so
      they stay even when the lookup throws. */
  function Load(s: Screen, userId: Option<int>, doctors: Option<seq<Doctor>>, patients: Option<seq<Patient>>): (r: Screen)
    ensures doctors.None? || patients.None? ==> r == s.(error := LoadError)
    ensures doctors.Some? && patients.Some? ==> r.doctors == doctors.value
    ensures doctors.Some? && patients.Some? && userId.None? ==> r.patient == s.patient && r.error == LoadError
    ensures doctors.Some? && patients.Some? && userId.Some? ==> r.error == s.error
    ensures doctors.Some? && patients.Some? && userId.Some? && r.patient.Some? ==>
      r.patient.value in patients.value && r.patient.value.user.id == userId.value
    ensures doctors.Some? && patients.Some? && userId.Some? && r.patient.None? ==>
      forall p :: p in patients.value ==> p.user.id != userId.value
    ensures r.form == s.form && r.loading == s.loading && r.success == s.success
  {
    if doctors.None? || patients.None? then s.(error := LoadError)
    else if userId.None? then s.(doctors := doctors.value, error := LoadError)
    else s.(doctors := doctors.value,
            patient := Seqs.Find(patients.value, (p: Patient) => p.user.id == userId.value))
  }

  function SpecializationStep(specialization: string): Doctor -> bool {
    (d: Doctor) => d.specialization == Some(specialization)
  }

  /** `filterDoctorsBySpecialization`: every doctor for an empty selection,
      else the doctors whose specialization is exactly the selected one. */
  function FilterBySpecialization(doctors: seq<Doctor>, specialization: string): (r: seq<Doctor>)
    ensures specialization == "" ==> r == doctors
    ensures specialization != "" ==> forall d :: d in r <==> d in doctors && d.specialization == Some(specialization)
    ensures |r| <= |doctors|
  {
    if specialization == "" then doctors else Seqs.Filter(doctors, SpecializationStep(specialization))
  }

  /** `handleInputChange`: only the named field changes. */
  function HandleChange(s: Screen, name: string, value: string): (r: Screen)
    ensures r == s.(form := r.form)
    ensures name in r.form && r.form[name] == Forms.Str(value)
    ensures forall k :: k != name ==> (k in r.form <==> k in s.form)
    ensures forall k :: k in s.form && k != name ==> r.form[k] == s.form[k]
  {
    s.(form := Forms.SetField(s.form, name, Forms.Str(value)))
  }

  /** `appointmentData`: the form's fields with the patient's id laid over
      them. */
  function Payload(form: Forms.Form, patient: Patient): (p: Forms.Form)
    ensures p.Keys == form.Keys + {"patientId"}
    ensures p["patientId"] == Forms.Num(patient.id)
    ensures forall k :: k in form && k != "patientId" ==> p[k] == form[k]
  {
    form["patientId" := Forms.Num(patient.id)]
  }

  datatype Submitted = Submitted(screen: Screen, sent: Option<Forms.Form>)

  /** `handleSubmit` against the backend's answer. The button is disabled
      while a booking is in flight, so a submit then does nothing. Without a
      patient only the error is set (an earlier success message stays) and
      nothing is sent. Otherwise both messages are cleared, the payload is
      sent, and the outcome sets one message; the form is blanked only on
      success, and loading is off after either. */
  function Submit(s: Screen, booked: bool): (r: Submitted)
    ensures s.loading || s.patient.None? ==> r.sent.None?
    ensures s.loading ==> r.screen == s
    ensures !s.loading && s.patient.None? ==> r.screen == s.(error := NoPatientError)
    ensures !s.loading && s.patient.Some? ==>
      && r.sent == Some(Payload(s.form, s.patient.value))
      && !r.screen.loading
      && r.screen.doctors == s.doctors && r.screen.patient == s.patient
      && (booked ==> r.screen.success == BookedMessage && r.screen.error == "" && r.screen.form == BlankBooking)
      && (!booked ==> r.screen.success == "" && r.screen.error == BookingError && r.screen.form == s.form)
  {
    if s.loading then Submitted(s, None)
    else if s.patient.None? then Submitted(s.(error := NoPatientError), None)
    else
      var pending := s.(loading := true, error := "", success := "");
      var sent := Some(Payload(s.form, s.patient.value));
      if booked then Submitted(pending.(success := BookedMessage, form := BlankBooking, loading := false), sent)
      else Submitted(pending.(error := BookingError, loading := false), sent)
  }

  /** `getSelectedDoctor`: the first doctor whose id, written in decimal, is
      the form's `doctorId`. */
  function SelectedDoctor(doctors: seq<Doctor>, form: Forms.Form): (r: Option<Doctor>)
    ensures r.Some? ==>
      r.value in doctors && "doctorId" in form && form["doctorId"] == Forms.Str(Text.IntToString(r.value.id))
    ensures r.None? <==>
      ("doctorId" !in form || !form["doctorId"].Str? ||
       forall d :: d in doctors ==> Text.IntToString(d.id) != form["doctorId"].s)
  {
    if "doctorId" in form && form["doctorId"].Str? then
      Seqs.Find(doctors, (d: Doctor) => Text.IntToString(d.id) == form["doctorId"].s)
    else None
  }

  /** The cards of the grid: the first six filtered doctors. */
  function Grid(filtered: seq<Doctor>): (r: seq<Doctor>)
    ensures |r| <= GridCap && |r| <= |filtered|
    ensures r == filtered[..|r|]
    ensures |filtered| >= GridCap ==> |r| == GridCap
    ensures |filtered| < GridCap ==> r == filtered
  {
    Seqs.Take(filtered, GridCap)
  }

  /** A card's 'Select Doctor': `doctorId` becomes that doctor's id as text,
      nothing else changes. */
  function SelectDoctor(s: Screen, d: Doctor): (r: Screen)
    ensures r == s.(form := r.form)
    ensures r.form == Forms.SetField(s.form, "doctorId", Forms.Str(Text.IntToString(d.id)))
  {
    HandleChange(s, "doctorId", Text.IntToString(d.id))
  }

  /** Doctor ids are unique, as the backend's keys are. */
  predicate DistinctIds(doctors: seq<Doctor>) {
    forall i, j :: 0 <= i < |doctors| && 0 <= j < |doctors| && doctors[i].id == doctors[j].id ==> doctors[i] == doctors[j]
  }

  /** Selecting a card of the grid makes that doctor the one whose
      information the form shows, whatever the filter. */
  lemma SelectingCardShowsThatDoctor(s: Screen, specialization: string, i: int)
    requires DistinctIds(s.doctors)
    requires 0 <= i < |Grid(FilterBySpecialization(s.doctors, specialization))|
    ensures SelectedDoctor(s.doctors, SelectDoctor(s, Grid(FilterBySpecialization(s.doctors, specialization))[i]).form) ==
      Some(Grid(FilterBySpecialization(s.doctors, specialization))[i])
  {
    var filtered := FilterBySpecialization(s.doctors, specialization);
    var d := Grid(filtered)[i];
    assert d == filtered[i];
    assert d in s.doctors;
    var r := SelectedDoctor(s.doctors, SelectDoctor(s, d).form);
    assert r.Some?;
    Text.IntToStringInjective(r.value.id, d.id);
  }

  /** A successful booking leaves a blank form with only the success
      message, ready for the next booking; the request carried the
      patient's id over whatever the form held. */
  lemma BookingThenBlank(s: Screen)
    requires !s.loading && s.patient.Some?
    ensures var r := Submit(s, true);
      && r.screen.form == Initial().form
      && r.screen.error == "" && r.screen.success == BookedMessage
      && r.sent.value["patientId"] == Forms.Num(s.patient.value.id)
  {
  }
}

=== FILE: constants.dfy ===
/** The enumerations and option lists of `utils/constants.js`. The backend
    sends roles and statuses as strings, so the model keeps them as strings in
    the data and uses these datatypes for the known values. */
module Constants {

  import opened Wrappers
  import Seqs

  datatype Role = Admin | Doctor | Patient

  function RoleName(r: Role): string {
    match r
    case Admin => "ADMIN"
    case Doctor => "DOCTOR"
    case Patient => "PATIENT"
  }

  /** The role a backend string denotes, if it is one of the three. */
  function ParseRole(s: string): (r: Option<Role>)
    ensures r.Some? ==> RoleName(r.value) == s
  {
    if s == "ADMIN" then Some(Admin)
    else if s == "DOCTOR" then Some(Doctor)
    else if s == "PATIENT" then Some(Patient)
    else None
  }

  predicate IsKnownRole(s: string) {
    ParseRole(s).Some?
  }

  /** Printing a role and reading it back gives the same role, so role names
      are pairwise distinct. */
  lemma ParseRoleName(r: Role)
    ensures ParseRole(RoleName(r)) == Some(r)
  {
  }

  /** `USER_ROLES`: each key is its own value and the values are exactly the
      three role names. */
  const UserRoles: map<string, string> :=
    map["ADMIN" := "ADMIN", "DOCTOR" := "DOCTOR", "PATIENT" := "PATIENT"]

  lemma UserRolesAreTheRoles()
    ensures forall k :: k in UserRoles ==> UserRoles[k] == k
    ensures forall k :: k in UserRoles <==> IsKnownRole(k)
  {
  }

  datatype Status = Scheduled | Completed | Cancelled

  function StatusName(s: Status): string {
    match s
    case Scheduled => "SCHEDULED"
    case Completed => "COMPLETED"
    case Cancelled => "CANCELLED"
  }

  function ParseStatus(s: string): (r: Option<Status>)
    ensures r.Some? ==> StatusName(r.value) == s
  {
    if s == "SCHEDULED" then Some(Scheduled)
    else if s == "COMPLETED" then Some(Completed)
    else if s == "CANCELLED" then Some(Cancelled)
    else None
  }

  lemma ParseStatusName(s: Status)
    ensures ParseStatus(StatusName(s)) == Some(s)
  {
  }

  /** `APPOINTMENT_STATUS`: each key is its own value. */
  const AppointmentStatus: map<string, string> :=
    map["SCHEDULED" := "SCHEDULED", "COMPLETED" := "COMPLETED", "CANCELLED" := "CANCELLED"]

  /** `Object.values(APPOINTMENT_STATUS)`, the options of every status select. */
  const StatusOptions: seq<string> := ["SCHEDULED", "COMPLETED", "CANCELLED"]

  lemma AppointmentStatusIsTheStatuses()
    ensures forall k :: k in AppointmentStatus ==> AppointmentStatus[k] == k
    ensures forall k :: k in AppointmentStatus <==> ParseStatus(k).Some?
    ensures forall s: Status :: StatusName(s) in StatusOptions
  {
  }

  const BloodGroups: seq<string> := ["A+", "A-", "B+", "B-", "AB+", "AB-", "O+", "O-"]

  const Specializations: seq<string> := [
    "Cardiology", "Neurology", "Orthopedics", "Pediatrics", "Dermatology",
    "Psychiatry", "Radiology", "General Medicine", "Surgery", "Gynecology"
  ]

  /** Eight distinct blood groups, among them the patient form's default. */
  lemma BloodGroupsWellFormed()
    ensures |BloodGroups| == 8 && Seqs.Distinct(BloodGroups)
    ensures "A+" in BloodGroups
  {
  }

  /** Ten distinct specializations. */
  lemma SpecializationsWellFormed()
    ensures |Specializations| == 10 && Seqs.Distinct(Specializations)
  {
  }
}

=== FILE: doctor_dashboard.dfy ===
/** The data logic of `components/doctor/DoctorDashboard.jsx`: finding the
    signed-in doctor, today's schedule, the seven-day window of upcoming
    appointments, and the two counters. Today's midnight and the instant a
    week from now are parameters; the backend lists are parameters, `None`
    standing for a request that failed. */
module DoctorDashboard {

  import opened Wrappers
  import opened Entities
  import Seqs

  datatype Data = Data(today: seq<Appointment>, upcoming: seq<Appointment>, totalPatients: nat, completed: nat)

  datatype View = View(data: Data, doctor: Option<Doctor>, loading: bool)

  const NoData: Data := Data([], [], 0, 0)

  const UpcomingCap: nat := 5

  function Initial(): (v: View)
    ensures v.loading && v.doctor.None? && v.data.totalPatients == 0 && v.data.completed == 0
    ensures |v.data.today| == 0 && |v.data.upcoming| == 0
  {
    View(NoData, None, true)
  }

  /** The doctor whose account is the signed-in user. */
  function FindDoctor(doctors: seq<Doctor>, userId: int): (r: Option<Doctor>)
    ensures r.Some? ==> r.value in doctors && r.value.user.id == userId
    ensures r.None? <==> forall d :: d in doctors ==> d.user.id != userId
  {
    Seqs.Find(doctors, (d: Doctor) => d.user.id == userId)
  }

  /** Today's appointments of every doctor, narrowed to this one. */
  function TodayFor(todays: seq<Appointment>, doctorId: int): (r: seq<Appointment>)
    ensures forall a :: a in r <==> a in todays && a.doctorId == doctorId
    ensures |r| <= |todays|
  {
    Seqs.Filter(todays, (a: Appointment) => a.doctorId == doctorId)
  }

  /** After today's midnight, no later than a week from now, and scheduled. */
  predicate InWindow(midnight: int, nextWeek: int, a: Appointment) {
    midnight < a.dateTime.instant <= nextWeek && a.status == "SCHEDULED"
  }

  /** The window's appointments in the order the backend sent them. */
  function UpcomingWindow(all: seq<Appointment>, midnight: int, nextWeek: int): (r: seq<Appointment>)
    ensures forall a :: a in r <==> a in all && InWindow(midnight, nextWeek, a)
  {
    Seqs.Filter(all, a => InWindow(midnight, nextWeek, a))
  }

  predicate IsCompleted(a: Appointment) {
    a.status == "COMPLETED"
  }

  /** The "Completed Visits" card. */
  function CompletedCount(all: seq<Appointment>): (n: nat)
    ensures n <= |all|
    ensures n == 0 <==> forall a :: a in all ==> !IsCompleted(a)
  {
    var r := Seqs.Filter(all, IsCompleted);
    assert forall a :: a in all && IsCompleted(a) ==> a in r;
    assert |r| > 0 ==> r[0] in r && IsCompleted(r[0]);
    |r|
  }

  /** The "Total Patients" card: the number of distinct patient ids. */
  function DistinctPatients(all: seq<Appointment>): (n: nat)
    ensures n <= |all|
    ensures |all| > 0 ==> n > 0
  {
    |Seqs.KeySet(all, AppointmentPatientId)|
  }

  predicate HasUserId(userId: Option<int>) {
    userId.Some? && userId.value != 0
  }

  /** The mount effect and `fetchDashboardData`. */
  function Load(userId: Option<int>, midnight: int, nextWeek: int, doctors: Option<seq<Doctor>>,
                todays: Option<seq<Appointment>>, all: Option<seq<Appointment>>): (v: View)
    ensures !HasUserId(userId) ==> v == Initial()
    ensures HasUserId(userId) ==> !v.loading
    ensures HasUserId(userId) && doctors.Some? ==> v.doctor == FindDoctor(doctors.value, userId.value)
    ensures v.doctor.None? || todays.None? || all.None? ==> v.data == NoData
    ensures v.doctor.Some? && todays.Some? && all.Some? ==>
      v.data == Data(TodayFor(todays.value, v.doctor.value.id),
                     Seqs.Take(UpcomingWindow(all.value, midnight, nextWeek), UpcomingCap),
                     DistinctPatients(all.value),
                     CompletedCount(all.value))
  {
    if !HasUserId(userId) then Initial()
    else if doctors.None? then View(NoData, None, false)
    else
      var found := FindDoctor(doctors.value, userId.value);
      if found.None? || todays.None? || all.None? then View(NoData, found, false)
      else
        View(Data(TodayFor(todays.value, found.value.id),
                  Seqs.Take(UpcomingWindow(all.value, midnight, nextWeek), UpcomingCap),
                  DistinctPatients(all.value),
                  CompletedCount(all.value)), found, false)
  }

  /** `doctorInfo?.experience || 0`: the experience card shows zero for a
      missing doctor or a missing experience. */
  function ExperienceShown(doctor: Option<Doctor>): (n: int)
    ensures doctor.None? || doctor.value.experience.None? ==> n == 0
    ensures doctor.Some? && doctor.value.experience.Some? ==> n == doctor.value.experience.value
  {
    if doctor.Some? && doctor.value.experience.Some? then doctor.value.experience.value else 0
  }

  /** Every shown upcoming appointment is in the window, at most five are
      shown, and they are the window's first ones in backend order. */
  lemma ShownUpcomingInWindow(all: seq<Appointment>, midnight: int, nextWeek: int)
    ensures |Seqs.Take(UpcomingWindow(all, midnight, nextWeek), UpcomingCap)| <= UpcomingCap
    ensures forall a :: a in Seqs.Take(UpcomingWindow(all, midnight, nextWeek), UpcomingCap) ==>
      a in all && InWindow(midnight, nextWeek, a)
    ensures Seqs.Take(UpcomingWindow(all, midnight, nextWeek), UpcomingCap) ==
      UpcomingWindow(all, midnight, nextWeek)[..|Seqs.Take(UpcomingWindow(all, midnight, nextWeek), UpcomingCap)|]
  {
    var w := UpcomingWindow(all, midnight, nextWeek);
    var t := Seqs.Take(w, UpcomingCap);
    forall a | a in t
      ensures a in all && InWindow(midnight, nextWeek, a)
    {
      var i :| 0 <= i < |t| && t[i] == a;
      assert w[i] == a;
    }
  }

  /** The counters grow one appointment at a time: a further appointment
      adds one completed visit exactly when it is completed, and adds one
      patient exactly when its patient has no earlier appointment. */
  lemma CountersGrow(all: seq<Appointment>, a: Appointment)
    ensures CompletedCount(all + [a]) == CompletedCount(all) + (if IsCompleted(a) then 1 else 0)
    ensures DistinctPatients(all + [a]) ==
      if a.patientId in Seqs.KeySet(all, AppointmentPatientId) then DistinctPatients(all) else DistinctPatients(all) + 1
  {
    Seqs.FilterAppend(all, [a], IsCompleted);
    Seqs.KeySetAppend(all, [a], AppointmentPatientId);
    assert Seqs.KeySet([a], AppointmentPatientId) == {a.patientId};
  }

  /** When no doctor's account matches the user, the cards stay at zero. */
  lemma NoMatchingDoctorKeepsZero(userId: int, midnight: int, nextWeek: int, doctors: seq<Doctor>,
                                  todays: Option<seq<Appointment>>, all: Option<seq<Appointment>>)
    requires userId != 0 && forall d :: d in doctors ==> d.user.id != userId
    ensures Load(Some(userId), midnight, nextWeek, Some(doctors), todays, all) == View(NoData, None, false)
  {
  }
}

=== FILE: doctor_management.dfy ===
/** The administrator's doctor screen, `components/admin/DoctorManagement.jsx`:
    the nested form, its change handler, the edit and reset forms, the
    create-or-update submit, and the availability badge. */
module DoctorManagement {

  import opened Wrappers
  import opened Entities
  import Text
  import Forms
  import AccountForm

  const Fields: set<string> := {"user", "specialization", "qualification", "experience", "department",
                                "consultationFee", "workingHours", "available"}

  /** The form `resetForm` restores: a blank active doctor account, blank
      profile, available. */
  const Defaults: Forms.Form := map[
    "user" := Forms.Obj(AccountForm.Blank("DOCTOR")),
    "specialization" := Forms.Str(""), "qualification" := Forms.Str(""), "experience" := Forms.Str(""),
    "department" := Forms.Str(""), "consultationFee" := Forms.Str(""), "workingHours" := Forms.Str(""),
    "available" := Forms.Bool(true)]

  /** `n || ''` for a number: a missing or zero number becomes ''. */
  function NumberOrBlank(n: Option<int>): (v: Forms.Value)
    ensures n.Some? && n.value != 0 ==> v == Forms.Num(n.value)
    ensures n.None? || n.value == 0 ==> v == Forms.Str("")
  {
    if n.Some? && n.value != 0 then Forms.Num(n.value) else Forms.Str("")
  }

  /** The form `handleEdit` loads for a doctor. */
  function EditForm(d: Doctor): (f: Forms.Form)
    ensures f.Keys == Fields && Forms.HasUser(f)
    ensures f["user"] == Forms.Obj(AccountForm.Edit(d.user, "DOCTOR"))
    ensures f["specialization"] == Forms.Str(Text.OrEmpty(d.specialization))
    ensures f["qualification"] == Forms.Str(Text.OrEmpty(d.qualification))
    ensures f["department"] == Forms.Str(Text.OrEmpty(d.department))
    ensures f["workingHours"] == Forms.Str(Text.OrEmpty(d.workingHours))
    ensures f["experience"] == NumberOrBlank(d.experience)
    ensures f["consultationFee"] == NumberOrBlank(d.consultationFee)
    ensures f["available"] == Forms.Bool(d.available)
  {
    map[
      "user" := Forms.Obj(AccountForm.Edit(d.user, "DOCTOR")),
      "specialization" := Forms.Str(Text.OrEmpty(d.specialization)),
      "qualification" := Forms.Str(Text.OrEmpty(d.qualification)),
      "experience" := NumberOrBlank(d.experience),
      "department" := Forms.Str(Text.OrEmpty(d.department)),
      "consultationFee" := NumberOrBlank(d.consultationFee),
      "workingHours" := Forms.Str(Text.OrEmpty(d.workingHours)),
      "available" := Forms.Bool(d.available)]
  }

  /** `handleEdit`. */
  function HandleEdit(s: Forms.Screen, d: Doctor): (r: Forms.Screen)
    ensures r.editing == Some(d.id) && r.showModal && r.form == EditForm(d)
  {
    Forms.StartEdit(s, d.id, EditForm(d))
  }

  /** `openAddModal`. */
  function OpenAdd(s: Forms.Screen): (r: Forms.Screen)
    ensures r.editing.None? && r.showModal && r.form == Defaults
  {
    Forms.OpenAdd(s, Defaults)
  }

  /** `handleInputChange`: checkboxes store `checked` at both levels. */
  function HandleChange(s: Forms.Screen, e: Forms.Input): (r: Forms.Screen)
    requires Forms.HasUser(s.form)
    ensures r.editing == s.editing && r.showModal == s.showModal
    ensures r.form == Forms.NestedChange(s.form, e, true)
  {
    s.(form := Forms.NestedChange(s.form, e, true))
  }

  /** `handleSubmit` against the backend's answer: the request it sends and
      the screen after it. */
  function Submit(s: Forms.Screen, succeeded: bool): (r: (Forms.SaveRequest, Forms.Screen))
    ensures r.0.Update? <==> s.editing.Some?
    ensures r.0.Update? ==> r.0.id == s.editing.value
    ensures r.0.payload == s.form
    ensures succeeded ==> r.1 == Forms.Screen(Defaults, None, false)
    ensures !succeeded ==> r.1 == s
  {
    (Forms.SaveRequestOf(s), Forms.AfterSave(s, succeeded, Defaults))
  }

  /** The status column: available only when the doctor is marked
      available and the account is active. */
  function Badge(d: Doctor): (r: string)
    ensures r == "Available" <==> d.available && d.user.active
    ensures r == "Available" || r == "Unavailable"
  {
    if d.available && d.user.active then "Available" else "Unavailable"
  }

  /** The same rule read off a form: the `available` checkbox and the
      account's `active` flag. */
  predicate FormAvailable(f: Forms.Form) {
    && "available" in f && f["available"] == Forms.Bool(true)
    && Forms.HasUser(f) && "active" in f["user"].fields && f["user"].fields["active"] == Forms.Bool(true)
  }

  /** The edit form carries exactly what the badge reads: loading a doctor
      into it gives the doctor's badge; a new doctor starts available; and
      unticking the one checkbox the modal renders makes it unavailable. */
  lemma BadgeFollowsForm(s: Forms.Screen, d: Doctor)
    ensures FormAvailable(EditForm(d)) <==> Badge(d) == "Available"
    ensures FormAvailable(Defaults)
    ensures !FormAvailable(HandleChange(HandleEdit(s, d), Forms.Input("available", "", true, false)).form)
  {
    assert "available"[..|Forms.UserPrefix|][0] == 'a';
  }

  /** The names of the inputs the modal renders. None is an account field:
      the input labelled "Username" is bound to `department`, and there is
      no input for the specialization. */
  const RenderedInputs: set<string> := {"department", "qualification", "experience", "consultationFee",
                                        "workingHours", "available"}

  /** A sequence of change events from the rendered inputs, in order. */
  function ApplyAll(s: Forms.Screen, events: seq<Forms.Input>): (r: Forms.Screen)
    requires Forms.HasUser(s.form)
    requires forall i :: 0 <= i < |events| ==> events[i].name in RenderedInputs
    ensures r.editing == s.editing && r.showModal == s.showModal
    ensures Forms.HasUser(r.form)
    decreases |events|
  {
    if |events| == 0 then s else ApplyAll(HandleChange(s, events[0]), events[1..])
  }

  /** No rendered input is a 'user.' field. */
  lemma RenderedInputsAreProfileFields(name: string)
    requires name in RenderedInputs
    ensures !Forms.StartsWith(name, Forms.UserPrefix) && name != "user"
  {
    assert name[0] != 'u';
    assert |Forms.UserPrefix| <= |name| ==> name[..|Forms.UserPrefix|][0] == name[0];
  }

  /** Typing into the modal never reaches the account part: it stays the
      blank account of a new doctor, or the loaded doctor's account. */
  lemma {:induction false} RenderedInputsKeepAccount(s: Forms.Screen, events: seq<Forms.Input>)
    requires Forms.HasUser(s.form)
    requires forall i :: 0 <= i < |events| ==> events[i].name in RenderedInputs
    ensures ApplyAll(s, events).form["user"] == s.form["user"]
    decreases |events|
  {
    if |events| > 0 {
      RenderedInputsAreProfileFields(events[0].name);
      RenderedInputsKeepAccount(HandleChange(s, events[0]), events[1..]);
    }
  }

  /** So a created doctor is sent with a blank account, and an updated one
      with the account as loaded. */
  lemma SavedAccountIsUntyped(s: Forms.Screen, d: Doctor, events: seq<Forms.Input>)
    requires forall i :: 0 <= i < |events| ==> events[i].name in RenderedInputs
    ensures Submit(ApplyAll(OpenAdd(s), events), true).0.payload["user"] == Forms.Obj(AccountForm.Blank("DOCTOR"))
    ensures Submit(ApplyAll(HandleEdit(s, d), events), true).0.payload["user"] ==
      Forms.Obj(AccountForm.Edit(d.user, "DOCTOR"))
  {
    var added := OpenAdd(s);
    DefaultAccount();
    SavedAccountIs(added, events);
    var edited := HandleEdit(s, d);
    assert Forms.HasUser(edited.form) && edited.form["user"] == Forms.Obj(AccountForm.Edit(d.user, "DOCTOR"));
    SavedAccountIs(edited, events);
  }

  lemma DefaultAccount()
    ensures Forms.HasUser(Defaults) && Defaults["user"] == Forms.Obj(AccountForm.Blank("DOCTOR"))
  {
  }

  lemma SavedAccountIs(s: Forms.Screen, events: seq<Forms.Input>)
    requires Forms.HasUser(s.form)
    requires forall i :: 0 <= i < |events| ==> events[i].name in RenderedInputs
    ensures Submit(ApplyAll(s, events), true).0.payload["user"] == s.form["user"]
  {
    RenderedInputsKeepAccount(s, events);
  }

  /** Every form of the screen keeps its nested account, so the change
      handler always applies; and a change to a profile field leaves the
      account part alone. */
  lemma FormsKeepAccount(s: Forms.Screen, d: Doctor, e: Forms.Input)
    requires Forms.HasUser(s.form) && e.name != "user"
    ensures Forms.HasUser(Defaults) && Forms.HasUser(EditForm(d))
    ensures Forms.HasUser(HandleChange(s, e).form)
    ensures !Forms.StartsWith(e.name, Forms.UserPrefix) ==> HandleChange(s, e).form["user"] == s.form["user"]
  {
  }
}

=== FILE: entities.dfy ===
/** The records the backend returns, as the views read them. Optional fields
    (`null`/`undefined` in the JSON) are `Option`s; roles and statuses stay the
    strings the backend sends. */
module Entities {

  import opened Wrappers

  /** A calendar date in local time; `month` is 1-based. */
  datatype Date = Date(year: int, month: int, day: int)

  /** A date-time string from the backend together with what `new Date(text)`
      makes of it: the instant in milliseconds and its local calendar date.
      Parsing and time zones are not modelled, so the three are independent
      here. */
  datatype Stamp = Stamp(text: string, instant: int, date: Date)

  datatype User = User(
    id: int,
    username: string,
    email: string,
    firstName: string,
    lastName: string,
    phoneNumber: Option<string>,
    role: string,
    active: bool)

  datatype Patient = Patient(
    id: int,
    user: User,
    dateOfBirth: Option<Stamp>,
    gender: Option<string>,
    address: Option<string>,
    emergencyContact: Option<string>,
    bloodGroup: Option<string>,
    allergies: Option<string>,
    medicalHistory: Option<string>)

  /** `experience` and `consultationFee` are numbers in the JSON; fees with a
      fractional part are not modelled. */
  datatype Doctor = Doctor(
    id: int,
    user: User,
    specialization: Option<string>,
    qualification: Option<string>,
    experience: Option<int>,
    department: Option<string>,
    consultationFee: Option<int>,
    workingHours: Option<string>,
    available: bool)

  datatype Appointment = Appointment(
    id: int,
    patientId: int,
    doctorId: int,
    patientName: string,
    doctorName: string,
    dateTime: Stamp,
    status: string,
    reason: Option<string>,
    notes: Option<string>,
    prescription: Option<string>)

  datatype MedicalRecord = MedicalRecord(
    id: int,
    patientId: int,
    patientName: string,
    doctorName: string,
    diagnosis: string,
    symptoms: Option<string>,
    treatment: Option<string>,
    prescription: Option<string>,
    visitDate: Stamp)

  /** Sort keys: ascending by time, and descending through the negated time. */
  function AppointmentTime(a: Appointment): int {
    a.dateTime.instant
  }

  function AppointmentTimeDesc(a: Appointment): int {
    -a.dateTime.instant
  }

  function VisitTimeDesc(r: MedicalRecord): int {
    -r.visitDate.instant
  }

  function RecordPatientId(r: MedicalRecord): int {
    r.patientId
  }

  function AppointmentPatientId(a: Appointment): int {
    a.patientId
  }

  function RecordDoctorName(r: MedicalRecord): string {
    r.doctorName
  }

  function VisitYear(r: MedicalRecord): int {
    r.visitDate.date.year
  }
}

=== FILE: forms.dfy ===
/** Form state as the components keep it: plain JavaScript objects updated by
    `{ ...prev, [name]: value }`. An object is a map from field names to
    values; a nested object (the `user` part of the patient and doctor forms)
    is an `Obj` value. Also the create-or-update choice every management
    modal makes on submit. */
module Forms {

  import opened Wrappers

  datatype Value = Str(s: string) | Bool(b: bool) | Num(n: int) | Obj(fields: map<string, Value>)

  type Form = map<string, Value>

  /** `{ ...f, [name]: v }`: `name` gets `v`, every other field keeps its value,
      and a name the form did not have is added. */
  function SetField(f: Form, name: string, v: Value): (r: Form)
    ensures name in r && r[name] == v
    ensures r.Keys == f.Keys + {name}
    ensures forall k :: k in f && k != name ==> r[k] == f[k]
  {
    f[name := v]
  }

  /** The parts of a change event the handlers read: `e.target.name`,
      `.value`, `.type === 'checkbox'` and `.checked`. */
  datatype Input = Input(name: string, value: string, checkbox: bool, checked: bool)

  /** `type === 'checkbox' ? checked : value` */
  function CheckedOrValue(e: Input): (r: Value)
    ensures e.checkbox ==> r == Bool(e.checked)
    ensures !e.checkbox ==> r == Str(e.value)
  {
    if e.checkbox then Bool(e.checked) else Str(e.value)
  }

  const UserPrefix: string := "user."

  predicate StartsWith(s: string, prefix: string) {
    |prefix| <= |s| && s[..|prefix|] == prefix
  }

  /** The form has a nested `user` object. */
  predicate HasUser(f: Form) {
    "user" in f && f["user"].Obj?
  }

  /** The nested-form `handleInputChange` of the patient and doctor screens.
      A name starting with 'user.' writes the rest of the name inside the
      nested `user` object, storing `checked` for a checkbox; any other name
      writes the top-level field, storing `checked` for a checkbox only when
      `topLevelCheckbox` is set (the doctor screen) and `value` otherwise (the
      patient screen). */
  function NestedChange(f: Form, e: Input, topLevelCheckbox: bool): (r: Form)
    requires HasUser(f)
    ensures StartsWith(e.name, UserPrefix) ==>
      && r.Keys == f.Keys
      && (forall k :: k in f && k != "user" ==> r[k] == f[k])
      && HasUser(r)
      && r["user"].fields == SetField(f["user"].fields, e.name[|UserPrefix|..], CheckedOrValue(e))
    ensures !StartsWith(e.name, UserPrefix) ==>
      r == SetField(f, e.name, if topLevelCheckbox then CheckedOrValue(e) else Str(e.value))
  {
    if StartsWith(e.name, UserPrefix) then
      var field := e.name[|UserPrefix|..];
      f["user" := Obj(SetField(f["user"].fields, field, CheckedOrValue(e)))]
    else
      SetField(f, e.name, if topLevelCheckbox then CheckedOrValue(e) else Str(e.value))
  }

  /** "Only the named field changes" for the nested handler: a 'user.x' event
      changes `user.x` and nothing else, inside or outside `user`; any other
      name changes that top-level field only, and leaves `user` alone unless
      the name is literally 'user'. */
  lemma NestedChangeOnlyNamedField(f: Form, e: Input, topLevelCheckbox: bool, k: string)
    requires HasUser(f)
    ensures var r := NestedChange(f, e, topLevelCheckbox);
      StartsWith(e.name, UserPrefix) ==>
        && r["user"].fields[e.name[5..]] == CheckedOrValue(e)
        && (k in f && k != "user" ==> k in r && r[k] == f[k])
        && (k in f["user"].fields && k != e.name[5..] ==> r["user"].fields[k] == f["user"].fields[k])
    ensures var r := NestedChange(f, e, topLevelCheckbox);
      !StartsWith(e.name, UserPrefix) ==>
        && e.name in r
        && (k in f && k != e.name ==> k in r && r[k] == f[k])
        && (e.name != "user" ==> HasUser(r) && r["user"] == f["user"])
  {
  }

  /** The `editingX` state of a management screen (only the id of the edited
      entity matters) and whether its modal is open. */
  datatype Screen = Screen(form: Form, editing: Option<int>, showModal: bool)

  /** The service call `handleSubmit` makes. */
  datatype SaveRequest = Create(payload: Form) | Update(id: int, payload: Form)

  /** `handleSubmit`'s choice: update the edited entity when there is one,
      otherwise create; the payload is the form as it stands. */
  function SaveRequestOf(s: Screen): (r: SaveRequest)
    ensures r.Update? <==> s.editing.Some?
    ensures r.Update? ==> r.id == s.editing.value
    ensures r.payload == s.form
  {
    match s.editing
    case Some(id) => Update(id, s.form)
    case None => Create(s.form)
  }

  /** `resetForm`: the default form and nothing being edited; the modal is
      left as it was. */
  function Reset(s: Screen, defaults: Form): (r: Screen)
    ensures r.form == defaults && r.editing.None? && r.showModal == s.showModal
  {
    s.(form := defaults, editing := None)
  }

  /** `openAddModal`: reset, then show. */
  function OpenAdd(s: Screen, defaults: Form): (r: Screen)
    ensures r.form == defaults && r.editing.None? && r.showModal
  {
    Reset(s, defaults).(showModal := true)
  }

  /** `handleEdit`: remember the entity, load its form, show. */
  function StartEdit(s: Screen, id: int, form: Form): (r: Screen)
    ensures r.form == form && r.editing == Some(id) && r.showModal
  {
    Screen(form, Some(id), true)
  }

  /** What follows the save call: on success the modal closes and the form is
      reset; on failure (an alert) the screen stays as it was so the user can
      retry. */
  function AfterSave(s: Screen, succeeded: bool, defaults: Form): (r: Screen)
    ensures succeeded ==> r.form == defaults && r.editing.None? && !r.showModal
    ensures !succeeded ==> r == s
  {
    if succeeded then Reset(s.(showModal := false), defaults) else s
  }

  /** Adding always creates and editing always updates that entity, whatever
      happened on the screen before; a failed save can be retried with the
      same request. */
  lemma SaveAfterOpen(s: Screen, defaults: Form, id: int, form: Form)
    ensures SaveRequestOf(OpenAdd(s, defaults)) == Create(defaults)
    ensures SaveRequestOf(StartEdit(s, id, form)) == Update(id, form)
    ensures SaveRequestOf(AfterSave(s, false, defaults)) == SaveRequestOf(s)
    ensures SaveRequestOf(AfterSave(s, true, defaults)).Create?
  {
  }
}

=== FILE: helpers.dfy ===
/** `utils/helpers.js`: the status colour map, the two input validators and the
    empty-input behaviour of the date formatters. */
module Helpers {

  import opened Wrappers
  import Text
  import opened Constants

  const Blue := "#007bff"
  const Green := "#28a745"
  const Red := "#dc3545"
  const Grey := "#6c757d"

  /** `getStatusColor`. */
  function StatusColor(status: string): (r: string)
    ensures r in {Blue, Green, Red, Grey}
  {
    match ParseStatus(status)
    case Some(Scheduled) => Blue
    case Some(Completed) => Green
    case Some(Cancelled) => Red
    case None => Grey
  }

  /** Each status has its own colour, distinct from the fallback grey that
      every other string gets; so the colour identifies the status. */
  lemma StatusColorIdentifiesStatus(a: string, b: string)
    ensures StatusColor("SCHEDULED") == Blue && StatusColor("COMPLETED") == Green
    ensures StatusColor("CANCELLED") == Red
    ensures ParseStatus(a).None? ==> StatusColor(a) == Grey
    ensures StatusColor(a) == Grey <==> ParseStatus(a).None?
    ensures StatusColor(a) == StatusColor(b) && ParseStatus(a).Some? ==> a == b
  {
  }

  /** `formatDate`, `formatDateOnly` and `formatTime` share one shape: a falsy
      argument gives '', anything else the locale rendering `render`, which
      this model does not describe. */
  function Formatted(dateString: Option<string>, render: string -> string): (r: string)
    ensures !Text.Truthy(dateString) ==> r == ""
    ensures Text.Truthy(dateString) ==> r == render(dateString.value)
  {
    if Text.Truthy(dateString) then render(dateString.value) else ""
  }

  /** JavaScript's `\s`: the WhiteSpace and LineTerminator code points. */
  predicate IsSpace(c: char) {
    c == '\t' || c == '\n' || c == '\U{B}' || c == '\U{C}' || c == '\r' || c == ' '
    || c == '\U{A0}' || c == '\U{1680}' || ('\U{2000}' <= c <= '\U{200A}')
    || c == '\U{2028}' || c == '\U{2029}' || c == '\U{202F}' || c == '\U{205F}'
    || c == '\U{3000}' || c == '\U{FEFF}'
  }

  /** `[^\s@]` */
  predicate EmailChar(c: char) {
    !IsSpace(c) && c != '@'
  }

  predicate AllEmailChars(s: string) {
    forall i :: 0 <= i < |s| ==> EmailChar(s[i])
  }

  /** `s` reads as `a@b.c` with the '@' at `at` and the '.' at `dot`, where
      `a`, `b` and `c` are non-empty runs of `[^\s@]`. */
  predicate EmailSplit(s: string, at: int, dot: int) {
    0 < at && at + 1 < dot && dot + 1 < |s| && s[at] == '@' && s[dot] == '.'
    && AllEmailChars(s[..at]) && AllEmailChars(s[at + 1..dot]) && AllEmailChars(s[dot + 1..])
  }

  /** The regular expression `^[^\s@]+@[^\s@]+\.[^\s@]+$`, read as the set of
      strings it matches. */
  ghost predicate MatchesEmailPattern(s: string) {
    exists at, dot :: EmailSplit(s, at, dot)
  }

  /** `validateEmail`: no whitespace, one '@' with something before it, and a
      '.' in the domain that is neither its first nor its last character. */
  predicate ValidateEmail(s: string) {
    && (forall i :: 0 <= i < |s| ==> !IsSpace(s[i]))
    && exists at :: 0 < at < |s| && s[at] == '@' && '@' !in s[..at] && '@' !in s[at + 1..]
                    && at + 2 <= |s| - 1 && '.' in s[at + 2..|s| - 1]
  }

  /** The '@' the validator finds at `at`, together with a '.' at least two
      characters after it and before the last, splits the string as the
      regular expression does. */
  lemma ValidSplits(s: string, at: int, k: int)
    requires forall i :: 0 <= i < |s| ==> !IsSpace(s[i])
    requires 0 < at < |s| && s[at] == '@' && '@' !in s[..at] && '@' !in s[at + 1..]
    requires at + 2 <= |s| - 1 && 0 <= k < |s[at + 2..|s| - 1]| && s[at + 2..|s| - 1][k] == '.'
    ensures EmailSplit(s, at, at + 2 + k)
  {
    var dot := at + 2 + k;
    assert s[dot] == '.';
    assert forall i :: at < i < |s| ==> s[i] == s[at + 1..][i - at - 1];
    assert forall i :: 0 <= i < at ==> s[i] == s[..at][i];
  }

  /** A split as the regular expression makes it meets the validator's
      reading, with the same '@'. */
  lemma SplitIsValid(s: string, at: int, dot: int)
    requires EmailSplit(s, at, dot)
    ensures forall i :: 0 <= i < |s| ==> !IsSpace(s[i])
    ensures '@' !in s[..at] && '@' !in s[at + 1..]
    ensures at + 2 <= |s| - 1 && '.' in s[at + 2..|s| - 1]
  {
    assert forall i :: 0 <= i < at ==> s[i] == s[..at][i];
    assert forall i :: at < i < dot ==> s[i] == s[at + 1..dot][i - at - 1];
    assert forall i :: dot < i < |s| ==> s[i] == s[dot + 1..][i - dot - 1];
    var domain := s[at + 1..];
    assert '@' !in domain by {
      forall i | 0 <= i < |domain| ensures domain[i] != '@' {
        assert domain[i] == s[at + 1 + i];
      }
    }
    assert s[at + 2..|s| - 1][dot - at - 2] == '.';
  }

  /** The direct reading of the validator accepts exactly the strings the
      regular expression matches. */
  lemma ValidateEmailMatchesPattern(s: string)
    ensures ValidateEmail(s) <==> MatchesEmailPattern(s)
  {
    if ValidateEmail(s) {
      var at :| 0 < at < |s| && s[at] == '@' && '@' !in s[..at] && '@' !in s[at + 1..]
                && at + 2 <= |s| - 1 && '.' in s[at + 2..|s| - 1];
      var k :| 0 <= k < |s[at + 2..|s| - 1]| && s[at + 2..|s| - 1][k] == '.';
      ValidSplits(s, at, k);
    }
    if MatchesEmailPattern(s) {
      var at, dot :| EmailSplit(s, at, dot);
      SplitIsValid(s, at, dot);
    }
  }

  /** A string the validator accepts has no whitespace and exactly one '@'. */
  lemma ValidEmailHasOneAt(s: string)
    requires ValidateEmail(s)
    ensures multiset(s)['@'] == 1
    ensures forall i :: 0 <= i < |s| ==> !IsSpace(s[i])
  {
    var at :| 0 < at < |s| && s[at] == '@' && '@' !in s[..at] && '@' !in s[at + 1..]
              && at + 2 <= |s| - 1 && '.' in s[at + 2..|s| - 1];
    assert s == s[..at] + [s[at]] + s[at + 1..];
    assert multiset(s) == multiset(s[..at]) + multiset{'@'} + multiset(s[at + 1..]);
  }

  /** `[\d\s\-()]` (the `-` between `\s` and `(` is a literal hyphen). */
  predicate PhoneChar(c: char) {
    ('0' <= c <= '9') || IsSpace(c) || c == '-' || c == '(' || c == ')'
  }

  predicate AllPhoneChars(s: string) {
    forall i :: 0 <= i < |s| ==> PhoneChar(s[i])
  }

  /** The regular expression `^\+?[\d\s\-()]{10,}$` with both readings of the
      optional '+'. */
  ghost predicate MatchesPhonePattern(s: string) {
    (|s| >= 10 && AllPhoneChars(s))
    || (|s| >= 11 && s[0] == '+' && AllPhoneChars(s[1..]))
  }

  /** `validatePhone`: an optional leading '+' and then at least ten
      characters, each a digit, whitespace, '-', '(' or ')'. */
  predicate ValidatePhone(s: string) {
    var body := if |s| > 0 && s[0] == '+' then s[1..] else s;
    |body| >= 10 && AllPhoneChars(body)
  }

  lemma ValidatePhoneMatchesPattern(s: string)
    ensures ValidatePhone(s) <==> MatchesPhonePattern(s)
  {
    if |s| > 0 && s[0] == '+' {
      assert !PhoneChar(s[0]);
    }
  }

  /** Short strings and strings containing an ASCII letter are rejected. */
  lemma ValidatePhoneRejects(s: string, i: int)
    requires |s| < 10 || (0 <= i < |s| && (('a' <= s[i] <= 'z') || ('A' <= s[i] <= 'Z')))
    ensures !ValidatePhone(s)
  {
    if |s| >= 10 && |s| > 0 && s[0] == '+' && i > 0 {
      assert s[1..][i - 1] == s[i];
    }
  }
}

=== FILE: login.dfy ===
/** The sign-in screen of `components/auth/Login.jsx`: the credentials form,
    the submit handler that calls the session's `login`, and the role-based
    redirect that follows a successful sign-in. */
module LoginScreen {

  import opened Wrappers
  import Forms
  import opened Constants
  import Text
  import Session
  import Routing

  datatype Screen = Screen(credentials: Forms.Form, error: string, loading: bool)

  const FallbackError: string := "Login failed. Please check your credentials."

  /** The screen as it mounts: both fields blank, no error, not loading. */
  function Initial(): (s: Screen)
    ensures s.credentials.Keys == {"username", "password"}
    ensures forall k :: k in s.credentials ==> s.credentials[k] == Forms.Str("")
    ensures s.error == "" && !s.loading
  {
    Screen(map["username" := Forms.Str(""), "password" := Forms.Str("")], "", false)
  }

  /** `handleChange`: the named credential takes the typed value. While a
      sign-in is in flight the inputs are disabled and no change arrives. */
  function HandleChange(s: Screen, name: string, value: string): (r: Screen)
    ensures s.loading ==> r == s
    ensures !s.loading ==> r.credentials == Forms.SetField(s.credentials, name, Forms.Str(value))
    ensures r.error == s.error && r.loading == s.loading
  {
    if s.loading then s else s.(credentials := Forms.SetField(s.credentials, name, Forms.Str(value)))
  }

  /** The role switch after a successful sign-in; a role outside the three
      falls to the default, the administrator dashboard. */
  function Destination(role: string): (r: string)
    ensures ParseRole(role).Some? ==> r == Routing.DashboardPath(ParseRole(role).value)
    ensures ParseRole(role).None? ==> r == "/admin/dashboard"
  {
    if role == "ADMIN" then "/admin/dashboard"
    else if role == "DOCTOR" then "/doctor/dashboard"
    else if role == "PATIENT" then "/patient/dashboard"
    else "/admin/dashboard"
  }

  /** The first half of `handleSubmit`, before the `await`: loading on and
      the error cleared. */
  function BeginSubmit(s: Screen): (r: Screen)
    ensures r.loading && r.error == "" && r.credentials == s.credentials
  {
    s.(loading := true, error := "")
  }

  /** What the whole submit leaves behind: the screen, the session, and the
      page navigated to, if any. */
  datatype Submitted = Submitted(screen: Screen, session: Session.State, navigate: Option<string>)

  /** `handleSubmit` run to completion against backend answer `b`. The
      button is disabled while loading, so a submit during a sign-in does
      nothing. On success the role comes from the identity just written to
      storage; on failure the session's message is shown, or the fallback
      when it is empty. Loading is off after either outcome. */
  function Submit(s: Screen, session: Session.State, b: Session.Backend): (r: Submitted)
    ensures s.loading ==> r == Submitted(s, session, None)
    ensures !s.loading ==>
      var step := Session.Login(session, b);
      && !r.screen.loading
      && r.screen.credentials == s.credentials
      && r.session == step.state
      && (step.result.success ==>
            r.navigate == Some(Destination(step.state.stored.value.role)) && r.screen.error == "")
      && (!step.result.success ==>
            r.navigate.None? &&
            r.screen.error == (if Text.Truthy(step.result.message) then step.result.message.value else FallbackError))
  {
    if s.loading then Submitted(s, session, None)
    else
      var pending := BeginSubmit(s);
      var step := Session.Login(session, b);
      if step.result.success then
        Submitted(pending.(loading := false), step.state, Some(Destination(step.state.stored.value.role)))
      else
        var message := if Text.Truthy(step.result.message) then step.result.message.value else FallbackError;
        Submitted(pending.(error := message, loading := false), step.state, None)
  }

  /** A successful sign-in with a known role lands on that role's dashboard,
      and the guard of that route renders it for the new session. */
  lemma SignInLandsOnOwnDashboard(s: Screen, session: Session.State, response: Session.Identity, r: Role)
    requires !s.loading && response.success && response.role == RoleName(r)
    ensures Submit(s, session, Session.Responds(response)).navigate == Some(Routing.DashboardPath(r))
    ensures Routing.Lookup(Routing.DashboardPath(r)).Some?
    ensures Routing.Guard(false, Some(response), Routing.Routes[Routing.DashboardPath(r)].allowedRoles) == Routing.Render
  {
    ParseRoleName(r);
    Routing.DashboardAdmitsRole(r);
  }

  /** A successful sign-in with a role outside the three is sent to the
      administrator dashboard, whose guard then sends it on to '/login'. */
  lemma UnknownRoleBouncesToLogin(s: Screen, session: Session.State, response: Session.Identity)
    requires !s.loading && response.success && ParseRole(response.role).None?
    ensures Submit(s, session, Session.Responds(response)).navigate == Some("/admin/dashboard")
    ensures Routing.Guard(false, Some(response), Routing.Routes["/admin/dashboard"].allowedRoles) ==
      Routing.Redirect(Routing.LoginPath)
  {
  }

  /** A rejected sign-in leaves the session alone and stays on this screen
      with an error to show. */
  lemma RejectedSignInShowsError(s: Screen, session: Session.State, b: Session.Backend)
    requires !s.loading && !(b.Responds? && b.response.success)
    ensures Submit(s, session, b).session == session
    ensures Submit(s, session, b).navigate.None?
    ensures Submit(s, session, b).screen.error != ""
  {
  }
}

=== FILE: medical_history.dfy ===
/** The data logic of `components/patient/MyMedicalHistory.jsx`: the history
    sorted newest first, the search, doctor and year filters, the option lists
    of the two drop-downs, the health summary, and the prescription preview.
    Dates are the parsed `Stamp`s of the records; six months ago is a
    parameter. */
module MedicalHistory {

  import opened Wrappers
  import opened Entities
  import Seqs
  import Text

  datatype View = View(history: seq<MedicalRecord>, patient: Option<Patient>, loading: bool)

  /** The history as `fetchData` stores it: every record, latest visit first. */
  function SortNewestFirst(h: seq<MedicalRecord>): (r: seq<MedicalRecord>)
    ensures multiset(r) == multiset(h)
    ensures forall i, j :: 0 <= i < j < |r| ==> r[i].visitDate.instant >= r[j].visitDate.instant
  {
    var r := Seqs.SortBy(h, VisitTimeDesc);
    assert forall i, j :: 0 <= i < j < |r| ==> VisitTimeDesc(r[i]) <= VisitTimeDesc(r[j]);
    r
  }

  /** The mount effect and `fetchData`: nothing is fetched without a truthy
      user id; otherwise loading ends, and the matching patient's history is
      kept, sorted. */
  function Load(userId: Option<int>, patients: Option<seq<Patient>>, history: Option<seq<MedicalRecord>>): (v: View)
    ensures !(userId.Some? && userId.value != 0) ==> v == View([], None, true)
    ensures userId.Some? && userId.value != 0 ==> !v.loading
    ensures v.patient.Some? ==>
      (patients.Some? && v.patient.value in patients.value && v.patient.value.user.id == userId.value)
    ensures userId.Some? && userId.value != 0 && patients.Some? && (exists p :: p in patients.value && p.user.id == userId.value) ==>
      v.patient.Some?
    ensures v.patient.None? || history.None? ==> v.history == []
    ensures v.patient.Some? && history.Some? ==>
      && multiset(v.history) == multiset(history.value)
      && (forall i, j :: 0 <= i < j < |v.history| ==> v.history[i].visitDate.instant >= v.history[j].visitDate.instant)
  {
    if !(userId.Some? && userId.value != 0) then View([], None, true)
    else if patients.None? then View([], None, false)
    else
      var found := Seqs.Find(patients.value, (p: Patient) => p.user.id == userId.value);
      if found.None? || history.None? then View([], found, false)
      else View(SortNewestFirst(history.value), found, false)
  }

  /** The search box: diagnosis, doctor's name, or the symptoms when there
      are any, case-insensitively. */
  predicate MatchesSearch(term: string, r: MedicalRecord) {
    || Text.IncludesIgnoringCase(r.diagnosis, term)
    || Text.IncludesIgnoringCase(r.doctorName, term)
    || (Text.Truthy(r.symptoms) && Text.IncludesIgnoringCase(r.symptoms.value, term))
  }

  /** The doctor drop-down, applied as a case-insensitive substring test. */
  predicate MatchesDoctor(name: string, r: MedicalRecord) {
    Text.IncludesIgnoringCase(r.doctorName, name)
  }

  /** Same calendar year and month as `d`. */
  predicate InMonth(d: Date, r: MedicalRecord) {
    r.visitDate.date.year == d.year && r.visitDate.date.month == d.month
  }

  predicate InYear(year: int, r: MedicalRecord) {
    r.visitDate.date.year == year
  }

  /** The local date of the year option's value, `${year}-01-01`, read in a
      time zone at or east of UTC. */
  function YearOption(year: int): (d: Date)
    ensures d.year == year && d.month == 1 && d.day == 1
  {
    Date(year, 1, 1)
  }

  /** Each step of `applyFilters` as a test; an empty control passes
      every record. */
  function SearchStep(term: string): MedicalRecord -> bool {
    x => term == "" || MatchesSearch(term, x)
  }

  function DoctorStep(name: string): MedicalRecord -> bool {
    x => name == "" || MatchesDoctor(name, x)
  }

  /** The year step as written: same year and month as the option's date. */
  function MonthStep(year: Option<int>): MedicalRecord -> bool {
    x => year.None? || InMonth(YearOption(year.value), x)
  }

  /** The year step as the drop-down means it. */
  function YearStep(year: Option<int>): MedicalRecord -> bool {
    x => year.None? || InYear(year.value, x)
  }

  function SearchFilter(h: seq<MedicalRecord>, term: string): seq<MedicalRecord> {
    if term == "" then h else Seqs.Filter(h, SearchStep(term))
  }

  function DoctorFilter(h: seq<MedicalRecord>, name: string): seq<MedicalRecord> {
    if name == "" then h else Seqs.Filter(h, DoctorStep(name))
  }

  function MonthFilter(h: seq<MedicalRecord>, year: Option<int>): seq<MedicalRecord> {
    if year.None? then h else Seqs.Filter(h, MonthStep(year))
  }

  function YearFilter(h: seq<MedicalRecord>, year: Option<int>): seq<MedicalRecord> {
    if year.None? then h else Seqs.Filter(h, YearStep(year))
  }

  /** `applyFilters` as written, with the year drop-down's selection. */
  function ApplyFiltersAsWritten(h: seq<MedicalRecord>, search: string, doctor: string, year: Option<int>): seq<MedicalRecord> {
    MonthFilter(DoctorFilter(SearchFilter(h, search), doctor), year)
  }

  /** `applyFilters` with the year step corrected. */
  function ApplyFilters(h: seq<MedicalRecord>, search: string, doctor: string, year: Option<int>): seq<MedicalRecord> {
    YearFilter(DoctorFilter(SearchFilter(h, search), doctor), year)
  }

  /** What the three corrected steps keep together. */
  function Keeps(search: string, doctor: string, year: Option<int>): MedicalRecord -> bool {
    x => SearchStep(search)(x) && DoctorStep(doctor)(x) && YearStep(year)(x)
  }

  function KeepsAsWritten(search: string, doctor: string, year: Option<int>): MedicalRecord -> bool {
    x => SearchStep(search)(x) && DoctorStep(doctor)(x) && MonthStep(year)(x)
  }

  function SearchAndDoctor(search: string, doctor: string): MedicalRecord -> bool {
    x => SearchStep(search)(x) && DoctorStep(doctor)(x)
  }

  /** A step skipped for an empty control is the same as filtering by its
      test, which then passes everything. */
  lemma SkippedStepIsFilter(h: seq<MedicalRecord>, search: string, doctor: string, year: Option<int>)
    ensures SearchFilter(h, search) == Seqs.Filter(h, SearchStep(search))
    ensures DoctorFilter(h, doctor) == Seqs.Filter(h, DoctorStep(doctor))
    ensures YearFilter(h, year) == Seqs.Filter(h, YearStep(year))
    ensures MonthFilter(h, year) == Seqs.Filter(h, MonthStep(year))
  {
    if search == "" { Seqs.FilterKeepsAll(h, SearchStep(search)); }
    if doctor == "" { Seqs.FilterKeepsAll(h, DoctorStep(doctor)); }
    if year.None? {
      Seqs.FilterKeepsAll(h, YearStep(year));
      Seqs.FilterKeepsAll(h, MonthStep(year));
    }
  }

  /** The filters only remove records and keep the order of the rest: the
      chain is a single filter by the conjunction of the three tests, in
      both versions. */
  lemma FiltersAreOneFilter(h: seq<MedicalRecord>, search: string, doctor: string, year: Option<int>)
    ensures ApplyFilters(h, search, doctor, year) == Seqs.Filter(h, Keeps(search, doctor, year))
    ensures ApplyFiltersAsWritten(h, search, doctor, year) == Seqs.Filter(h, KeepsAsWritten(search, doctor, year))
  {
    SkippedStepIsFilter(h, search, doctor, year);
    var s := Seqs.Filter(h, SearchStep(search));
    SkippedStepIsFilter(s, search, doctor, year);
    Seqs.FilterFilter(h, SearchStep(search), DoctorStep(doctor), SearchAndDoctor(search, doctor));
    var sd := Seqs.Filter(h, SearchAndDoctor(search, doctor));
    SkippedStepIsFilter(sd, search, doctor, year);
    Seqs.FilterFilter(h, SearchAndDoctor(search, doctor), YearStep(year), Keeps(search, doctor, year));
    Seqs.FilterFilter(h, SearchAndDoctor(search, doctor), MonthStep(year), KeepsAsWritten(search, doctor, year));
  }

  /** A record is shown exactly when it passes every non-empty control. */
  lemma FiltersShow(h: seq<MedicalRecord>, search: string, doctor: string, year: Option<int>, x: MedicalRecord)
    ensures x in ApplyFilters(h, search, doctor, year) <==>
      x in h && (search == "" || MatchesSearch(search, x)) && (doctor == "" || MatchesDoctor(doctor, x)) &&
      (year.None? || x.visitDate.date.year == year.value)
  {
    FiltersAreOneFilter(h, search, doctor, year);
  }

  /** "Clear Filters" empties the three controls, which shows the whole
      history. */
  lemma ClearedFiltersShowAll(h: seq<MedicalRecord>)
    ensures ApplyFilters(h, "", "", None) == h
    ensures ApplyFiltersAsWritten(h, "", "", None) == h
  {
  }

  function DoctorNames(h: seq<MedicalRecord>): (r: seq<string>)
    ensures |r| == |h| && forall i :: 0 <= i < |h| ==> r[i] == h[i].doctorName
  {
    seq(|h|, i requires 0 <= i < |h| => h[i].doctorName)
  }

  function VisitYears(h: seq<MedicalRecord>): (r: seq<int>)
    ensures |r| == |h| && forall i :: 0 <= i < |h| ==> r[i] == h[i].visitDate.date.year
  {
    seq(|h|, i requires 0 <= i < |h| => h[i].visitDate.date.year)
  }

  /** `getUniqueDoctors`: the names with repeats removed, then sorted. */
  function UniqueDoctors(h: seq<MedicalRecord>): seq<string> {
    Text.SortStrings(Seqs.Dedup(DoctorNames(h)))
  }

  /** The doctor drop-down offers each doctor of the history once, in
      ascending order, and nothing else. */
  lemma UniqueDoctorsListsEachOnce(h: seq<MedicalRecord>)
    ensures Seqs.Distinct(UniqueDoctors(h))
    ensures Text.SortedStrings(UniqueDoctors(h))
    ensures forall i :: 0 <= i < |h| ==> h[i].doctorName in UniqueDoctors(h)
    ensures forall name :: name in UniqueDoctors(h) ==> exists i :: 0 <= i < |h| && h[i].doctorName == name
  {
    var names := DoctorNames(h);
    var d := Seqs.Dedup(names);
    var r := Text.SortStrings(d);
    Seqs.DistinctPermutation(d, r);
    Text.SortStringsSorted(d);
    forall i | 0 <= i < |h|
      ensures h[i].doctorName in r
    {
      assert names[i] in names;
      assert names[i] in multiset(d);
    }
    forall name | name in r
      ensures exists i :: 0 <= i < |h| && h[i].doctorName == name
    {
      assert name in multiset(r);
      assert name in d;
      var i :| 0 <= i < |names| && names[i] == name;
    }
  }

  function Negated(y: int): int {
    -y
  }

  /** `getUniqueYear`: the visit years with repeats removed, latest first. */
  function UniqueYears(h: seq<MedicalRecord>): seq<int> {
    Seqs.SortBy(Seqs.Dedup(VisitYears(h)), Negated)
  }

  /** The year drop-down offers each visit year once, latest first, and
      nothing else. */
  lemma UniqueYearsListsEachOnce(h: seq<MedicalRecord>)
    ensures forall i, j :: 0 <= i < j < |UniqueYears(h)| ==> UniqueYears(h)[i] > UniqueYears(h)[j]
    ensures forall i :: 0 <= i < |h| ==> h[i].visitDate.date.year in UniqueYears(h)
    ensures forall y :: y in UniqueYears(h) ==> exists i :: 0 <= i < |h| && h[i].visitDate.date.year == y
  {
    var years := VisitYears(h);
    var d := Seqs.Dedup(years);
    var r := UniqueYears(h);
    Seqs.DistinctPermutation(d, r);
    forall i, j | 0 <= i < j < |r|
      ensures r[i] > r[j]
    {
      assert Negated(r[i]) <= Negated(r[j]);
    }
    forall i | 0 <= i < |h|
      ensures h[i].visitDate.date.year in r
    {
      assert years[i] in years;
      assert years[i] in multiset(d);
    }
    forall y | y in r
      ensures exists i :: 0 <= i < |h| && h[i].visitDate.date.year == y
    {
      assert y in multiset(r);
      assert y in d;
      var i :| 0 <= i < |years| && years[i] == y;
    }
  }

  /** The as-written year filter only finds January visits: a history with
      a single visit in March 2024 offers 2024 in the drop-down, and choosing
      it shows nothing. */
  lemma YearOptionFindsOnlyJanuary(h: seq<MedicalRecord>)
    requires h == [MedicalRecord(1, 1, "Pat", "Lee", "Flu", None, None, None,
                                 Stamp("2024-03-15T10:00:00", 0, Date(2024, 3, 15)))]
    ensures 2024 in UniqueYears(h)
    ensures ApplyFiltersAsWritten(h, "", "", Some(2024)) == []
  {
    UniqueYearsListsEachOnce(h);
    FiltersAreOneFilter(h, "", "", Some(2024));
    assert !KeepsAsWritten("", "", Some(2024))(h[0]);
    assert Seqs.Filter(h[1..], KeepsAsWritten("", "", Some(2024))) == [];
  }

  /** With the corrected filter every year the drop-down offers shows exactly
      that year's visits, and at least one of them. */
  lemma YearOptionFindsItsVisits(h: seq<MedicalRecord>, year: int)
    requires year in UniqueYears(h)
    ensures ApplyFilters(h, "", "", Some(year)) != []
    ensures forall x :: x in ApplyFilters(h, "", "", Some(year)) <==> x in h && x.visitDate.date.year == year
  {
    UniqueYearsListsEachOnce(h);
    FiltersAreOneFilter(h, "", "", Some(year));
    var i :| 0 <= i < |h| && h[i].visitDate.date.year == year;
    assert h[i] in ApplyFilters(h, "", "", Some(year));
  }

  /** One line of "Common Conditions". */
  datatype Entry = Entry(diagnosis: string, count: nat)

  datatype Summary = Summary(totalVisits: nat, uniqueDoctors: nat, recentVisits: nat, mostCommon: seq<Entry>)

  /** Diagnoses the summary counts: present and not 'N/A'. */
  predicate Counted(r: MedicalRecord) {
    r.diagnosis != "" && r.diagnosis != "N/A"
  }

  function HasDiagnosis(d: string): MedicalRecord -> bool {
    (x: MedicalRecord) => x.diagnosis == d
  }

  /** How many visits carry diagnosis `d`: the reducer's tally for `d`. */
  function DiagnosisCount(h: seq<MedicalRecord>, d: string): nat {
    |Seqs.Filter(h, HasDiagnosis(d))|
  }

  function Diagnoses(h: seq<MedicalRecord>): (r: seq<string>)
    ensures |r| == |h| && forall i :: 0 <= i < |h| ==> r[i] == h[i].diagnosis
  {
    seq(|h|, i requires 0 <= i < |h| => h[i].diagnosis)
  }

  /** The counted diagnoses, each once, in order of first appearance (the
      order of the tally object's keys). */
  function CountedDiagnoses(h: seq<MedicalRecord>): seq<string> {
    Seqs.Dedup(Diagnoses(Seqs.Filter(h, Counted)))
  }

  lemma CountedDiagnosesSpec(h: seq<MedicalRecord>)
    ensures Seqs.Distinct(CountedDiagnoses(h))
    ensures forall d :: d in CountedDiagnoses(h) ==> d != "" && d != "N/A" && DiagnosisCount(h, d) > 0
    ensures forall i :: 0 <= i < |h| && Counted(h[i]) ==> h[i].diagnosis in CountedDiagnoses(h)
  {
    var counted := Seqs.Filter(h, Counted);
    var ds := Diagnoses(counted);
    forall d | d in CountedDiagnoses(h)
      ensures d != "" && d != "N/A" && DiagnosisCount(h, d) > 0
    {
      var k :| 0 <= k < |ds| && ds[k] == d;
      assert counted[k] in counted;
      assert counted[k] in Seqs.Filter(h, HasDiagnosis(d));
    }
    forall i | 0 <= i < |h| && Counted(h[i])
      ensures h[i].diagnosis in CountedDiagnoses(h)
    {
      assert h[i] in counted;
      var k :| 0 <= k < |counted| && counted[k] == h[i];
      assert ds[k] in ds;
    }
  }

  /** `Object.entries` of the tally. */
  function Tally(h: seq<MedicalRecord>, ds: seq<string>): (r: seq<Entry>)
    ensures |r| == |ds|
    ensures forall i :: 0 <= i < |ds| ==> r[i] == Entry(ds[i], DiagnosisCount(h, ds[i]))
  {
    seq(|ds|, i requires 0 <= i < |ds| => Entry(ds[i], DiagnosisCount(h, ds[i])))
  }

  function NegatedCount(e: Entry): int {
    0 - e.count as int
  }

  /** The tally sorted by count, most frequent first. */
  function Ranked(h: seq<MedicalRecord>): seq<Entry> {
    Seqs.SortBy(Tally(h, CountedDiagnoses(h)), NegatedCount)
  }

  /** The three most frequent counted diagnoses, most frequent first. */
  function MostCommon(h: seq<MedicalRecord>): seq<Entry> {
    Seqs.Take(Ranked(h), 3)
  }

  /** Ranking any tally whose diagnoses are distinct keeps its entries, keeps
      them distinct, and orders them by non-increasing count. */
  lemma {:induction false} RankingKeepsEntries(tally: seq<Entry>)
    requires forall i, j :: 0 <= i < j < |tally| ==> tally[i].diagnosis != tally[j].diagnosis
    ensures var ranked := Seqs.SortBy(tally, NegatedCount);
      && |ranked| == |tally|
      && (forall i, j :: 0 <= i < j < |ranked| ==> ranked[i].count >= ranked[j].count)
      && (forall i :: 0 <= i < |ranked| ==> ranked[i] in tally)
      && (forall i :: 0 <= i < |tally| ==> tally[i] in ranked)
      && (forall i, j :: 0 <= i < j < |ranked| ==> ranked[i].diagnosis != ranked[j].diagnosis)
  {
    var ranked := Seqs.SortBy(tally, NegatedCount);
    assert |ranked| == |tally| by {
      assert |multiset(ranked)| == |multiset(tally)|;
    }
    Seqs.SortByMembers(tally, NegatedCount);
    RankedCountsDescend(tally);
    RankedDiagnosesDistinct(tally, ranked);
  }

  lemma RankedCountsDescend(tally: seq<Entry>)
    ensures var ranked := Seqs.SortBy(tally, NegatedCount);
      forall i, j :: 0 <= i < j < |ranked| ==> ranked[i].count >= ranked[j].count
  {
    var ranked := Seqs.SortBy(tally, NegatedCount);
    forall i, j | 0 <= i < j < |ranked|
      ensures ranked[i].count >= ranked[j].count
    {
      assert NegatedCount(ranked[i]) <= NegatedCount(ranked[j]);
    }
  }

  /** A reordering of entries with distinct diagnoses has distinct
      diagnoses. */
  lemma RankedDiagnosesDistinct(tally: seq<Entry>, ranked: seq<Entry>)
    requires forall i, j :: 0 <= i < j < |tally| ==> tally[i].diagnosis != tally[j].diagnosis
    requires multiset(ranked) == multiset(tally)
    ensures forall i, j :: 0 <= i < j < |ranked| ==> ranked[i].diagnosis != ranked[j].diagnosis
  {
    assert Seqs.Distinct(tally);
    Seqs.DistinctPermutation(tally, ranked);
    forall i, j | 0 <= i < j < |ranked|
      ensures ranked[i].diagnosis != ranked[j].diagnosis
    {
      assert ranked[i] in multiset(tally) && ranked[j] in multiset(tally);
      var a :| 0 <= a < |tally| && tally[a] == ranked[i];
      var b :| 0 <= b < |tally| && tally[b] == ranked[j];
      assert ranked[i] != ranked[j];
    }
  }

  /** Distinct diagnoses give a tally with distinct diagnoses, each entry
      carrying its true count. */
  lemma TallyEntries(h: seq<MedicalRecord>, ds: seq<string>)
    requires Seqs.Distinct(ds)
    ensures forall i, j :: 0 <= i < j < |Tally(h, ds)| ==> Tally(h, ds)[i].diagnosis != Tally(h, ds)[j].diagnosis
    ensures forall e :: e in Tally(h, ds) ==> e.diagnosis in ds && e.count == DiagnosisCount(h, e.diagnosis)
    ensures forall m :: 0 <= m < |ds| ==> Tally(h, ds)[m].diagnosis == ds[m]
  {
  }

  /** The ranking holds every counted diagnosis once, with its count, in
      non-increasing order of count. */
  lemma RankedSpec(h: seq<MedicalRecord>)
    ensures |Ranked(h)| == |CountedDiagnoses(h)|
    ensures forall i, j :: 0 <= i < j < |Ranked(h)| ==> Ranked(h)[i].count >= Ranked(h)[j].count
    ensures forall i :: 0 <= i < |Ranked(h)| ==>
      Ranked(h)[i].diagnosis in CountedDiagnoses(h) && Ranked(h)[i].count == DiagnosisCount(h, Ranked(h)[i].diagnosis)
    ensures forall i, j :: 0 <= i < j < |Ranked(h)| ==> Ranked(h)[i].diagnosis != Ranked(h)[j].diagnosis
    ensures forall d :: d in CountedDiagnoses(h) ==> exists k :: 0 <= k < |Ranked(h)| && Ranked(h)[k].diagnosis == d
  {
    var ds := CountedDiagnoses(h);
    var tally := Tally(h, ds);
    CountedDiagnosesSpec(h);
    TallyEntries(h, ds);
    RankingKeepsEntries(tally);
    var ranked := Ranked(h);
    assert ranked == Seqs.SortBy(tally, NegatedCount);
    forall d | d in ds
      ensures exists k :: 0 <= k < |ranked| && ranked[k].diagnosis == d
    {
      var m :| 0 <= m < |ds| && ds[m] == d;
      assert tally[m] in ranked;
    }
  }

  /** A visit at or after the six-months-ago instant. */
  function Recent(sixMonthsAgo: int): MedicalRecord -> bool {
    (x: MedicalRecord) => x.visitDate.instant >= sixMonthsAgo
  }

  /** The doctor drop-down lists as many names as `new Set(doctorNames)`
      holds. */
  lemma UniqueDoctorsCount(h: seq<MedicalRecord>)
    ensures |UniqueDoctors(h)| == |Seqs.Dedup(DoctorNames(h))|
  {
    var d := Seqs.Dedup(DoctorNames(h));
    assert |multiset(Text.SortStrings(d))| == |multiset(d)|;
  }

  /** `getHealthSummary`: the doctor tile counts the names the doctor
      drop-down offers, and the conditions list is the top three. */
  function HealthSummary(h: seq<MedicalRecord>, sixMonthsAgo: int): (s: Summary)
    ensures s.totalVisits == |h|
    ensures s.uniqueDoctors <= s.totalVisits && s.recentVisits <= s.totalVisits
    ensures s.uniqueDoctors == |UniqueDoctors(h)|
    ensures s.recentVisits == 0 <==> forall x :: x in h ==> x.visitDate.instant < sixMonthsAgo
    ensures s.mostCommon == MostCommon(h)
  {
    var recent := Seqs.Filter(h, Recent(sixMonthsAgo));
    assert |recent| > 0 ==> recent[0] in recent;
    UniqueDoctorsCount(h);
    Summary(|h|, |Seqs.Dedup(DoctorNames(h))|, |recent|, MostCommon(h))
  }

  /** The summary grows one visit at a time: one more visit, one more doctor
      exactly when the visit's doctor is new, and one more recent visit
      exactly when it is at or after six months ago. With the empty history's
      zeros this fixes both counts. */
  lemma {:induction false} SummaryGrows(h: seq<MedicalRecord>, x: MedicalRecord, sixMonthsAgo: int)
    ensures HealthSummary(h + [x], sixMonthsAgo).totalVisits == HealthSummary(h, sixMonthsAgo).totalVisits + 1
    ensures HealthSummary(h + [x], sixMonthsAgo).uniqueDoctors ==
      if x.doctorName in DoctorNames(h) then HealthSummary(h, sixMonthsAgo).uniqueDoctors
      else HealthSummary(h, sixMonthsAgo).uniqueDoctors + 1
    ensures HealthSummary(h + [x], sixMonthsAgo).recentVisits ==
      HealthSummary(h, sixMonthsAgo).recentVisits + (if x.visitDate.instant >= sixMonthsAgo then 1 else 0)
  {
    var before := HealthSummary(h, sixMonthsAgo);
    var after := HealthSummary(h + [x], sixMonthsAgo);
    assert before.uniqueDoctors == |Seqs.Dedup(DoctorNames(h))|;
    assert after.uniqueDoctors == |Seqs.Dedup(DoctorNames(h + [x]))|;
    assert before.recentVisits == |Seqs.Filter(h, Recent(sixMonthsAgo))|;
    assert after.recentVisits == |Seqs.Filter(h + [x], Recent(sixMonthsAgo))|;
    RecentGrows(h, x, sixMonthsAgo);
    DoctorsGrow(h, x);
  }

  lemma RecentGrows(h: seq<MedicalRecord>, x: MedicalRecord, sixMonthsAgo: int)
    ensures |Seqs.Filter(h + [x], Recent(sixMonthsAgo))| ==
      |Seqs.Filter(h, Recent(sixMonthsAgo))| + (if x.visitDate.instant >= sixMonthsAgo then 1 else 0)
  {
    Seqs.FilterAppend(h, [x], Recent(sixMonthsAgo));
  }

  lemma DoctorsGrow(h: seq<MedicalRecord>, x: MedicalRecord)
    ensures |Seqs.Dedup(DoctorNames(h + [x]))| ==
      if x.doctorName in DoctorNames(h) then |Seqs.Dedup(DoctorNames(h))| else |Seqs.Dedup(DoctorNames(h))| + 1
  {
    var names := DoctorNames(h + [x]);
    assert names[..|names| - 1] == DoctorNames(h);
    assert names[|names| - 1] == x.doctorName;
  }

  /** The conditions list: at most three entries, counts non-increasing,
      each a counted diagnosis of the history with its true count, and no
      diagnosis twice. */
  lemma MostCommonIsTopThree(h: seq<MedicalRecord>)
    ensures |MostCommon(h)| == if |CountedDiagnoses(h)| < 3 then |CountedDiagnoses(h)| else 3
    ensures forall i, j :: 0 <= i < j < |MostCommon(h)| ==> MostCommon(h)[i].count >= MostCommon(h)[j].count
    ensures forall i :: 0 <= i < |MostCommon(h)| ==>
      MostCommon(h)[i].diagnosis in CountedDiagnoses(h) &&
      MostCommon(h)[i].count == DiagnosisCount(h, MostCommon(h)[i].diagnosis)
    ensures forall i, j :: 0 <= i < j < |MostCommon(h)| ==> MostCommon(h)[i].diagnosis != MostCommon(h)[j].diagnosis
  {
    RankedSpec(h);
    var ranked := Ranked(h);
    var top := MostCommon(h);
    assert top == ranked[..|top|];
    assert forall i :: 0 <= i < |top| ==> top[i] == ranked[i];
  }

  /** In a list ordered by non-increasing count, a diagnosis that occurs but
      not within the first `n` entries occurs past them, counting no more than
      any entry of the prefix. */
  lemma PrefixDominates(ranked: seq<Entry>, n: int, d: string, i: int) returns (k: int)
    requires forall a, b :: 0 <= a < b < |ranked| ==> ranked[a].count >= ranked[b].count
    requires 0 <= i < n <= |ranked|
    requires exists m :: 0 <= m < |ranked| && ranked[m].diagnosis == d
    requires forall m :: 0 <= m < n ==> ranked[m].diagnosis != d
    ensures n <= k < |ranked| && ranked[k].diagnosis == d
    ensures ranked[i].count >= ranked[k].count
  {
    k :| 0 <= k < |ranked| && ranked[k].diagnosis == d;
  }

  /** No counted diagnosis left off the list is more frequent than one on
      it. */
  lemma MostCommonLeavesOutNoMoreFrequent(h: seq<MedicalRecord>, d: string, i: int)
    ensures d in CountedDiagnoses(h) && 0 <= i < |MostCommon(h)| &&
            (forall k :: 0 <= k < |MostCommon(h)| ==> MostCommon(h)[k].diagnosis != d) ==>
      MostCommon(h)[i].count >= DiagnosisCount(h, d)
  {
    var ranked := Ranked(h);
    var top := MostCommon(h);
    if d in CountedDiagnoses(h) && 0 <= i < |top| && forall k :: 0 <= k < |top| ==> top[k].diagnosis != d {
      RankedSpec(h);
      assert top == ranked[..|top|];
      assert forall m :: 0 <= m < |top| ==> ranked[m] == top[m];
      var k := PrefixDominates(ranked, |top|, d, i);
      assert top[i] == ranked[i];
    }
  }

  /** The preview under each timeline entry: the prescription cut to 100
      characters plus '...', or nothing when there is no prescription. */
  function PrescriptionPreview(r: MedicalRecord): (p: Option<string>)
    ensures p.Some? <==> Text.Truthy(r.prescription)
    ensures p.Some? && |r.prescription.value| <= 100 ==> p.value == r.prescription.value
    ensures p.Some? && |r.prescription.value| > 100 ==>
      |p.value| == 103 && p.value[..100] == r.prescription.value[..100] && p.value[100..] == "..."
  {
    if Text.Truthy(r.prescription) then Some(Text.Preview(r.prescription.value, 100)) else None
  }
}

=== FILE: my_appointments.dfy ===
/** The data logic of `components/doctor/MyAppointments.jsx`: the doctor's
    appointments newest first, the status and date filters, the three
    counter cards, the row actions, and the medical-record form with its
    submit. How a date is rendered (`formatDateOnly`, a locale rendering)
    and today's key (`getTodayDate`, the UTC calendar date) are parameters. */
module MyAppointments {

  import opened Wrappers
  import opened Entities
  import Seqs
  import Helpers
  import Forms

  datatype View = View(appointments: seq<Appointment>, doctor: Option<Doctor>, loading: bool)

  function Initial(): (v: View)
    ensures v.loading && v.doctor.None? && |v.appointments| == 0
  {
    View([], None, true)
  }

  predicate HasUserId(userId: Option<int>) {
    userId.Some? && userId.value != 0
  }

  /** The appointments as `fetchData` stores them: all of them, latest first. */
  function SortNewestFirst(list: seq<Appointment>): (r: seq<Appointment>)
    ensures multiset(r) == multiset(list)
    ensures forall i, j :: 0 <= i < j < |r| ==> r[i].dateTime.instant >= r[j].dateTime.instant
  {
    var r := Seqs.SortBy(list, AppointmentTimeDesc);
    assert forall i, j :: 0 <= i < j < |r| ==> AppointmentTimeDesc(r[i]) <= AppointmentTimeDesc(r[j]);
    r
  }

  /** The mount effect and `fetchData`: nothing is fetched without a truthy
      user id; otherwise loading ends, and the matching doctor's
      appointments are kept, sorted. */
  function Load(userId: Option<int>, doctors: Option<seq<Doctor>>, appointments: Option<seq<Appointment>>): (v: View)
    ensures !HasUserId(userId) ==> v == Initial()
    ensures HasUserId(userId) ==> !v.loading
    ensures v.doctor.Some? ==>
      doctors.Some? && v.doctor.value in doctors.value && v.doctor.value.user.id == userId.value
    ensures HasUserId(userId) && doctors.Some? && (exists d :: d in doctors.value && d.user.id == userId.value) ==>
      v.doctor.Some?
    ensures v.doctor.None? || appointments.None? ==> v.appointments == []
    ensures v.doctor.Some? && appointments.Some? ==>
      && multiset(v.appointments) == multiset(appointments.value)
      && (forall i, j :: 0 <= i < j < |v.appointments| ==>
            v.appointments[i].dateTime.instant >= v.appointments[j].dateTime.instant)
  {
    if !HasUserId(userId) then Initial()
    else if doctors.None? then View([], None, false)
    else
      var found := Seqs.Find(doctors.value, (d: Doctor) => d.user.id == userId.value);
      if found.None? || appointments.None? then View([], found, false)
      else View(SortNewestFirst(appointments.value), found, false)
  }

  /** `formatDateOnly(apt.appointmentDateTime)` under the rendering `render`. */
  function DayKey(render: string -> string, a: Appointment): string {
    Helpers.Formatted(Some(a.dateTime.text), render)
  }

  /** Each step of `applyFilters` as a test; an empty control passes every
      appointment. The status test is exact equality, the date test compares
      the rendered day with the date picker's value. */
  function StatusStep(status: string): Appointment -> bool {
    (x: Appointment) => status == "" || x.status == status
  }

  function DateStep(render: string -> string, date: string): Appointment -> bool {
    x => date == "" || DayKey(render, x) == date
  }

  function StatusFilter(list: seq<Appointment>, status: string): seq<Appointment> {
    if status == "" then list else Seqs.Filter(list, StatusStep(status))
  }

  function DateFilter(list: seq<Appointment>, render: string -> string, date: string): seq<Appointment> {
    if date == "" then list else Seqs.Filter(list, DateStep(render, date))
  }

  /** `applyFilters`. */
  function ApplyFilters(list: seq<Appointment>, status: string, render: string -> string, date: string): seq<Appointment> {
    DateFilter(StatusFilter(list, status), render, date)
  }

  function Keeps(status: string, render: string -> string, date: string): Appointment -> bool {
    x => StatusStep(status)(x) && DateStep(render, date)(x)
  }

  /** The filters only remove appointments and keep the order of the rest:
      the chain is a single filter by the conjunction of the two tests. */
  lemma FiltersAreOneFilter(list: seq<Appointment>, status: string, render: string -> string, date: string)
    ensures ApplyFilters(list, status, render, date) == Seqs.Filter(list, Keeps(status, render, date))
  {
    if status == "" { Seqs.FilterKeepsAll(list, StatusStep(status)); }
    var s := Seqs.Filter(list, StatusStep(status));
    if date == "" { Seqs.FilterKeepsAll(s, DateStep(render, date)); }
    Seqs.FilterFilter(list, StatusStep(status), DateStep(render, date), Keeps(status, render, date));
  }

  /** An appointment is listed exactly when it passes every non-empty
      control. */
  lemma FiltersShow(list: seq<Appointment>, status: string, render: string -> string, date: string, x: Appointment)
    ensures x in ApplyFilters(list, status, render, date) <==>
      x in list && (status == "" || x.status == status) && (date == "" || DayKey(render, x) == date)
  {
    FiltersAreOneFilter(list, status, render, date);
  }

  /** "Clear Filters" empties both controls, which lists everything. */
  lemma ClearedFiltersShowAll(list: seq<Appointment>, render: string -> string)
    ensures ApplyFilters(list, "", render, "") == list
  {
  }

  function HasStatus(status: string): Appointment -> bool {
    (x: Appointment) => x.status == status
  }

  /** A counter card: how many of the appointments have a status. */
  function StatusCount(list: seq<Appointment>, status: string): (n: nat)
    ensures n <= |list|
    ensures n == 0 <==> forall x :: x in list ==> x.status != status
  {
    var r := Seqs.Filter(list, HasStatus(status));
    assert |r| > 0 ==> r[0] in r;
    |r|
  }

  function OnDay(render: string -> string, today: string): Appointment -> bool {
    (x: Appointment) => DayKey(render, x) == today
  }

  /** The "Today" card: appointments whose rendered day is today's key. */
  function TodayCount(list: seq<Appointment>, render: string -> string, today: string): (n: nat)
    ensures n <= |list|
    ensures n == 0 <==> forall x :: x in list ==> DayKey(render, x) != today
  {
    var r := Seqs.Filter(list, OnDay(render, today));
    assert |r| > 0 ==> r[0] in r;
    |r|
  }

  /** A counter card agrees with the list the status filter shows for the
      same status. */
  lemma CountMatchesStatusFilter(list: seq<Appointment>, status: string, render: string -> string)
    requires status != ""
    ensures StatusCount(list, status) == |ApplyFilters(list, status, render, "")|
  {
    Seqs.FilterExt(list, HasStatus(status), StatusStep(status));
  }

  /** The "Today" card agrees with the list the date filter shows for
      today's key. */
  lemma CountMatchesDateFilter(list: seq<Appointment>, render: string -> string, today: string)
    requires today != ""
    ensures TodayCount(list, render, today) == |ApplyFilters(list, "", render, today)|
  {
    Seqs.FilterExt(list, OnDay(render, today), DateStep(render, today));
  }

  /** Counts of two different statuses never add up to more than there are
      appointments. */
  lemma {:induction false} StatusCountsDisjoint(list: seq<Appointment>, s: string, t: string)
    requires s != t
    ensures StatusCount(list, s) + StatusCount(list, t) <= |list|
    decreases |list|
  {
    if |list| > 0 {
      assert list == [list[0]] + list[1..];
      Seqs.FilterAppend([list[0]], list[1..], HasStatus(s));
      Seqs.FilterAppend([list[0]], list[1..], HasStatus(t));
      StatusCountsDisjoint(list[1..], s, t);
    }
  }

  /** The actions cell: 'Add Record' for a scheduled appointment, the
      completed badge for a completed one, nothing otherwise. */
  datatype RowAction = AddRecord | CompletedBadge | NoAction

  function RowActionFor(a: Appointment): (r: RowAction)
    ensures r == AddRecord <==> a.status == "SCHEDULED"
    ensures r == CompletedBadge <==> a.status == "COMPLETED"
  {
    if a.status == "SCHEDULED" then AddRecord
    else if a.status == "COMPLETED" then CompletedBadge
    else NoAction
  }

  /** The fields of the medical-record form. */
  const RecordFields: set<string> := {"diagnosis", "symptoms", "treatment", "prescription", "testResults", "notes"}

  const BlankRecord: Forms.Form := map[
    "diagnosis" := Forms.Str(""), "symptoms" := Forms.Str(""), "treatment" := Forms.Str(""),
    "prescription" := Forms.Str(""), "testResults" := Forms.Str(""), "notes" := Forms.Str("")]

  /** The record modal: the appointment it is for, the form, whether it is
      open. */
  datatype RecordModal = RecordModal(selected: Option<Appointment>, form: Forms.Form, show: bool)

  const ClosedModal: RecordModal := RecordModal(None, BlankRecord, false)

  /** `handleAddMedicalRecord`: the modal opens for `a` with all six fields
      blank, whatever was typed before. */
  function OpenRecordForm(m: RecordModal, a: Appointment): (r: RecordModal)
    ensures r.selected == Some(a) && r.show
    ensures r.form.Keys == RecordFields
    ensures forall k :: k in r.form ==> r.form[k] == Forms.Str("")
  {
    RecordModal(Some(a), BlankRecord, true)
  }

  /** `handleMedicalRecordChange`: only the named field changes. */
  function RecordChange(m: RecordModal, name: string, value: string): (r: RecordModal)
    ensures r.selected == m.selected && r.show == m.show
    ensures name in r.form && r.form[name] == Forms.Str(value)
    ensures forall k :: k != name ==> (k in r.form <==> k in m.form)
    ensures forall k :: k in m.form && k != name ==> r.form[k] == m.form[k]
  {
    m.(form := Forms.SetField(m.form, name, Forms.Str(value)))
  }

  /** The two requests the submit sends, in order. */
  datatype Request = CreateRecord(payload: Forms.Form) | UpdateStatus(appointmentId: int, status: string)

  datatype Submitted = Submitted(modal: RecordModal, sent: seq<Request>, refetch: bool, alert: Option<string>)

  const SavedAlert: string := "Medical record created successfully!"
  const FailedAlert: string := "Error creating medical record. Please try again."

  /** `recordData`: the three links, then the form's fields spread over
      them. */
  function RecordPayload(a: Appointment, d: Doctor, form: Forms.Form): (p: Forms.Form)
    ensures p.Keys == {"patientId", "doctorId", "appointmentId"} + form.Keys
    ensures forall k :: k in form ==> p[k] == form[k]
    ensures "patientId" !in form ==> p["patientId"] == Forms.Num(a.patientId)
    ensures "doctorId" !in form ==> p["doctorId"] == Forms.Num(d.id)
    ensures "appointmentId" !in form ==> p["appointmentId"] == Forms.Num(a.id)
  {
    map["patientId" := Forms.Num(a.patientId), "doctorId" := Forms.Num(d.id), "appointmentId" := Forms.Num(a.id)] + form
  }

  /** `handleMedicalRecordSubmit` against the two backend answers. Without
      a selected appointment or a known doctor nothing is sent. The status
      update is sent only after the record is created; the modal closes and
      the list is fetched again only when both succeed. */
  function SubmitRecord(m: RecordModal, doctor: Option<Doctor>, created: bool, completed: bool): (r: Submitted)
    ensures m.selected.None? || doctor.None? ==> r == Submitted(m, [], false, None)
    ensures m.selected.Some? && doctor.Some? ==>
      && |r.sent| >= 1
      && r.sent[0] == CreateRecord(RecordPayload(m.selected.value, doctor.value, m.form))
      && (|r.sent| == 2 <==> created)
      && (created ==> r.sent[1] == UpdateStatus(m.selected.value.id, "COMPLETED"))
      && (r.refetch <==> created && completed)
      && r.modal == (if created && completed then m.(show := false) else m)
      && r.alert == Some(if created && completed then SavedAlert else FailedAlert)
  {
    if m.selected.None? || doctor.None? then Submitted(m, [], false, None)
    else
      var a := m.selected.value;
      var create := CreateRecord(RecordPayload(a, doctor.value, m.form));
      if !created then Submitted(m, [create], false, Some(FailedAlert))
      else
        var complete := UpdateStatus(a.id, "COMPLETED");
        if !completed then Submitted(m, [create, complete], false, Some(FailedAlert))
        else Submitted(m.(show := false), [create, complete], true, Some(SavedAlert))
  }

  /** Typing into the form: each `(name, value)` event in order. */
  function TypeAll(m: RecordModal, events: seq<(string, string)>): (r: RecordModal)
    requires m.form.Keys == RecordFields
    requires forall i :: 0 <= i < |events| ==> events[i].0 in RecordFields
    ensures r.selected == m.selected && r.show == m.show
    ensures r.form.Keys == RecordFields
    decreases |events|
  {
    if |events| == 0 then m else TypeAll(RecordChange(m, events[0].0, events[0].1), events[1..])
  }

  /** Opening the form on an appointment, typing into its fields and
      submitting creates a record linking that appointment's patient, the
      doctor and the appointment, carrying every typed field as it stands,
      and then completes that appointment. */
  lemma AddRecordLinksAppointment(m: RecordModal, a: Appointment, d: Doctor, events: seq<(string, string)>, completed: bool)
    requires forall i :: 0 <= i < |events| ==> events[i].0 in RecordFields
    ensures var typed := TypeAll(OpenRecordForm(m, a), events);
      var r := SubmitRecord(typed, Some(d), true, completed);
      && r.sent[0].payload["patientId"] == Forms.Num(a.patientId)
      && r.sent[0].payload["doctorId"] == Forms.Num(d.id)
      && r.sent[0].payload["appointmentId"] == Forms.Num(a.id)
      && (forall k :: k in RecordFields ==> r.sent[0].payload[k] == typed.form[k])
      && r.sent[1] == UpdateStatus(a.id, "COMPLETED")
  {
    var typed := TypeAll(OpenRecordForm(m, a), events);
    SubmitLinksRecord(typed, a, d, completed);
  }

  /** Submitting a record form for `a` that holds exactly the six fields. */
  lemma SubmitLinksRecord(t: RecordModal, a: Appointment, d: Doctor, completed: bool)
    requires t.selected == Some(a) && t.form.Keys == RecordFields
    ensures var r := SubmitRecord(t, Some(d), true, completed);
      && r.sent[0].payload["patientId"] == Forms.Num(a.patientId)
      && r.sent[0].payload["doctorId"] == Forms.Num(d.id)
      && r.sent[0].payload["appointmentId"] == Forms.Num(a.id)
      && (forall k :: k in RecordFields ==> r.sent[0].payload[k] == t.form[k])
      && r.sent[1] == UpdateStatus(a.id, "COMPLETED")
  {
    assert "patientId" !in t.form && "doctorId" !in t.form && "appointmentId" !in t.form;
  }
}

=== FILE: patient_dashboard.dfy ===
/** The data logic of `components/patient/PatientDashboard.jsx`: finding the
    signed-in patient, splitting their appointments into upcoming and recent,
    the caps on what is shown, and the age card. The current instant and
    today's date are parameters; the three backend lists are parameters too,
    `None` standing for a request that failed. */
module PatientDashboard {

  import opened Wrappers
  import opened Entities
  import Seqs
  import Age

  datatype Data = Data(upcoming: seq<Appointment>, recent: seq<Appointment>, history: seq<MedicalRecord>)

  datatype View = View(data: Data, patient: Option<Patient>, loading: bool)

  const NoData: Data := Data([], [], [])

  const UpcomingCap: nat := 5
  const RecentCap: nat := 5
  const HistoryCap: nat := 3

  /** The component as it mounts: empty lists, no patient, loading. */
  function Initial(): (v: View)
    ensures v.loading && v.patient.None?
    ensures |v.data.upcoming| == 0 && |v.data.recent| == 0 && |v.data.history| == 0
  {
    View(NoData, None, true)
  }

  /** The patient whose account is the signed-in user. */
  function FindPatient(patients: seq<Patient>, userId: int): (r: Option<Patient>)
    ensures r.Some? ==> r.value in patients && r.value.user.id == userId
    ensures r.None? <==> forall p :: p in patients ==> p.user.id != userId
  {
    Seqs.Find(patients, (p: Patient) => p.user.id == userId)
  }

  predicate IsUpcoming(now: int, a: Appointment) {
    a.dateTime.instant > now && a.status == "SCHEDULED"
  }

  predicate IsRecent(now: int, a: Appointment) {
    a.dateTime.instant <= now || a.status == "COMPLETED"
  }

  /** Future scheduled appointments, soonest first. */
  function Upcoming(appointments: seq<Appointment>, now: int): (r: seq<Appointment>)
    ensures forall a :: a in r <==> a in appointments && IsUpcoming(now, a)
    ensures Seqs.SortedBy(r, AppointmentTime)
    ensures multiset(r) == multiset(Seqs.Filter(appointments, a => IsUpcoming(now, a)))
  {
    Seqs.SortByMembers(Seqs.Filter(appointments, a => IsUpcoming(now, a)), AppointmentTime);
    Seqs.SortBy(Seqs.Filter(appointments, a => IsUpcoming(now, a)), AppointmentTime)
  }

  /** Past or completed appointments, latest first. */
  function Recent(appointments: seq<Appointment>, now: int): (r: seq<Appointment>)
    ensures forall a :: a in r <==> a in appointments && IsRecent(now, a)
    ensures Seqs.SortedBy(r, AppointmentTimeDesc)
    ensures multiset(r) == multiset(Seqs.Filter(appointments, a => IsRecent(now, a)))
  {
    Seqs.SortByMembers(Seqs.Filter(appointments, a => IsRecent(now, a)), AppointmentTimeDesc);
    Seqs.SortBy(Seqs.Filter(appointments, a => IsRecent(now, a)), AppointmentTimeDesc)
  }

  /** `user?.userId` is truthy: present and not zero. */
  predicate HasUserId(userId: Option<int>) {
    userId.Some? && userId.value != 0
  }

  /** The mount effect and `fetchDashboardData`. Without a truthy user id
      nothing is fetched and the spinner stays. Otherwise loading ends
      whatever happens; the lists are filled only when a patient matches and
      both of its requests answer. */
  function Load(userId: Option<int>, now: int, patients: Option<seq<Patient>>,
                appointments: Option<seq<Appointment>>, history: Option<seq<MedicalRecord>>): (v: View)
    ensures !HasUserId(userId) ==> v == Initial()
    ensures HasUserId(userId) ==> !v.loading
    ensures HasUserId(userId) && patients.Some? ==> v.patient == FindPatient(patients.value, userId.value)
    ensures v.patient.None? || appointments.None? || history.None? ==> v.data == NoData
    ensures v.patient.Some? && appointments.Some? && history.Some? ==>
      v.data == Data(Seqs.Take(Upcoming(appointments.value, now), UpcomingCap),
                     Seqs.Take(Recent(appointments.value, now), RecentCap),
                     Seqs.Take(history.value, HistoryCap))
  {
    if !HasUserId(userId) then Initial()
    else if patients.None? then View(NoData, None, false)
    else
      var found := FindPatient(patients.value, userId.value);
      if found.None? || appointments.None? || history.None? then View(NoData, found, false)
      else
        View(Data(Seqs.Take(Upcoming(appointments.value, now), UpcomingCap),
                  Seqs.Take(Recent(appointments.value, now), RecentCap),
                  Seqs.Take(history.value, HistoryCap)), found, false)
  }

  /** The age card: `calculateAge(patientInfo?.dateOfBirth)`, the number of
      completed years. */
  function AgeShown(v: View, today: Date): (r: Age.Age)
    ensures r.NotAvailable? <==>
      v.patient.None? || v.patient.value.dateOfBirth.None? || v.patient.value.dateOfBirth.value.text == ""
    ensures r.Years? ==>
      Age.AnniversaryReached(v.patient.value.dateOfBirth.value.date, r.years, today) &&
      !Age.AnniversaryReached(v.patient.value.dateOfBirth.value.date, r.years + 1, today)
    ensures v.patient.Some? ==> r == Age.CalculateAge(v.patient.value.dateOfBirth, today)
  {
    Age.CalculateAge(if v.patient.Some? then v.patient.value.dateOfBirth else None, today)
  }

  /** No appointment is both upcoming and recent, and the only ones in
      neither list are future appointments that are neither scheduled nor
      completed. */
  lemma UpcomingRecentPartition(appointments: seq<Appointment>, now: int, a: Appointment)
    requires a in appointments
    ensures !(a in Upcoming(appointments, now) && a in Recent(appointments, now))
    ensures a !in Upcoming(appointments, now) && a !in Recent(appointments, now) <==>
      a.dateTime.instant > now && a.status != "SCHEDULED" && a.status != "COMPLETED"
  {
  }

  /** The shown lists respect their caps and show only what the full lists
      hold, in the same order. */
  lemma ShownListsCapped(userId: Option<int>, now: int, patients: Option<seq<Patient>>,
                         appointments: Option<seq<Appointment>>, history: Option<seq<MedicalRecord>>)
    ensures var v := Load(userId, now, patients, appointments, history);
      |v.data.upcoming| <= UpcomingCap && |v.data.recent| <= RecentCap && |v.data.history| <= HistoryCap
    ensures var v := Load(userId, now, patients, appointments, history);
      v.data != NoData ==>
        && v.data.upcoming == Upcoming(appointments.value, now)[..|v.data.upcoming|]
        && v.data.recent == Recent(appointments.value, now)[..|v.data.recent|]
        && v.data.history == history.value[..|v.data.history|]
  {
  }

  /** The five upcoming appointments shown are the soonest ones: any upcoming
      appointment left out is no earlier than every one shown. */
  lemma ShownUpcomingAreSoonest(appointments: seq<Appointment>, now: int, i: int, j: int)
    requires 0 <= i < |Seqs.Take(Upcoming(appointments, now), UpcomingCap)| <= j < |Upcoming(appointments, now)|
    ensures Upcoming(appointments, now)[i].dateTime.instant <= Upcoming(appointments, now)[j].dateTime.instant
  {
  }

  /** When no patient's account matches the user, the lists stay empty. */
  lemma NoMatchingPatientKeepsEmpty(userId: int, now: int, patients: seq<Patient>,
                                    appointments: Option<seq<Appointment>>, history: Option<seq<MedicalRecord>>)
    requires userId != 0 && forall p :: p in patients ==> p.user.id != userId
    ensures Load(Some(userId), now, Some(patients), appointments, history) == View(NoData, None, false)
  {
  }
}

=== FILE: patient_management.dfy ===
/** The administrator's patient screen, `components/admin/PatientManagement.jsx`:
    the nested form, its change handler, the edit and reset forms with their
    defaults, the password field shown only when creating, the
    create-or-update submit, and the age column. */
module PatientManagement {

  import opened Wrappers
  import opened Entities
  import Text
  import Forms
  import AccountForm
  import Age
  import Constants
  import DoctorManagement

  const Fields: set<string> := {"user", "dateOfBirth", "gender", "address", "emergencyContact", "bloodGroup",
                                "allergies", "medicalHistory"}

  const DefaultGender: string := "Male"
  const DefaultBloodGroup: string := "A+"

  /** The form `resetForm` restores: a blank active patient account, a blank
      profile except the two drop-downs' defaults. */
  const Defaults: Forms.Form := map[
    "user" := Forms.Obj(AccountForm.Blank("PATIENT")),
    "dateOfBirth" := Forms.Str(""), "gender" := Forms.Str(DefaultGender), "address" := Forms.Str(""),
    "emergencyContact" := Forms.Str(""), "bloodGroup" := Forms.Str(DefaultBloodGroup),
    "allergies" := Forms.Str(""), "medicalHistory" := Forms.Str("")]

  /** `x || fallback` for an optional text field. */
  function OrDefault(s: Option<string>, fallback: string): (r: string)
    ensures Text.Truthy(s) ==> r == s.value
    ensures !Text.Truthy(s) ==> r == fallback
  {
    if Text.Truthy(s) then s.value else fallback
  }

  /** `patient.dateOfBirth || ''`: the date as the backend sent it. */
  function BirthDateText(d: Option<Stamp>): (r: string)
    ensures d.Some? ==> r == d.value.text
    ensures d.None? ==> r == ""
  {
    if d.Some? then d.value.text else ""
  }

  /** The form `handleEdit` loads for a patient. */
  function EditForm(p: Patient): (f: Forms.Form)
    ensures f.Keys == Fields && Forms.HasUser(f)
    ensures f["user"] == Forms.Obj(AccountForm.Edit(p.user, "PATIENT"))
    ensures f["dateOfBirth"] == Forms.Str(BirthDateText(p.dateOfBirth))
    ensures f["gender"] == Forms.Str(OrDefault(p.gender, DefaultGender))
    ensures f["bloodGroup"] == Forms.Str(OrDefault(p.bloodGroup, DefaultBloodGroup))
    ensures f["address"] == Forms.Str(Text.OrEmpty(p.address))
    ensures f["emergencyContact"] == Forms.Str(Text.OrEmpty(p.emergencyContact))
    ensures f["allergies"] == Forms.Str(Text.OrEmpty(p.allergies))
    ensures f["medicalHistory"] == Forms.Str(Text.OrEmpty(p.medicalHistory))
  {
    map[
      "user" := Forms.Obj(AccountForm.Edit(p.user, "PATIENT")),
      "dateOfBirth" := Forms.Str(BirthDateText(p.dateOfBirth)),
      "gender" := Forms.Str(OrDefault(p.gender, DefaultGender)),
      "address" := Forms.Str(Text.OrEmpty(p.address)),
      "emergencyContact" := Forms.Str(Text.OrEmpty(p.emergencyContact)),
      "bloodGroup" := Forms.Str(OrDefault(p.bloodGroup, DefaultBloodGroup)),
      "allergies" := Forms.Str(Text.OrEmpty(p.allergies)),
      "medicalHistory" := Forms.Str(Text.OrEmpty(p.medicalHistory))]
  }

  /** `handleEdit`. */
  function HandleEdit(s: Forms.Screen, p: Patient): (r: Forms.Screen)
    ensures r.editing == Some(p.id) && r.showModal && r.form == EditForm(p)
  {
    Forms.StartEdit(s, p.id, EditForm(p))
  }

  /** `openAddModal`. */
  function OpenAdd(s: Forms.Screen): (r: Forms.Screen)
    ensures r.editing.None? && r.showModal && r.form == Defaults
  {
    Forms.OpenAdd(s, Defaults)
  }

  /** The username input is disabled while editing, so it raises no change
      event then. */
  predicate Enabled(s: Forms.Screen, name: string) {
    !(name == "user.username" && s.editing.Some?)
  }

  /** `handleInputChange`: `checked` is stored for a checkbox only inside
      `user`; a top-level field always takes the value; a disabled input
      changes nothing. */
  function HandleChange(s: Forms.Screen, e: Forms.Input): (r: Forms.Screen)
    requires Forms.HasUser(s.form)
    ensures !Enabled(s, e.name) ==> r == s
    ensures Enabled(s, e.name) ==>
      r.editing == s.editing && r.showModal == s.showModal && r.form == Forms.NestedChange(s.form, e, false)
  {
    if Enabled(s, e.name) then s.(form := Forms.NestedChange(s.form, e, false)) else s
  }

  /** A sequence of change events, in order. The modal has no input named
      plain `user`, so the nested account survives every event. */
  function ApplyAll(s: Forms.Screen, events: seq<Forms.Input>): (r: Forms.Screen)
    requires Forms.HasUser(s.form)
    requires forall i :: 0 <= i < |events| ==> events[i].name != "user"
    ensures r.editing == s.editing && r.showModal == s.showModal
    ensures Forms.HasUser(r.form)
    decreases |events|
  {
    if |events| == 0 then s else ApplyAll(HandleChange(s, events[0]), events[1..])
  }

  /** No sequence of change events alters the username while editing. */
  lemma {:induction false} EditingKeepsUsername(s: Forms.Screen, events: seq<Forms.Input>)
    requires Forms.HasUser(s.form) && s.editing.Some? && "username" in s.form["user"].fields
    requires forall i :: 0 <= i < |events| ==> events[i].name != "user"
    ensures "username" in ApplyAll(s, events).form["user"].fields
    ensures ApplyAll(s, events).form["user"].fields["username"] == s.form["user"].fields["username"]
    decreases |events|
  {
    if |events| > 0 {
      var e := events[0];
      var next := HandleChange(s, e);
      EditingKeepsUsername(next, events[1..]);
    }
  }

  /** So an update after editing carries the patient's own username. */
  lemma EditKeepsUsername(s: Forms.Screen, p: Patient, events: seq<Forms.Input>)
    requires forall i :: 0 <= i < |events| ==> events[i].name != "user"
    ensures var payload := Submit(ApplyAll(HandleEdit(s, p), events), true).0.payload;
      Forms.HasUser(payload) && "username" in payload["user"].fields &&
      payload["user"].fields["username"] == Forms.Str(p.user.username)
  {
    var edited := HandleEdit(s, p);
    assert Forms.HasUser(edited.form) && edited.form["user"] == Forms.Obj(AccountForm.Edit(p.user, "PATIENT"));
    EditingKeepsUsername(edited, events);
  }

  /** `handleSubmit` against the backend's answer: the request it sends and
      the screen after it. */
  function Submit(s: Forms.Screen, succeeded: bool): (r: (Forms.SaveRequest, Forms.Screen))
    ensures r.0.Update? <==> s.editing.Some?
    ensures r.0.Update? ==> r.0.id == s.editing.value
    ensures r.0.payload == s.form
    ensures succeeded ==> r.1 == Forms.Screen(Defaults, None, false)
    ensures !succeeded ==> r.1 == s
  {
    (Forms.SaveRequestOf(s), Forms.AfterSave(s, succeeded, Defaults))
  }

  /** The password input exists only in the add form. */
  predicate PasswordShown(s: Forms.Screen) {
    s.editing.None?
  }

  /** The age column: `calculateAge(patient.dateOfBirth)` on today's date. */
  function AgeShown(p: Patient, today: Date): (r: Age.Age)
    ensures r.NotAvailable? <==> p.dateOfBirth.None? || p.dateOfBirth.value.text == ""
    ensures r.Years? ==>
      Age.AnniversaryReached(p.dateOfBirth.value.date, r.years, today) &&
      !Age.AnniversaryReached(p.dateOfBirth.value.date, r.years + 1, today)
  {
    Age.CalculateAge(p.dateOfBirth, today)
  }

  /** The drop-downs always hold a choice: a new form and an edited patient
      without those fields get the defaults, and the default blood group is
      one of the options. */
  lemma DropDownsNeverBlank(s: Forms.Screen, p: Patient)
    ensures Defaults["gender"] == Forms.Str(DefaultGender) && Defaults["bloodGroup"] == Forms.Str(DefaultBloodGroup)
    ensures EditForm(p)["gender"] != Forms.Str("") && EditForm(p)["bloodGroup"] != Forms.Str("")
    ensures DefaultBloodGroup in Constants.BloodGroups
  {
    Constants.BloodGroupsWellFormed();
  }

  /** The password is offered when adding and hidden when editing, so an
      edit sends the blank password the edit form holds. */
  lemma PasswordOnlyWhenAdding(s: Forms.Screen, p: Patient)
    ensures PasswordShown(OpenAdd(s))
    ensures !PasswordShown(HandleEdit(s, p))
    ensures Submit(HandleEdit(s, p), true).0.payload["user"].fields["password"] == Forms.Str("")
  {
  }

  /** The two nested screens differ on a top-level checkbox: this one
      stores the input's value, the doctor screen its `checked` flag. */
  lemma TopLevelCheckboxDiffers(s: Forms.Screen, e: Forms.Input)
    requires Forms.HasUser(s.form) && e.checkbox && !Forms.StartsWith(e.name, Forms.UserPrefix)
    ensures HandleChange(s, e).form[e.name] == Forms.Str(e.value)
    ensures DoctorManagement.HandleChange(s, e).form[e.name] == Forms.Bool(e.checked)
  {
  }
}

=== FILE: patient_records.dfy ===
/** The data logic of `components/doctor/PatientRecords.jsx`: the doctor's
    records sorted newest first, the patients those records mention, the
    search and patient filters, the three statistics cards, and the table's
    diagnosis and treatment cells. Today's date is a parameter; the backend
    lists are parameters too, `None` standing for a request that failed. */
module PatientRecords {

  import opened Wrappers
  import opened Entities
  import Seqs
  import Text
  import MedicalHistory

  datatype View = View(records: seq<MedicalRecord>, patients: seq<Patient>, doctor: Option<Doctor>, loading: bool)

  /** The screen as it mounts: nothing loaded, spinner on. */
  function Initial(): (v: View)
    ensures v.loading && v.doctor.None? && |v.records| == 0 && |v.patients| == 0
  {
    View([], [], None, true)
  }

  predicate HasUserId(userId: Option<int>) {
    userId.Some? && userId.value != 0
  }

  /** The patients of the full list whose id occurs among the records. */
  function RelevantPatients(all: seq<Patient>, records: seq<MedicalRecord>): (r: seq<Patient>)
    ensures |r| <= |all|
    ensures forall p :: p in r <==> p in all && exists i :: 0 <= i < |records| && records[i].patientId == p.id
  {
    var ids := Seqs.KeySet(records, RecordPatientId);
    Seqs.Filter(all, (p: Patient) => p.id in ids)
  }

  /** The mount effect and `fetchData`. Without a truthy user id nothing is
      fetched and the spinner stays; otherwise loading ends whatever
      happens. The records are kept once the doctor is found and they
      arrive; the patient list fails on its own, after the records are
      stored. */
  function Load(userId: Option<int>, doctors: Option<seq<Doctor>>, records: Option<seq<MedicalRecord>>,
                allPatients: Option<seq<Patient>>): (v: View)
    ensures !HasUserId(userId) ==> v == Initial()
    ensures HasUserId(userId) ==> !v.loading
    ensures v.doctor.Some? ==>
      doctors.Some? && v.doctor.value in doctors.value && v.doctor.value.user.id == userId.value
    ensures HasUserId(userId) && doctors.Some? && (exists d :: d in doctors.value && d.user.id == userId.value) ==>
      v.doctor.Some?
    ensures v.doctor.None? || records.None? ==> v.records == [] && v.patients == []
    ensures v.doctor.Some? && records.Some? ==>
      && multiset(v.records) == multiset(records.value)
      && (forall i, j :: 0 <= i < j < |v.records| ==> v.records[i].visitDate.instant >= v.records[j].visitDate.instant)
    ensures allPatients.None? ==> v.patients == []
    ensures v.doctor.Some? && records.Some? && allPatients.Some? ==>
      v.patients == RelevantPatients(allPatients.value, records.value)
  {
    if !HasUserId(userId) then Initial()
    else if doctors.None? then View([], [], None, false)
    else
      var found := Seqs.Find(doctors.value, (d: Doctor) => d.user.id == userId.value);
      if found.None? || records.None? then View([], [], found, false)
      else
        var sorted := MedicalHistory.SortNewestFirst(records.value);
        if allPatients.None? then View(sorted, [], found, false)
        else View(sorted, RelevantPatients(allPatients.value, records.value), found, false)
  }

  /** The search box: the patient's name or the diagnosis, case-insensitively. */
  predicate MatchesSearch(term: string, r: MedicalRecord) {
    Text.IncludesIgnoringCase(r.patientName, term) || Text.IncludesIgnoringCase(r.diagnosis, term)
  }

  /** The patient drop-down's selection is the option's value, the patient
      id written in decimal; a record matches when its own patient id is
      written the same way. */
  predicate MatchesPatient(selected: string, r: MedicalRecord) {
    Text.IntToString(r.patientId) == selected
  }

  /** Each step of `applyFilters` as a test; an empty control passes every
      record. */
  function SearchStep(term: string): MedicalRecord -> bool {
    x => term == "" || MatchesSearch(term, x)
  }

  function PatientStep(selected: string): MedicalRecord -> bool {
    x => selected == "" || MatchesPatient(selected, x)
  }

  function SearchFilter(rs: seq<MedicalRecord>, term: string): seq<MedicalRecord> {
    if term == "" then rs else Seqs.Filter(rs, SearchStep(term))
  }

  function PatientFilter(rs: seq<MedicalRecord>, selected: string): seq<MedicalRecord> {
    if selected == "" then rs else Seqs.Filter(rs, PatientStep(selected))
  }

  /** `applyFilters`. */
  function ApplyFilters(rs: seq<MedicalRecord>, term: string, selected: string): seq<MedicalRecord> {
    PatientFilter(SearchFilter(rs, term), selected)
  }

  /** What the two steps keep together. */
  function Keeps(term: string, selected: string): MedicalRecord -> bool {
    x => SearchStep(term)(x) && PatientStep(selected)(x)
  }

  /** The filters only remove records and keep the order of the rest: the
      chain is a single filter by the conjunction of the two tests. */
  lemma FiltersAreOneFilter(rs: seq<MedicalRecord>, term: string, selected: string)
    ensures ApplyFilters(rs, term, selected) == Seqs.Filter(rs, Keeps(term, selected))
  {
    if term == "" { Seqs.FilterKeepsAll(rs, SearchStep(term)); }
    var s := Seqs.Filter(rs, SearchStep(term));
    if selected == "" { Seqs.FilterKeepsAll(s, PatientStep(selected)); }
    Seqs.FilterFilter(rs, SearchStep(term), PatientStep(selected), Keeps(term, selected));
  }

  /** A record is listed exactly when it passes every non-empty control. */
  lemma FiltersShow(rs: seq<MedicalRecord>, term: string, selected: string, x: MedicalRecord)
    ensures x in ApplyFilters(rs, term, selected) <==>
      x in rs && (term == "" || MatchesSearch(term, x)) && (selected == "" || MatchesPatient(selected, x))
  {
    FiltersAreOneFilter(rs, term, selected);
  }

  /** "Clear Filters" empties both controls, which lists every record. */
  lemma ClearedFiltersShowAll(rs: seq<MedicalRecord>)
    ensures ApplyFilters(rs, "", "") == rs
  {
  }

  /** Choosing a patient in the drop-down lists exactly that patient's
      records: the decimal text of an id names no other id. */
  lemma SelectingPatientShowsTheirRecords(rs: seq<MedicalRecord>, p: Patient, x: MedicalRecord)
    ensures x in ApplyFilters(rs, "", Text.IntToString(p.id)) <==> x in rs && x.patientId == p.id
  {
    FiltersShow(rs, "", Text.IntToString(p.id), x);
    Text.IntToStringInjective(x.patientId, p.id);
  }

  /** Every patient a listed record belongs to is offered by the drop-down,
      when the patient list has them. */
  lemma RecordPatientsAreOffered(all: seq<Patient>, records: seq<MedicalRecord>, i: int, p: Patient)
    requires 0 <= i < |records| && p in all && p.id == records[i].patientId
    ensures p in RelevantPatients(all, records)
  {
  }

  datatype Stats = Stats(totalPatients: nat, totalRecords: nat, thisMonth: nat)

  /** `getPatientStats`, with today's date as a parameter. */
  function PatientStats(rs: seq<MedicalRecord>, today: Date): (s: Stats)
    ensures s.totalRecords == |rs|
    ensures s.totalPatients <= s.totalRecords && s.thisMonth <= s.totalRecords
    ensures s.totalPatients == 0 <==> |rs| == 0
    ensures s.thisMonth == 0 <==> forall x :: x in rs ==> !MedicalHistory.InMonth(today, x)
  {
    var month := Seqs.Filter(rs, (x: MedicalRecord) => MedicalHistory.InMonth(today, x));
    assert |month| > 0 ==> month[0] in month;
    assert |rs| > 0 ==> RecordPatientId(rs[0]) in Seqs.KeySet(rs, RecordPatientId);
    Stats(|Seqs.KeySet(rs, RecordPatientId)|, |rs|, |month|)
  }

  /** The statistics grow one record at a time: one more record, one more
      patient exactly when the record's patient is new, and one more for
      this month exactly when the visit falls in it. */
  lemma StatsGrow(rs: seq<MedicalRecord>, x: MedicalRecord, today: Date)
    ensures PatientStats(rs + [x], today).totalRecords == PatientStats(rs, today).totalRecords + 1
    ensures PatientStats(rs + [x], today).totalPatients ==
      if x.patientId in Seqs.KeySet(rs, RecordPatientId) then PatientStats(rs, today).totalPatients
      else PatientStats(rs, today).totalPatients + 1
    ensures PatientStats(rs + [x], today).thisMonth ==
      PatientStats(rs, today).thisMonth + (if MedicalHistory.InMonth(today, x) then 1 else 0)
  {
    Seqs.FilterAppend(rs, [x], (y: MedicalRecord) => MedicalHistory.InMonth(today, y));
    Seqs.KeySetAppend(rs, [x], RecordPatientId);
    assert Seqs.KeySet([x], RecordPatientId) == {x.patientId};
  }

  /** The diagnosis cell: the diagnosis, or 'N/A' when it is empty. */
  function DiagnosisShown(r: MedicalRecord): (s: string)
    ensures s != ""
    ensures r.diagnosis != "" ==> s == r.diagnosis
    ensures r.diagnosis == "" ==> s == "N/A"
  {
    if r.diagnosis != "" then r.diagnosis else "N/A"
  }

  /** The treatment cell: the treatment cut to 50 characters plus '...', or
      'N/A' when there is none. */
  function TreatmentShown(r: MedicalRecord): (s: string)
    ensures !Text.Truthy(r.treatment) ==> s == "N/A"
    ensures Text.Truthy(r.treatment) && |r.treatment.value| <= 50 ==> s == r.treatment.value
    ensures Text.Truthy(r.treatment) && |r.treatment.value| > 50 ==>
      |s| == 53 && s[..50] == r.treatment.value[..50] && s[50..] == "..."
  {
    if Text.Truthy(r.treatment) then Text.Preview(r.treatment.value, 50) else "N/A"
  }
}

=== FILE: routing.dfy ===
/** `components/auth/ProtectedRoute.jsx` and the route table of `App.js`. */
module Routing {

  import opened Wrappers
  import opened Constants
  import Session

  /** What `ProtectedRoute` returns: the `Loading` placeholder, a `Navigate`,
      or its children. */
  datatype Outcome = ShowLoading | Redirect(to: string) | Render

  const LoginPath: string := "/login"

  function DashboardPath(r: Role): string {
    match r
    case Admin => "/admin/dashboard"
    case Doctor => "/doctor/dashboard"
    case Patient => "/patient/dashboard"
  }

  /** The `switch (user.role)` of a role mismatch: the role's own dashboard,
      or the login page for a role that is none of the three. */
  function MismatchTarget(role: string): (r: string)
    ensures ParseRole(role).None? ==> r == LoginPath
    ensures ParseRole(role).Some? ==> r == DashboardPath(ParseRole(role).value)
  {
    match ParseRole(role)
    case Some(known) => DashboardPath(known)
    case None => LoginPath
  }

  /** `allowedRoles` is empty (the default) or names the role. */
  predicate Admits(allowedRoles: seq<string>, role: string) {
    |allowedRoles| == 0 || role in allowedRoles
  }

  /** `ProtectedRoute({ allowedRoles })` with the session's `user` and
      `loading`. */
  function Guard(loading: bool, user: Option<Session.Identity>, allowedRoles: seq<string>): (r: Outcome)
    ensures loading ==> r == ShowLoading
    ensures !loading && user.None? ==> r == Redirect(LoginPath)
    ensures r == Render <==> !loading && user.Some? && Admits(allowedRoles, user.value.role)
    ensures !loading && user.Some? && !Admits(allowedRoles, user.value.role) ==>
      r == Redirect(MismatchTarget(user.value.role))
  {
    if loading then ShowLoading
    else if user.None? then Redirect(LoginPath)
    else if |allowedRoles| > 0 && user.value.role !in allowedRoles then
      Redirect(MismatchTarget(user.value.role))
    else Render
  }

  /** What a route's element is: an unguarded page, a `Navigate`, or a page
      wrapped in `ProtectedRoute`. */
  datatype Element = Public | RedirectTo(target: string) | Protected(allowedRoles: seq<string>)

  datatype Route = Route(path: string, element: Element)

  const AdminOnly: seq<string> := ["ADMIN"]
  const DoctorOrAdmin: seq<string> := ["DOCTOR", "ADMIN"]
  const PatientOrAdmin: seq<string> := ["PATIENT", "ADMIN"]

  /** The `<Routes>` of `App`, keyed by path (the router matches on the path,
      not on the order of declaration, and no path is declared twice). */
  const Routes: map<string, Element> := map[
    "/login" := Public,
    "/" := RedirectTo("/login"),
    "/admin/dashboard" := Protected(AdminOnly),
    "/admin/users" := Protected(AdminOnly),
    "/admin/patients" := Protected(AdminOnly),
    "/admin/doctors" := Protected(AdminOnly),
    "/admin/appointments" := Protected(AdminOnly),
    "/doctor/dashboard" := Protected(DoctorOrAdmin),
    "/doctor/appointments" := Protected(DoctorOrAdmin),
    "/doctor/patients" := Protected(DoctorOrAdmin),
    "/patient/dashboard" := Protected(PatientOrAdmin),
    "/patient/book-appointment" := Protected(PatientOrAdmin),
    "/patient/medical-history" := Protected(PatientOrAdmin)
  ]

  /** The paths the table declares, one by one. */
  lemma DeclaredPaths(path: string)
    requires path in Routes
    ensures path == "/login" || path == "/" || path == "/admin/dashboard" || path == "/admin/users" ||
      path == "/admin/patients" || path == "/admin/doctors" || path == "/admin/appointments" ||
      path == "/doctor/dashboard" || path == "/doctor/appointments" || path == "/doctor/patients" ||
      path == "/patient/dashboard" || path == "/patient/book-appointment" || path == "/patient/medical-history"
  {
  }

  /** The element the router picks for a location. */
  function Lookup(path: string): Option<Element> {
    if path in Routes then Some(Routes[path]) else None
  }

  predicate StartsWith(s: string, prefix: string) {
    |prefix| <= |s| && s[..|prefix|] == prefix
  }

  /** The guard of each route: '/login' is open and '/' forwards to it; the
      '/admin/' pages take ADMIN only; the '/doctor/' and '/patient/' pages
      take their own role or ADMIN; no guarded route has an empty list. */
  lemma RouteTable(path: string)
    requires path in Routes
    ensures path == "/login" <==> Routes[path] == Public
    ensures path == "/" <==> Routes[path] == RedirectTo(LoginPath)
    ensures StartsWith(path, "/admin/") <==> Routes[path] == Protected(AdminOnly)
    ensures StartsWith(path, "/doctor/") <==> Routes[path] == Protected(DoctorOrAdmin)
    ensures StartsWith(path, "/patient/") <==> Routes[path] == Protected(PatientOrAdmin)
  {
    // The three prefixes already differ in their second character.
    if StartsWith(path, "/admin/") {
      assert path[1] == path[..7][1] == 'a';
    }
    if StartsWith(path, "/doctor/") {
      assert path[1] == path[..8][1] == 'd';
    }
    if StartsWith(path, "/patient/") {
      assert path[1] == path[..9][1] == 'p';
    }
  }

  /** Every guarded route has a non-empty role list containing ADMIN, so an
      administrator is rendered every page once loading is over. */
  lemma AdminAdmittedEverywhere(path: string, admin: Session.Identity)
    requires admin.role == "ADMIN"
    requires path in Routes && Routes[path].Protected?
    ensures |Routes[path].allowedRoles| > 0
    ensures Guard(false, Some(admin), Routes[path].allowedRoles) == Render
  {
  }

  /** What a navigation finally shows, following at most `hops` redirects. */
  datatype View = Spinner | Page(path: string) | NotFound | Redirecting(to: string)

  function Visit(loading: bool, user: Option<Session.Identity>, path: string, hops: nat): View
    decreases hops
  {
    match Lookup(path)
    case None => NotFound
    case Some(Public) => Page(path)
    case Some(RedirectTo(target)) =>
      if hops == 0 then Redirecting(target) else Visit(loading, user, target, hops - 1)
    case Some(Protected(roles)) =>
      match Guard(loading, user, roles)
      case ShowLoading => Spinner
      case Render => Page(path)
      case Redirect(target) =>
        if hops == 0 then Redirecting(target) else Visit(loading, user, target, hops - 1)
  }

  /** Each role's dashboard admits that role. */
  lemma DashboardAdmitsRole(r: Role)
    ensures DashboardPath(r) in Routes && Routes[DashboardPath(r)].Protected?
    ensures Admits(Routes[DashboardPath(r)].allowedRoles, RoleName(r))
  {
  }

  /** No redirect loop: every navigation settles after at most one redirect,
      on a page that the session may see (an open page, or a guarded page
      whose roles admit the user). */
  lemma NoRedirectLoop(loading: bool, user: Option<Session.Identity>, path: string)
    ensures !Visit(loading, user, path, 1).Redirecting?
    ensures Visit(loading, user, path, 1).Page? ==>
      var p := Visit(loading, user, path, 1).path;
      p in Routes &&
      (Routes[p].Public? ||
       (Routes[p].Protected? && user.Some? && Admits(Routes[p].allowedRoles, user.value.role)))
  {
    if user.Some? && ParseRole(user.value.role).Some? {
      DashboardAdmitsRole(ParseRole(user.value.role).value);
    }
  }

  /** A role outside the three is never shown a page other than the login
      page: every guarded route lists roles, so the mismatch branch sends it
      to '/login', and '/' forwards there too. */
  lemma UnknownRoleSeesOnlyLogin(user: Session.Identity)
    requires ParseRole(user.role).None?
    ensures forall path | path in Routes :: Visit(false, Some(user), path, 1) == Page(LoginPath)
  {
  }

  /** A patient opening '/admin/users' lands on the patient dashboard. */
  lemma PatientToAdminUsers(user: Session.Identity, path: string)
    requires user.role == "PATIENT" && path == "/admin/users"
    ensures Visit(false, Some(user), path, 1) == Page("/patient/dashboard")
  {
  }
}

=== FILE: seqs.dfy ===
/** The array operations the views compose: `filter`, `filter(...).length`,
    `slice(0, n)`, `find`, a comparator `sort` by a numeric key,
    `new Set(xs.map(f))` and its size. */
module Seqs {

  import opened Wrappers

  /** `s.filter(p)`: the elements satisfying `p`, in their original order. */
  function Filter<T>(s: seq<T>, p: T -> bool): (r: seq<T>)
    ensures |r| <= |s|
    ensures forall x :: x in r ==> x in s && p(x)
    ensures forall x :: x in s && p(x) ==> x in r
  {
    if |s| == 0 then []
    else if p(s[0]) then [s[0]] + Filter(s[1..], p)
    else Filter(s[1..], p)
  }

  /** Filtering distributes over concatenation: it keeps the relative order of
      the elements it keeps. */
  lemma {:induction false} FilterAppend<T>(a: seq<T>, b: seq<T>, p: T -> bool)
    ensures Filter(a + b, p) == Filter(a, p) + Filter(b, p)
  {
    if |a| > 0 {
      assert (a + b)[1..] == a[1..] + b;
      FilterAppend(a[1..], b, p);
    } else {
      assert a + b == b;
    }
  }

  /** A filter that every element passes is the identity. */
  lemma {:induction false} FilterKeepsAll<T>(s: seq<T>, p: T -> bool)
    requires forall i :: 0 <= i < |s| ==> p(s[i])
    ensures Filter(s, p) == s
  {
    if |s| > 0 {
      FilterKeepsAll(s[1..], p);
    }
  }

  /** `s.filter(p).length`. */
  function Count<T>(s: seq<T>, p: T -> bool): nat {
    |Filter(s, p)|
  }

  /** `s.slice(0, n)`. */
  function Take<T>(s: seq<T>, n: nat): (r: seq<T>)
    ensures |r| == if |s| < n then |s| else n
    ensures r == s[..|r|]
  {
    if |s| < n then s else s[..n]
  }

  ghost predicate SortedBy<T>(s: seq<T>, key: T -> int) {
    forall i, j :: 0 <= i < j < |s| ==> key(s[i]) <= key(s[j])
  }

  /** Filtering a sorted list leaves it sorted. */
  lemma {:induction false} FilterSorted<T>(s: seq<T>, p: T -> bool, key: T -> int)
    requires SortedBy(s, key)
    ensures SortedBy(Filter(s, p), key)
  {
    if |s| > 0 {
      FilterSorted(s[1..], p, key);
      var rest := Filter(s[1..], p);
      forall y | y in rest
        ensures key(s[0]) <= key(y)
      {
        var j :| 0 <= j < |s[1..]| && s[1..][j] == y;
        assert s[j + 1] == y;
      }
    }
  }

  /** The smallest key among `x` and the elements of the sorted `s`. */
  function LeastKey<T>(x: T, s: seq<T>, key: T -> int): int {
    if |s| == 0 || key(x) <= key(s[0]) then key(x) else key(s[0])
  }

  function Insert<T>(x: T, s: seq<T>, key: T -> int): (r: seq<T>)
    requires SortedBy(s, key)
    ensures SortedBy(r, key)
    ensures multiset(r) == multiset(s) + multiset{x}
    ensures forall i :: 0 <= i < |r| ==> LeastKey(x, s, key) <= key(r[i])
  {
    if |s| == 0 then [x]
    else if key(x) <= key(s[0]) then [x] + s
    else
      var rest := Insert(x, s[1..], key);
      assert s == [s[0]] + s[1..];
      assert key(s[0]) <= LeastKey(x, s[1..], key);
      [s[0]] + rest
  }

  /** `s.sort((a, b) => key(a) - key(b))`: a permutation of `s` in ascending
      order of `key`. A descending sort uses the negated key. */
  function SortBy<T>(s: seq<T>, key: T -> int): (r: seq<T>)
    ensures SortedBy(r, key)
    ensures multiset(r) == multiset(s)
  {
    if |s| == 0 then []
    else
      assert s == [s[0]] + s[1..];
      Insert(s[0], SortBy(s[1..], key), key)
  }

  /** Sorting neither adds nor drops an element. */
  lemma SortByMembers<T>(s: seq<T>, key: T -> int)
    ensures forall i :: 0 <= i < |SortBy(s, key)| ==> SortBy(s, key)[i] in s
    ensures forall i :: 0 <= i < |s| ==> s[i] in SortBy(s, key)
  {
    var r := SortBy(s, key);
    forall i | 0 <= i < |r|
      ensures r[i] in s
    {
      assert r[i] in multiset(r);
    }
    forall i | 0 <= i < |s|
      ensures s[i] in r
    {
      assert s[i] in multiset(s);
    }
  }

  /** Index of the first element satisfying `p`. */
  function FindIndex<T>(s: seq<T>, p: T -> bool): (r: Option<nat>)
    ensures r.Some? ==> r.value < |s| && p(s[r.value])
    ensures r.Some? ==> forall j :: 0 <= j < r.value ==> !p(s[j])
    ensures r.None? <==> forall i :: 0 <= i < |s| ==> !p(s[i])
  {
    if |s| == 0 then None
    else if p(s[0]) then Some(0)
    else match FindIndex(s[1..], p)
      case None => None
      case Some(i) => Some(i + 1)
  }

  /** `s.find(p)`: the first element satisfying `p`, if any. */
  function Find<T>(s: seq<T>, p: T -> bool): (r: Option<T>)
    ensures r.Some? ==> r.value in s && p(r.value)
    ensures r.None? <==> forall x :: x in s ==> !p(x)
  {
    match FindIndex(s, p)
    case None => None
    case Some(i) => Some(s[i])
  }

  /** `new Set(s.map(key))`. */
  function KeySet<T, K>(s: seq<T>, key: T -> K): (r: set<K>)
    ensures |r| <= |s|
    ensures forall i :: 0 <= i < |s| ==> key(s[i]) in r
    ensures forall k :: k in r ==> exists i :: 0 <= i < |s| && key(s[i]) == k
  {
    if |s| == 0 then {}
    else
      var rest := KeySet(s[1..], key);
      assert forall i :: 1 <= i < |s| ==> s[i] == s[1..][i - 1];
      {key(s[0])} + rest
  }

  /** The keys of a concatenation are the keys of its parts. */
  lemma {:induction false} KeySetAppend<T, K>(a: seq<T>, b: seq<T>, key: T -> K)
    ensures KeySet(a + b, key) == KeySet(a, key) + KeySet(b, key)
  {
    if |a| > 0 {
      assert (a + b)[1..] == a[1..] + b;
      KeySetAppend(a[1..], b, key);
    } else {
      assert a + b == b;
    }
  }

  ghost predicate Distinct<T>(s: seq<T>) {
    forall i, j :: 0 <= i < j < |s| ==> s[i] != s[j]
  }

  /** `[...new Set(s)]`: the distinct elements in order of first occurrence. */
  function Dedup<T(==)>(s: seq<T>): (r: seq<T>)
    ensures Distinct(r)
    ensures forall x :: x in r ==> x in s
    ensures forall x :: x in s ==> x in r
    ensures |r| <= |s|
  {
    if |s| == 0 then []
    else
      var rest := Dedup(s[..|s| - 1]);
      var last := s[|s| - 1];
      assert s == s[..|s| - 1] + [last];
      if last in rest then rest else rest + [last]
  }

  /** An element occurs at most once in a list without repeats. */
  lemma {:induction false} DistinctMultiplicity<T>(s: seq<T>, x: T)
    requires Distinct(s)
    ensures multiset(s)[x] <= 1
    decreases |s|
  {
    if |s| > 0 {
      assert s == [s[0]] + s[1..];
      assert Distinct(s[1..]) by {
        forall i, j | 0 <= i < j < |s[1..]|
          ensures s[1..][i] != s[1..][j]
        {
          assert s[1..][i] == s[i + 1] && s[1..][j] == s[j + 1];
        }
      }
      DistinctMultiplicity(s[1..], x);
      if x == s[0] {
        assert x !in s[1..];
      }
    }
  }

  /** A reordering of a list without repeats has no repeats. */
  lemma DistinctPermutation<T>(s: seq<T>, r: seq<T>)
    requires Distinct(s) && multiset(r) == multiset(s)
    ensures Distinct(r)
  {
    forall i, j | 0 <= i < j < |r|
      ensures r[i] != r[j]
    {
      DistinctMultiplicity(s, r[i]);
      assert r == r[..j] + r[j..];
      assert multiset(r)[r[i]] == multiset(r[..j])[r[i]] + multiset(r[j..])[r[i]];
      assert r[i] in r[..j] && r[j] in r[j..];
    }
  }

  /** Filtering by two tests that agree on every element gives the same
      list. */
  lemma {:induction false} FilterExt<T>(s: seq<T>, p: T -> bool, q: T -> bool)
    requires forall i :: 0 <= i < |s| ==> p(s[i]) == q(s[i])
    ensures Filter(s, p) == Filter(s, q)
  {
    if |s| > 0 {
      FilterExt(s[1..], p, q);
    }
  }

  /** Two filters in a row are one filter by the conjunction of their tests,
      so a chain of filters keeps the relative order of what it keeps. */
  lemma {:induction false} FilterFilter<T>(s: seq<T>, p: T -> bool, q: T -> bool, both: T -> bool)
    requires forall i :: 0 <= i < |s| ==> both(s[i]) == (p(s[i]) && q(s[i]))
    ensures Filter(Filter(s, p), q) == Filter(s, both)
  {
    if |s| > 0 {
      FilterFilter(s[1..], p, q, both);
      if p(s[0]) {
        assert Filter(s, p) == [s[0]] + Filter(s[1..], p);
        assert ([s[0]] + Filter(s[1..], p))[1..] == Filter(s[1..], p);
      }
    }
  }
}

=== FILE: session.dfy ===
/** The session of `context/AuthContext.jsx`, with the error translation of
    `services/authService.js` folded in. The state is the current user, the
    loading flag, and the `healthcare_user` slot of local storage, which
    survives a page reload. JSON serialisation of the stored identity is taken
    to round-trip. */
module Session {

  import opened Wrappers

  /** The login response, kept as the identity. */
  datatype Identity = Identity(
    userId: int,
    username: string,
    firstName: string,
    lastName: string,
    role: string,
    success: bool,
    message: Option<string>)

  datatype State = State(user: Option<Identity>, loading: bool, stored: Option<Identity>)

  /** The provider's state before its effect runs: no user, loading, and
      whatever local storage holds from earlier. */
  function Boot(stored: Option<Identity>): (s: State)
    ensures s.user.None? && s.loading && s.stored == stored
  {
    State(None, true, stored)
  }

  /** The mount effect: restore the saved user if the key is present, and stop
      loading either way. */
  function Init(s: State): (r: State)
    ensures !r.loading && r.stored == s.stored
    ensures s.stored.Some? ==> r.user == s.stored
    ensures s.stored.None? ==> r.user == s.user
  {
    State(if s.stored.Some? then s.stored else s.user, false, s.stored)
  }

  /** What the HTTP layer does with `POST /api/auth/login`. */
  datatype Backend = Responds(response: Identity) | Fails

  /** What `authService.login` hands back: the response, or a thrown
      `Error('Login failed')` for every failure below it. */
  datatype ServiceOutcome = Returned(response: Identity) | Threw

  function ServiceLogin(b: Backend): (r: ServiceOutcome)
    ensures r.Threw? <==> b.Fails?
    ensures b.Responds? ==> r == Returned(b.response)
  {
    match b
    case Responds(resp) => Returned(resp)
    case Fails => Threw
  }

  /** The value `login` resolves to. */
  datatype LoginResult = LoginResult(success: bool, message: Option<string>)

  datatype LoginStep = LoginStep(state: State, result: LoginResult)

  const TryAgainMessage: string := "Login failed. Please try again."

  /** `login(credentials)`: a successful response becomes the user and is
      written to storage; a refusal passes the backend's message on verbatim;
      a thrown error gives the fixed message. Only success changes the state. */
  function Login(s: State, b: Backend): (r: LoginStep)
    ensures r.result.success <==> b.Responds? && b.response.success
    ensures r.result.success ==>
      r.state == s.(user := Some(b.response), stored := Some(b.response)) && r.result.message.None?
    ensures !r.result.success ==> r.state == s
    ensures b.Responds? && !b.response.success ==> r.result.message == b.response.message
    ensures b.Fails? ==> r.result.message == Some(TryAgainMessage)
  {
    match ServiceLogin(b)
    case Returned(resp) =>
      if resp.success then LoginStep(s.(user := Some(resp), stored := Some(resp)), LoginResult(true, None))
      else LoginStep(s, LoginResult(false, resp.message))
    case Threw => LoginStep(s, LoginResult(false, Some(TryAgainMessage)))
  }

  /** `logout()`: clear the user and the storage slot, then notify the backend,
      whose failure `authService.logout` swallows. */
  function Logout(s: State, backendFails: bool): (r: State)
    ensures r.user.None? && r.stored.None? && r.loading == s.loading
  {
    s.(user := None, stored := None)
  }

  /** Local logout does not depend on the backend call. */
  lemma LogoutIgnoresBackend(s: State)
    ensures Logout(s, true) == Logout(s, false)
  {
  }

  /** Everything that can happen to a session: a login attempt, a logout, or a
      reload of the page, which starts a fresh provider over the same storage. */
  datatype Event = SignIn(backend: Backend) | SignOut(backendFails: bool) | Reload

  function Apply(s: State, e: Event): State {
    match e
    case SignIn(b) => Login(s, b).state
    case SignOut(fails) => Logout(s, fails)
    case Reload => Init(Boot(s.stored))
  }

  function Run(s: State, events: seq<Event>): State
    decreases |events|
  {
    if |events| == 0 then s else Run(Apply(s, events[0]), events[1..])
  }

  /** After start-up the user shown is always the one in storage and loading
      is over; in particular a present user implies loading is false. */
  predicate Synced(s: State) {
    !s.loading && s.user == s.stored
  }

  /** Start-up reaches a synced state whatever storage holds. */
  lemma StartupSynced(stored: Option<Identity>)
    ensures Synced(Init(Boot(stored)))
    ensures Init(Boot(stored)).user == stored
  {
  }

  /** Every event keeps the session synced, so every session reachable from
      start-up is synced. */
  lemma {:induction false} RunKeepsSynced(s: State, events: seq<Event>)
    requires Synced(s)
    ensures Synced(Run(s, events))
    decreases |events|
  {
    if |events| > 0 {
      RunKeepsSynced(Apply(s, events[0]), events[1..]);
    }
  }

  /** Round trip: after a successful login, a reload restores exactly the
      identity the backend returned. */
  lemma LoginThenReloadRestores(s: State, response: Identity)
    requires response.success
    ensures Apply(Login(s, Responds(response)).state, Reload).user == Some(response)
  {
  }
}

=== FILE: sidebar.dfy ===
/** The navigation menu of `components/common/Sidebar.jsx`. The icons are
    presentation only and are not modelled. */
module Sidebar {

  import opened Wrappers
  import opened Constants
  import Routing

  datatype MenuItem = MenuItem(path: string, title: string)

  function ItemPath(item: MenuItem): string {
    item.path
  }

  /** `getMenuItems()`, switching on `user?.role`: one list per known role,
      and no entries for an absent user or a role outside the three. */
  function MenuItems(role: Option<string>): (r: seq<MenuItem>)
    ensures (role.None? || ParseRole(role.value).None?) <==> |r| == 0
    ensures role.Some? && ParseRole(role.value).Some? ==>
      r[0] == MenuItem(Routing.DashboardPath(ParseRole(role.value).value), "Dashboard")
  {
    if role.None? then []
    else match ParseRole(role.value)
      case Some(Admin) => [
        MenuItem("/admin/dashboard", "Dashboard"),
        MenuItem("/admin/users", "User Management"),
        MenuItem("/admin/patients", "Patients"),
        MenuItem("/admin/doctors", "Doctors"),
        MenuItem("/admin/appointments", "Appointments")]
      case Some(Doctor) => [
        MenuItem("/doctor/dashboard", "Dashboard"),
        MenuItem("/doctor/appointments", "My Appointments"),
        MenuItem("/doctor/patients", "Patient Records")]
      case Some(Patient) => [
        MenuItem("/patient/dashboard", "Dashboard"),
        MenuItem("/patient/book-appointment", "Book Appointment"),
        MenuItem("/patient/medical-history", "Medical History")]
      case None => []
  }

  /** `isActive(path)`: the link's path is the current location. */
  predicate IsActive(location: string, item: MenuItem) {
    item.path == location
  }

  /** How many links of a menu are highlighted for a location. */
  function ActiveCount(items: seq<MenuItem>, location: string): (n: nat)
    ensures n <= |items|
    ensures n == 0 <==> forall i :: 0 <= i < |items| ==> !IsActive(location, items[i])
    decreases |items|
  {
    if |items| == 0 then 0
    else (if IsActive(location, items[0]) then 1 else 0) + ActiveCount(items[1..], location)
  }

  /** No two links of a menu share a path (they are also the React keys). */
  predicate DistinctPaths(items: seq<MenuItem>) {
    forall i, j :: 0 <= i < j < |items| ==> items[i].path != items[j].path
  }

  /** With distinct paths at most one link is highlighted, whatever the
      location. */
  lemma {:induction false} DistinctPathsOneActive(items: seq<MenuItem>, location: string)
    requires DistinctPaths(items)
    ensures ActiveCount(items, location) <= 1
    decreases |items|
  {
    if |items| > 0 {
      assert DistinctPaths(items[1..]) by {
        forall i, j | 0 <= i < j < |items[1..]|
          ensures items[1..][i].path != items[1..][j].path
        {
          assert items[1..][i] == items[i + 1] && items[1..][j] == items[j + 1];
        }
      }
      DistinctPathsOneActive(items[1..], location);
      if IsActive(location, items[0]) {
        forall i | 0 <= i < |items[1..]|
          ensures !IsActive(location, items[1..][i])
        {
          assert items[1..][i] == items[i + 1];
        }
      }
    }
  }

  /** Every menu has distinct paths, so at most one link is ever active. */
  lemma MenuHighlightsAtMostOne(role: Option<string>, location: string)
    ensures DistinctPaths(MenuItems(role))
    ensures ActiveCount(MenuItems(role), location) <= 1
  {
    DistinctPathsOneActive(MenuItems(role), location);
  }

  /** The menu agrees with the route table: each link of a role's menu goes to
      a guarded route whose role list admits that role, so following a link
      never bounces the user. */
  lemma MenuLinksAdmitRole(r: Role, i: int)
    requires 0 <= i < |MenuItems(Some(RoleName(r)))|
    ensures MenuItems(Some(RoleName(r)))[i].path in Routing.Routes
    ensures Routing.Routes[MenuItems(Some(RoleName(r)))[i].path].Protected?
    ensures Routing.Admits(Routing.Routes[MenuItems(Some(RoleName(r)))[i].path].allowedRoles, RoleName(r))
  {
  }

  /** The role list the route table gives to the pages of a role's own
      section. */
  function SectionRoles(r: Role): seq<string> {
    match r
    case Admin => Routing.AdminOnly
    case Doctor => Routing.DoctorOrAdmin
    case Patient => Routing.PatientOrAdmin
  }

  /** The menu of each role covers its section of the route table: every
      route guarded by the section's role list has a link. */
  lemma MenuCoversRolePages(r: Role, path: string)
    requires path in Routing.Routes && Routing.Routes[path] == Routing.Protected(SectionRoles(r))
    ensures exists i :: 0 <= i < |MenuItems(Some(RoleName(r)))| && MenuItems(Some(RoleName(r)))[i].path == path
  {
    Routing.DeclaredPaths(path);
    var menu := MenuItems(Some(RoleName(r)));
    // The section's routes are the menu's entries, in order.
    var i := match r
      case Admin => (if path == "/admin/dashboard" then 0 else if path == "/admin/users" then 1
        else if path == "/admin/patients" then 2 else if path == "/admin/doctors" then 3 else 4)
      case Doctor => (if path == "/doctor/dashboard" then 0 else if path == "/doctor/appointments" then 1 else 2)
      case Patient => (if path == "/patient/dashboard" then 0 else if path == "/patient/book-appointment" then 1 else 2);
    assert menu[i].path == path;
  }
}

=== FILE: text.dfy ===
/** String operations the views rely on: ASCII `toLowerCase`, `includes`,
    decimal `toString` of an integer, the "first n characters plus '...'"
    preview, and the lexicographic order used by a default `sort()`. */
module Text {

  import opened Wrappers

  /** `toLowerCase` restricted to ASCII: upper-case Latin letters map to lower
      case, every other character is left alone. */
  function LowerChar(c: char): char {
    if 'A' <= c <= 'Z' then (c as int + 32) as char else c
  }

  function Lower(s: string): (r: string)
    ensures |r| == |s|
    ensures forall i :: 0 <= i < |s| ==> r[i] == LowerChar(s[i])
  {
    seq(|s|, i requires 0 <= i < |s| => LowerChar(s[i]))
  }

  /** Lower-casing twice is lower-casing once. */
  lemma LowerIdempotent(s: string)
    ensures Lower(Lower(s)) == Lower(s)
  {
    assert forall i :: 0 <= i < |s| ==> LowerChar(LowerChar(s[i])) == LowerChar(s[i]);
  }

  /** JavaScript's truthiness of an optional string: present and non-empty. */
  predicate Truthy(s: Option<string>) {
    s.Some? && s.value != ""
  }

  /** `s || ''` for an optional string. */
  function OrEmpty(s: Option<string>): (r: string)
    ensures Truthy(s) ==> r == s.value
    ensures !Truthy(s) ==> r == ""
  {
    if s.Some? then s.value else ""
  }

  /** `needle` occurs in `hay` starting at index `i`. */
  predicate OccursAt(hay: string, needle: string, i: int) {
    0 <= i && i + |needle| <= |hay| && hay[i..i + |needle|] == needle
  }

  /** `hay.includes(needle)`. */
  predicate Includes(hay: string, needle: string) {
    exists i :: 0 <= i <= |hay| && OccursAt(hay, needle, i)
  }

  /** The empty string occurs in every string, so an empty search term keeps
      everything. */
  lemma IncludesEmpty(hay: string)
    ensures Includes(hay, "")
  {
    assert OccursAt(hay, "", 0);
  }

  /** `hay.toLowerCase().includes(needle.toLowerCase())`. */
  predicate IncludesIgnoringCase(hay: string, needle: string) {
    Includes(Lower(hay), Lower(needle))
  }

  /** Lower-casing the search term first changes nothing. */
  lemma IncludesIgnoringCaseOfLower(hay: string, needle: string)
    ensures IncludesIgnoringCase(hay, Lower(needle)) == IncludesIgnoringCase(hay, needle)
  {
    LowerIdempotent(needle);
  }

  /** `s.length > n ? s.substring(0, n) + '...' : s`. */
  function Preview(s: string, n: nat): (r: string)
    ensures |s| <= n ==> r == s
    ensures |s| > n ==> |r| == n + 3 && r[..n] == s[..n] && r[n..] == "..."
  {
    if |s| > n then s[..n] + "..." else s
  }

  /** Every preview starts with as much of the text as fits and is never
      longer than the cap plus the ellipsis. */
  lemma PreviewKeepsPrefix(s: string, n: nat)
    ensures |Preview(s, n)| <= n + 3
    ensures var k := if |s| < n then |s| else n; Preview(s, n)[..k] == s[..k]
  {
  }

  function DigitChar(d: int): (c: char)
    requires 0 <= d < 10
    ensures '0' <= c <= '9'
  {
    (48 + d) as char
  }

  /** Decimal digits of a natural number, most significant first. */
  function NatToString(n: nat): (r: string)
    ensures |r| >= 1
    ensures forall i :: 0 <= i < |r| ==> '0' <= r[i] <= '9'
    ensures n < 10 <==> |r| == 1
  {
    if n < 10 then [DigitChar(n)] else NatToString(n / 10) + [DigitChar(n % 10)]
  }

  /** `n.toString()` for an integer. */
  function IntToString(n: int): (r: string)
    ensures |r| >= 1
  {
    if n < 0 then "-" + NatToString(-n) else NatToString(n)
  }

  lemma {:induction false} NatToStringInjective(a: nat, b: nat)
    requires NatToString(a) == NatToString(b)
    ensures a == b
  {
    var sa, sb := NatToString(a), NatToString(b);
    if a < 10 || b < 10 {
      assert |sa| == 1 && |sb| == 1;
      assert sa[0] == DigitChar(a) && sb[0] == DigitChar(b);
    } else {
      assert sa[..|sa| - 1] == NatToString(a / 10);
      assert sb[..|sb| - 1] == NatToString(b / 10);
      NatToStringInjective(a / 10, b / 10);
      assert sa[|sa| - 1] == DigitChar(a % 10);
      assert sb[|sb| - 1] == DigitChar(b % 10);
    }
  }

  /** The printed form starts with '-' exactly for negative numbers. */
  lemma IntToStringSign(n: int)
    ensures IntToString(n)[0] == '-' <==> n < 0
  {
    if n >= 0 {
      assert '0' <= NatToString(n)[0] <= '9';
    }
  }

  /** Distinct integers print differently, so comparing `x.toString()` with
      the printed form of an id selects exactly that id. */
  lemma IntToStringInjective(a: int, b: int)
    ensures IntToString(a) == IntToString(b) <==> a == b
  {
    IntToStringSign(a);
    IntToStringSign(b);
    if IntToString(a) == IntToString(b) {
      var s := IntToString(a);
      if a < 0 && b < 0 {
        assert NatToString(-a) == s[1..] == NatToString(-b);
        NatToStringInjective(-a, -b);
      } else if a >= 0 && b >= 0 {
        NatToStringInjective(a, b);
      }
    }
  }

  /** Lexicographic order by character code, the order of a default
      `Array.prototype.sort()` on strings of the Basic Multilingual Plane. */
  predicate StrLe(a: string, b: string)
    decreases |a|
  {
    if |a| == 0 then true
    else if |b| == 0 then false
    else if a[0] != b[0] then a[0] < b[0]
    else StrLe(a[1..], b[1..])
  }

  predicate StrLt(a: string, b: string) {
    StrLe(a, b) && a != b
  }

  lemma {:induction false} StrLeTotal(a: string, b: string)
    ensures StrLe(a, b) || StrLe(b, a)
    decreases |a|
  {
    if |a| > 0 && |b| > 0 && a[0] == b[0] {
      StrLeTotal(a[1..], b[1..]);
    }
  }

  lemma {:induction false} StrLeAntisymmetric(a: string, b: string)
    requires StrLe(a, b) && StrLe(b, a)
    ensures a == b
    decreases |a|
  {
    if |a| > 0 && |b| > 0 {
      StrLeAntisymmetric(a[1..], b[1..]);
      assert a == [a[0]] + a[1..] && b == [b[0]] + b[1..];
    }
  }

  lemma {:induction false} StrLeTransitive(a: string, b: string, c: string)
    requires StrLe(a, b) && StrLe(b, c)
    ensures StrLe(a, c)
    decreases |a|
  {
    if |a| > 0 && |b| > 0 && |c| > 0 && a[0] == b[0] == c[0] {
      StrLeTransitive(a[1..], b[1..], c[1..]);
    }
  }

  ghost predicate SortedStrings(s: seq<string>) {
    forall i, j :: 0 <= i < j < |s| ==> StrLe(s[i], s[j])
  }

  /** Inserting `x` in front of the first element it does not exceed. */
  function InsertString(x: string, s: seq<string>): (r: seq<string>)
    ensures multiset(r) == multiset(s) + multiset{x}
    ensures |r| == |s| + 1
  {
    if |s| == 0 || StrLe(x, s[0]) then [x] + s
    else
      assert s == [s[0]] + s[1..];
      [s[0]] + InsertString(x, s[1..])
  }

  /** `s.sort()` on strings: an insertion sort by `StrLe`. */
  function SortStrings(s: seq<string>): (r: seq<string>)
    ensures multiset(r) == multiset(s)
    ensures |r| == |s|
  {
    if |s| == 0 then []
    else
      assert s == [s[0]] + s[1..];
      InsertString(s[0], SortStrings(s[1..]))
  }

  /** Insertion into a sorted list keeps it sorted, and every element of the
      result is at least the smaller of `x` and the old head. */
  lemma {:induction false} InsertStringSorted(x: string, s: seq<string>)
    requires SortedStrings(s)
    ensures SortedStrings(InsertString(x, s))
    ensures forall i :: 0 <= i < |InsertString(x, s)| ==>
      StrLe(x, InsertString(x, s)[i]) || (|s| > 0 && StrLe(s[0], InsertString(x, s)[i]))
    decreases |s|
  {
    var r := InsertString(x, s);
    if |s| == 0 {
      StrLeReflexive(x);
    } else if StrLe(x, s[0]) {
      assert r == [x] + s;
      forall i | 0 <= i < |r|
        ensures StrLe(x, r[i])
      {
        if i == 0 {
          StrLeReflexive(x);
        } else if i > 1 {
          assert r[i] == s[i - 1];
          StrLeTransitive(x, s[0], s[i - 1]);
        }
      }
      forall i, j | 0 <= i < j < |r|
        ensures StrLe(r[i], r[j])
      {
        if i > 0 {
          assert r[i] == s[i - 1] && r[j] == s[j - 1];
        }
      }
    } else {
      StrLeTotal(x, s[0]);
      var rest := InsertString(x, s[1..]);
      assert SortedStrings(s[1..]) by {
        forall i, j | 0 <= i < j < |s[1..]|
          ensures StrLe(s[1..][i], s[1..][j])
        {
          assert s[1..][i] == s[i + 1] && s[1..][j] == s[j + 1];
        }
      }
      InsertStringSorted(x, s[1..]);
      assert r == [s[0]] + rest;
      forall k | 0 <= k < |rest|
        ensures StrLe(s[0], rest[k])
      {
        if StrLe(x, rest[k]) {
          StrLeTransitive(s[0], x, rest[k]);
        } else {
          assert |s[1..]| > 0 && StrLe(s[1..][0], rest[k]);
          StrLeTransitive(s[0], s[1], rest[k]);
        }
      }
      forall i, j | 0 <= i < j < |r|
        ensures StrLe(r[i], r[j])
      {
        if i > 0 {
          assert r[i] == rest[i - 1] && r[j] == rest[j - 1];
        }
      }
      forall i | 0 <= i < |r|
        ensures StrLe(s[0], r[i])
      {
        if i > 0 {
          assert r[i] == rest[i - 1];
        } else {
          StrLeReflexive(s[0]);
        }
      }
    }
  }

  lemma {:induction false} StrLeReflexive(a: string)
    ensures StrLe(a, a)
    decreases |a|
  {
    if |a| > 0 {
      StrLeReflexive(a[1..]);
    }
  }

  /** `sort()` returns its strings in ascending order. */
  lemma {:induction false} SortStringsSorted(s: seq<string>)
    ensures SortedStrings(SortStrings(s))
    decreases |s|
  {
    if |s| > 0 {
      SortStringsSorted(s[1..]);
      InsertStringSorted(s[0], SortStrings(s[1..]));
    }
  }
}

=== FILE: user_management.dfy ===
/** The administrator's account screen, `components/admin/UserManagement.jsx`:
    the flat form with its checkbox, the edit and reset forms, the fields
    the browser requires before it lets the form submit, the row actions,
    and the create-or-update submit. */
module UserManagement {

  import opened Wrappers
  import opened Entities
  import Text
  import Forms
  import AccountForm

  /** The form `resetForm` restores: blank text, a patient account, active.
      The flat form has the same fields as the nested account part of the
      patient and doctor forms. */
  const Defaults: Forms.Form := AccountForm.Blank("PATIENT")

  /** The form `handleEdit` loads for an account: its fields, the password
      blank, a missing phone number as ''. */
  function EditForm(u: User): (f: Forms.Form)
    ensures f.Keys == AccountForm.Fields
    ensures f["password"] == Forms.Str("")
    ensures f["phoneNumber"] == Forms.Str(Text.OrEmpty(u.phoneNumber))
    ensures f["username"] == Forms.Str(u.username) && f["email"] == Forms.Str(u.email)
    ensures f["firstName"] == Forms.Str(u.firstName) && f["lastName"] == Forms.Str(u.lastName)
    ensures f["role"] == Forms.Str(u.role) && f["active"] == Forms.Bool(u.active)
  {
    AccountForm.Edit(u, u.role)
  }

  /** `handleEdit`. */
  function HandleEdit(s: Forms.Screen, u: User): (r: Forms.Screen)
    ensures r.editing == Some(u.id) && r.showModal && r.form == EditForm(u)
  {
    Forms.StartEdit(s, u.id, EditForm(u))
  }

  /** `openAddModal`. */
  function OpenAdd(s: Forms.Screen): (r: Forms.Screen)
    ensures r.editing.None? && r.showModal && r.form == Defaults
  {
    Forms.OpenAdd(s, Defaults)
  }

  /** The username input is disabled while an account is edited, so it
      sends no change events then. */
  predicate Enabled(s: Forms.Screen, name: string) {
    !(name == "username" && s.editing.Some?)
  }

  /** `handleInputChange`: the named field takes `checked` for the checkbox
      and the typed value otherwise; a disabled input changes nothing. */
  function HandleChange(s: Forms.Screen, e: Forms.Input): (r: Forms.Screen)
    ensures !Enabled(s, e.name) ==> r == s
    ensures Enabled(s, e.name) ==>
      && r.editing == s.editing && r.showModal == s.showModal
      && r.form == Forms.SetField(s.form, e.name, Forms.CheckedOrValue(e))
  {
    if Enabled(s, e.name) then s.(form := Forms.SetField(s.form, e.name, Forms.CheckedOrValue(e))) else s
  }

  /** The fields the browser requires filled before it submits: the
      password only when creating, and the username only while its input is
      enabled, since a disabled input is not checked. */
  function RequiredFields(s: Forms.Screen): (r: set<string>)
    ensures "password" in r <==> s.editing.None?
    ensures "username" in r <==> s.editing.None?
    ensures {"email", "firstName", "lastName", "role"} <= r
  {
    {"email", "firstName", "lastName", "role"} + (if s.editing.None? then {"username", "password"} else {})
  }

  predicate Filled(f: Forms.Form, k: string) {
    k in f && f[k] != Forms.Str("")
  }

  /** The browser lets the form submit. */
  predicate Submittable(s: Forms.Screen) {
    forall k :: k in RequiredFields(s) ==> Filled(s.form, k)
  }

  /** `handleSubmit` against the backend's answer: the request it sends and
      the screen after it. A failed save is only logged, so the modal stays
      open with the form as it was. */
  function Submit(s: Forms.Screen, succeeded: bool): (r: (Forms.SaveRequest, Forms.Screen))
    ensures r.0.Update? <==> s.editing.Some?
    ensures r.0.Update? ==> r.0.id == s.editing.value
    ensures r.0.payload == s.form
    ensures succeeded ==> r.1 == Forms.Screen(Defaults, None, false)
    ensures !succeeded ==> r.1 == s
  {
    (Forms.SaveRequestOf(s), Forms.AfterSave(s, succeeded, Defaults))
  }

  /** On an add form whose other required fields are filled, a blank
      password alone blocks the submit; a fresh add form cannot be
      submitted; an edit goes through with the blank password its form
      holds. */
  lemma BlankPasswordOnlyForEdits(s: Forms.Screen, u: User)
    requires u.email != "" && u.firstName != "" && u.lastName != "" && u.role != ""
    ensures s.editing.None? && (forall k :: k in RequiredFields(s) && k != "password" ==> Filled(s.form, k)) ==>
      (Submittable(s) <==> Filled(s.form, "password"))
    ensures !Submittable(OpenAdd(s))
    ensures Submittable(HandleEdit(s, u))
    ensures HandleEdit(s, u).form["password"] == Forms.Str("")
  {
    assert !Filled(OpenAdd(s).form, "username");
  }

  /** While an account is edited its username cannot change, so the update
      carries the username it had. */
  lemma EditKeepsUsername(s: Forms.Screen, u: User, events: seq<Forms.Input>)
    ensures var payload := Submit(ApplyAll(HandleEdit(s, u), events), true).0.payload;
      "username" in payload && payload["username"] == Forms.Str(u.username)
  {
    EditingKeepsUsername(HandleEdit(s, u), events);
  }

  /** A sequence of change events, in order. */
  function ApplyAll(s: Forms.Screen, events: seq<Forms.Input>): (r: Forms.Screen)
    ensures r.editing == s.editing && r.showModal == s.showModal
    decreases |events|
  {
    if |events| == 0 then s else ApplyAll(HandleChange(s, events[0]), events[1..])
  }

  lemma {:induction false} EditingKeepsUsername(s: Forms.Screen, events: seq<Forms.Input>)
    requires s.editing.Some? && "username" in s.form
    ensures "username" in ApplyAll(s, events).form
    ensures ApplyAll(s, events).form["username"] == s.form["username"]
    decreases |events|
  {
    if |events| > 0 {
      EditingKeepsUsername(HandleChange(s, events[0]), events[1..]);
    }
  }

  datatype Action = Edit | Deactivate | Delete

  /** The buttons of an account's row: 'Deactivate' only for an active
      account, between the other two. */
  function RowActions(u: User): (r: seq<Action>)
    ensures Deactivate in r <==> u.active
    ensures |r| >= 2 && r[0] == Edit && r[|r| - 1] == Delete
  {
    if u.active then [Edit, Deactivate, Delete] else [Edit, Delete]
  }

  /** The phone column: the number, or 'N/A' when there is none. */
  function PhoneShown(u: User): (r: string)
    ensures Text.Truthy(u.phoneNumber) ==> r == u.phoneNumber.value
    ensures !Text.Truthy(u.phoneNumber) ==> r == "N/A"
  {
    if Text.Truthy(u.phoneNumber) then u.phoneNumber.value else "N/A"
  }
}

=== FILE: wrappers.dfy ===
/** The optional values the client works with: JavaScript `null`/`undefined`
    on one side, a present value on the other. */
module Wrappers {

  datatype Option<+T> = None | Some(value: T) {

    /** The value, or `default` when absent (JavaScript's `x ?? default`). */
    function GetOr(default: T): T {
      match this
      case Some(v) => v
      case None => default
    }
  }
}
